=== FILE: README.md ===
# Big-Pi reverb core in Dafny

A model of the signal-processing core of the Big-Pi algorithmic reverb, with proofs about it.
The reverb is a feedback delay network ("tank") of up to 16 modulated delay lines. In front
of the tank sit a pre-delay and a chain of input allpass diffusers. After it come a tap
pattern renderer, late diffusion, ducking and a dry/wet mix. Thirteen "modes" (Room, Hall,
Plate, Shimmer, ...) are recipes that configure these blocks.

Samples and coefficients are Dafny `real`s. Library functions (`exp`, `sin`, `cos`, `tanh`,
`pow`, `sqrt`, dB conversion) are function-valued parameters. A property that needs one of
their facts asks for that fact in its `requires`. C's `int(x)`, `%` and `uint32_t`
wrap-around are written out (`Dsp.Trunc`, `TapPatterns.CRem`, `Noise.LcgStep`).

Modules, following the source layout:

- `Dsp`, `Delay`, `AllpassStage`, `Noise`, `MultiLfo`, `Spinner`: the building blocks of
  `src/dsp/common/Dsp.h`. These are the clamps, the one-pole filters, the envelope follower,
  the circular delay line with its cubic fractional read, the Schroeder allpass, the smoothed
  LCG noise, the LFO bank, the soft saturator and the stereo rotation.
- `DspUnguarded`: the copy under `src/dsp/engines/common/Dsp.h`. The differences modelled
  are the missing size guards of the allpass and the delay line, the unchecked sample rates
  of the LFO bank and the noise, and the missing denormal flush in the one-pole filters, the
  envelope follower and the noise. A contract or lemma relates each to the canonical model.
  The remaining differences are listed under "Left out".
- `Sums`: sums and energies of `seq<real>` prefixes, and the scaling facts the matrix proofs
  use.
- `Matrices`, `MatricesLegacy`: the Householder reflection and the fast Walsh-Hadamard mix
  (`src/dsp/tail/Matrices.*`), and the earlier revision (`Source/ReverbCore/Matrices.cpp`).
- `TapPatterns`, `TapPatternsLegacy`: the four output tap patterns, the pattern morph and
  the earlier pattern 3.
- `Diffusion`: the input and late allpass chains with their seeded stage times.
- `Tank`: the per-sample step of the delay network.
- `Modes`, `ModePresets`: the mode enumeration, its categories and the per-mode recipes.
- `Engine`, `EngineBlock`: `ReverbEngine`'s parameter handling (`prepare`, `reset`,
  `setParams`, `applyModePreset`) and its `processBlock`.
- `EngineAsWritten`: two engine steps exactly as the source writes them, kept to exhibit
  the findings below. The rest of the model uses the corrected steps.

`src/dsp/diffusion/Diffusion.cpp:106` calls `clampStages`, which only
`Source/ReverbCore/Diffusion.h:152-154` defines. It clamps to `[0, 8]` exactly as
`clampInputStages` in `src/dsp/diffusion/Diffusion.h` does, and `Diffusion.ClampInputStages`
models both.

## Model

| member | source | states |
|---|---|---|
| Dsp.Clamp | src/dsp/common/Dsp.h:27-36 | for `lo <= hi` the result lies in [lo, hi], is `x` when `x` is already inside and the nearer bound otherwise; an inverted range yields `lo` |
| Dsp.Clamp01 | src/dsp/common/Dsp.h:39-41 | the result lies in [0, 1], is `x` inside it and 0 or 1 outside |
| Dsp.ClampInt | src/dsp/common/Dsp.h:27-30 | the integer clamp lies in [lo, hi] and keeps inside values |
| Dsp.ClampIdempotent | src/dsp/common/Dsp.h:27-36 | clamping a clamped value changes nothing |
| Dsp.Trunc | src/dsp/common/Dsp.h:288 | C's `int(x)`: the integer lies within one of `x`, on the side of 0 |
| Dsp.KillDenorm | src/dsp/common/Dsp.h:61-63 | magnitudes below 1e-20 become 0, every other value is kept |
| Dsp.KillDenormIdempotent | src/dsp/common/Dsp.h:61-63 | scrubbing twice is scrubbing once |
| Dsp.SetCutoff | src/dsp/common/Dsp.h:98-101 | the state is kept, and for an `exp` below 1 on negative arguments the pole lies in (0, 1) |
| Dsp.LowPass | src/dsp/common/Dsp.h:103-107 | the output is the new state, and with `a` in [0, 1] it lies between the old state and the input (or is 0 after scrubbing) |
| Dsp.Glide | src/dsp/common/Dsp.h:103-107 | the one-pole update `a*z + (1-a)*x` lies between the old value and the input for `a` in [0, 1] |
| Dsp.HighPass | src/dsp/common/Dsp.h:121-125 | the high-pass output plus the updated low-pass state is the input |
| Dsp.Crossfade | src/dsp/diffusion/Diffusion.cpp:185-187 | amount 0 gives the dry sample, amount 1 the wet one, and any amount in [0, 1] a value between them |
| Dsp.ClearPole | src/dsp/common/Dsp.h:96 | clearing zeroes the state and keeps the pole |
| Dsp.Follow | src/dsp/common/Dsp.h:254-260 | the envelope moves towards the input magnitude (between old value and magnitude, or 0) and stays non-negative |
| Dsp.ClearEnvelope | src/dsp/common/Dsp.h:252 | clearing zeroes the envelope and keeps both coefficients |
| Dsp.Curve01 | src/dsp/common/Dsp.h:54-58 | `pow(x, shape)` when `x` lies in [0, 1] and `shape` in [0.05, 10]; a base of 0 for `x <= 0` and of 1 for `x >= 1`, with the exponent clamped to [0.05, 10]; always `pow` of an argument in [0, 1] and an exponent in [0.05, 10], hence in [0, 1] for a `pow` with that range |
| Dsp.SoftSat | src/dsp/common/Dsp.h:407-415 | the normalised saturator maps 1 to 1 and 0 to 0 |
| Dsp.DriveGain | src/dsp/common/Dsp.h:408-410 | `1 + drive` with the drive clamped to [0, 10] lies in [1, 11] |
| Dsp.SoftSatOdd | src/dsp/common/Dsp.h:407-415 | for an odd `tanh` the saturator is odd |
| Delay.Zeros | src/dsp/common/Dsp.h:314 | a zero-filled buffer of the requested length |
| Delay.NextCursor | src/dsp/common/Dsp.h:326-327 | the incremented-and-wrapped cursor is `(i + 1) mod n` and stays in [0, n) |
| Delay.Init | src/dsp/common/Dsp.h:313-316 | at least 4 zeroed slots (exactly the request from 4 on) and the cursor at 0 |
| Delay.Clear | src/dsp/common/Dsp.h:318-321 | all slots zero, cursor 0, capacity unchanged |
| Delay.Push | src/dsp/common/Dsp.h:323-328 | an empty line is unchanged; otherwise only the slot under the cursor changes, to `x`, and the cursor advances modulo the capacity |
| Delay.PushAll | src/dsp/common/Dsp.h:323-328 | successive pushes keep the line well formed and its capacity fixed |
| Delay.ReadPosition | src/dsp/common/Dsp.h:335-337 | the folded position lies in [0, n) and is `w - delay` moved by at most one capacity |
| Delay.ReadTaps | src/dsp/common/Dsp.h:333-344 | all four neighbour indices lie in [0, n) and are consecutive modulo n, the fraction lies in [0, 1), and index plus fraction is the folded position of the clamped delay |
| Delay.FoldReadPosition | src/dsp/common/Dsp.h:335-337 | the two `while` loops terminate with the position of `ReadPosition` |
| Delay.FoldDown | src/dsp/common/Dsp.h:337 | the second loop ends with the position in [0, n), shifted from its start by a whole number of capacities |
| Delay.FoldUnique | src/dsp/common/Dsp.h:336-337 | only zero or one added capacity moves a value of (-n, n) into [0, n) |
| Delay.HermiteInterpolates | src/dsp/common/Dsp.h:348-359 | the Hermite weights at fraction 0 and 1 select the two inner samples |
| Delay.ReadFracCubic | src/dsp/common/Dsp.h:330-360 | a line shorter than 4 and an all-zero line both read 0 |
| Delay.PushAllKeeps | src/dsp/common/Dsp.h:323-328 | a pushed sample survives the next `n - 1` pushes, which move the cursor one slot each |
| Delay.PushReadRoundTrip | src/dsp/common/Dsp.h:323-360 | a sample pushed and followed by `k - 1` pushes reads back exactly at integer delay `k` in [1, n-4] |
| AllpassStage.Default | src/dsp/common/Dsp.h:267-272 | no buffer, `g = 0.7`, delay 200 samples |
| AllpassStage.Init | src/dsp/common/Dsp.h:275-278 | at least one zeroed slot (exactly the request from 1 on), cursor 0, coefficient and delay kept |
| AllpassStage.ClearStage | src/dsp/common/Dsp.h:280-283 | zeroes and rewinds, keeping capacity, coefficient and delay |
| AllpassStage.TapDelay | src/dsp/common/Dsp.h:288 | the tap lies in [1, size-1], is 1 for a single slot, and truncates a delay already in range |
| AllpassStage.ReadIndex | src/dsp/common/Dsp.h:290-291 | the read index is `(idx - d) mod size` and lies in [0, size) |
| AllpassStage.Tick | src/dsp/common/Dsp.h:288-301 | the output is `-g*x` plus the slot `d` behind the cursor; the buffer changes only at the cursor, which receives `x + g*y`; the cursor advances modulo the capacity; capacity, coefficient and delay are kept |
| AllpassStage.Process | src/dsp/common/Dsp.h:285-302 | fewer than two slots pass the input through unchanged; otherwise the output is `-g*x + buf[r]`, only the cursor slot is rewritten (with `x + g*y`) and the cursor advances modulo the capacity |
| AllpassStage.Run | src/dsp/common/Dsp.h:285-302 | successive calls keep capacity, coefficient and delay |
| AllpassStage.RunKeepsWrite | src/dsp/common/Dsp.h:296-299 | the slot written by one call, `x + g*y`, survives the next `n - 1` calls, which advance the cursor one slot each |
| AllpassStage.AllpassDelayRoundTrip | src/dsp/common/Dsp.h:288-296 | the call `d` steps after input `x` outputs `-g*z` plus the `x + g*y` stored for `x`: the feedback path is a pure delay of `d` |
| AllpassStage.ReadsBack | src/dsp/common/Dsp.h:288-295 | a stage whose cursor stands `d` past slot `i`, with tap `d`, outputs `-g*z + buf[i]` |
| AllpassStage.IntegralTap | src/dsp/common/Dsp.h:288 | an integral delay in [1, size-1] is its own tap |
| Noise.Default | src/dsp/common/Dsp.h:421-431 | the member defaults: countdown 1, output and target 0 |
| Noise.SetSampleRate | src/dsp/common/Dsp.h:433-435 | a rate of at most 1 becomes 48000, any other rate is stored; nothing else changes |
| Noise.Seed | src/dsp/common/Dsp.h:449 | a zero seed becomes 1, any other is stored, so the word is never 0 |
| Noise.LcgStep | src/dsp/common/Dsp.h:458 | the new word is `1664525*rng + 1013904223` modulo 2^32 |
| Noise.Bipolar | src/dsp/common/Dsp.h:460-465 | the bit-cast draw lies in [-1, 1), negative exactly for the lower half of the words |
| Noise.NextRandBipolar | src/dsp/common/Dsp.h:457-466 | only the word changes, by one LCG step, and the draw from the new word lies in [-1, 1) |
| Noise.Period | src/dsp/common/Dsp.h:439-440 | `max(1, int(sr/rate))` is at least 1 and the truncation of `sr/rate` when that is at least 1 |
| Noise.SetRateHz | src/dsp/common/Dsp.h:437-441 | the rate lies in [0.01, 20] and the countdown restarts at a value of at least 1; nothing else changes |
| Noise.ClearNoise | src/dsp/common/Dsp.h:451-455 | output, target and countdown reset; generator word, rate, coefficient and sample rate untouched |
| Noise.Advance | src/dsp/common/Dsp.h:469-474 | an expiring countdown draws a new target and reloads the period; otherwise the countdown just decreases |
| Noise.Smooth | src/dsp/common/Dsp.h:476 | with `a` in [0, 1] the smoothed value lies between the old value and the target |
| Noise.Process | src/dsp/common/Dsp.h:468-479 | the output lies in [-1, 1], the countdown is at least 1 after a reload, and a state inside [-1, 1] stays inside |
| Noise.ProcessKeepsRange | src/dsp/common/Dsp.h:468-479 | any number of calls from a state inside [-1, 1] keep the smoothed value and the target inside |
| Noise.Iterate | src/dsp/common/Dsp.h:468-479 | repeated calls keep the generator well formed and its coefficient and rate |
| MultiLfo.Spread | src/dsp/common/Dsp.h:382 | `i/(count-1)` lies in [0, 1], 0 for the first line and 1 for the last |
| MultiLfo.SpreadMonotone | src/dsp/common/Dsp.h:382 | later lines get no smaller spread |
| MultiLfo.RateMul | src/dsp/common/Dsp.h:383 | every rate multiplier lies in [0.85, 1.15] |
| MultiLfo.StartPhase | src/dsp/common/Dsp.h:384 | every start phase lies in (0, 4*pi) |
| MultiLfo.InitWithRate | src/dsp/common/Dsp.h:374-386 | `max(1, n)` oscillators with the rate multiplier and start phase of their position |
| MultiLfo.Init | src/dsp/common/Dsp.h:374-386 | a rate of at most 1 becomes 48000, and the bank is well formed with phases in range |
| MultiLfo.InitRates | src/dsp/common/Dsp.h:381-385 | the multipliers run from 0.85 to 1.15 and never decrease along the bank |
| MultiLfo.ClampLine | src/dsp/common/Dsp.h:389 | the line index is clamped into [0, count-1] |
| MultiLfo.Wrap | src/dsp/common/Dsp.h:396-397 | the phase advances by the increment and drops by 2*pi once it reaches 2*pi |
| MultiLfo.Process | src/dsp/common/Dsp.h:388-400 | only the clamped line's phase moves, the output is `sin` of its old phase and lies in [-1, 1] for a bounded `sin` |
| MultiLfo.WrapKeepsRange | src/dsp/common/Dsp.h:396-397 | an increment below 2*pi keeps a phase of [0, 4*pi) inside, and one of [0, 2*pi) inside [0, 2*pi) |
| MultiLfo.ProcessKeepsRange | src/dsp/common/Dsp.h:388-400 | while `1.15 * rate < sr` every phase stays in [0, 4*pi) |
| Spinner.Rotate | src/dsp/common/Dsp.h:524-531 | rotation by angle 0 is the identity |
| Spinner.RotatePreservesEnergy | src/dsp/engines/common/Dsp.h:570-577 | with `cos^2 + sin^2 = 1` the rotation keeps `L^2 + R^2` |
| Spinner.RotateInverse | src/dsp/common/Dsp.h:524-531 | rotating back by `-angle` restores the pair |
| DspUnguarded.LowPass | src/dsp/engines/common/Dsp.h:150-153 | the unflushed low-pass: the canonical output is this output scrubbed, and with `a` in [0, 1] it lies between the old state and the input |
| DspUnguarded.HighPass | src/dsp/engines/common/Dsp.h:167-170 | high-pass output plus the new state is the input, and it differs from the canonical output by less than 1e-20 |
| DspUnguarded.Follow | src/dsp/engines/common/Dsp.h:306-311 | the unflushed envelope glides between the old envelope and the magnitude, stays non-negative, and the canonical envelope is it scrubbed |
| DspUnguarded.AllpassProcess | src/dsp/engines/common/Dsp.h:335-353 | the unguarded step is the canonical step body for every allocated stage |
| DspUnguarded.AllpassAgrees | src/dsp/engines/common/Dsp.h:335-353 | from two slots on the copies agree; with one slot the tap is 1, the read index 0 and every access stays in bounds |
| DspUnguarded.Push | src/dsp/engines/common/Dsp.h:374-378 | without the empty guard, a push on an allocated line is the canonical push |
| DspUnguarded.ReadFracCubic | src/dsp/engines/common/Dsp.h:380-409 | without the size guard, a read on a line of 4 or more slots is the canonical read |
| DspUnguarded.PushAll | src/dsp/engines/common/Dsp.h:374-378 | successive unguarded pushes on an allocated line are the canonical pushes |
| DspUnguarded.PushReadRoundTrip | src/dsp/engines/common/Dsp.h:374-409 | a sample pushed with the unguarded `push` and followed by any `k - 1` unguarded pushes, `k` in [1, size-4], is read back exactly by the unguarded read at delay `k` |
| DspUnguarded.LfoInit | src/dsp/engines/common/Dsp.h:423-435 | the rate is stored unchecked; above 1 the bank equals the canonical one, otherwise their rates differ |
| DspUnguarded.SetSampleRate | src/dsp/engines/common/Dsp.h:483 | the rate is stored unchecked and equals the canonical setter above 1 |
| DspUnguarded.NoiseProcess | src/dsp/engines/common/Dsp.h:516-526 | the same reload and smoothing with no denormal scrub; the output lies in [-1, 1] |
| DspUnguarded.NoiseAgrees | src/dsp/engines/common/Dsp.h:516-526 | the two copies' outputs differ by less than 1e-20, and agree exactly away from the threshold |
| Diffusion.ClampInputStages | src/dsp/diffusion/Diffusion.h:149-151 | the stage count lies in [0, 8] and is kept when already inside |
| Diffusion.MsToSamplesInjective | src/dsp/diffusion/Diffusion.cpp:30-32 | at a non-zero rate, different times give different delays |
| Diffusion.DefaultInputConfig | src/dsp/diffusion/Diffusion.h:61-69 | 6 stages at `g = 0.72`, eight zero times per side |
| Diffusion.DefaultLateConfig | src/dsp/diffusion/Diffusion.h:71-78 | `minG = 0.45`, `maxG = 0.72`, three zero times per side |
| Diffusion.Default | src/dsp/diffusion/Diffusion.h:127-147 | a constructed block: rate 48000, 6 active stages, `tvG = 0.72`, not initialised |
| Diffusion.TimeVaryingGRoundTrip | src/dsp/diffusion/Diffusion.h:108-109 | the getter returns what the setter stored, the setter changes nothing else, and setting the current value is a no-op |
| Diffusion.RunChain | src/dsp/diffusion/Diffusion.cpp:151-157 | stages `0..k-1` get the coefficient and process in order, each fed the previous output; stages from `k` on are untouched |
| Diffusion.ChainLoop | src/dsp/diffusion/Diffusion.cpp:151-157 | the source's loop computes the chain |
| Diffusion.ChainSilent | src/dsp/diffusion/Diffusion.cpp:151-157 | a silent chain fed 0 outputs 0 and stays silent |
| Diffusion.ChainFirstSample | src/dsp/diffusion/Diffusion.cpp:151-157 | through `k` flushed stages, each with at least two slots, the first sample comes out scaled by `(-g)^k`, since every stage reads back zero |
| Diffusion.StageSilent | src/dsp/common/Dsp.h:285-302 | a silent stage fed 0 outputs 0 and writes 0 |
| Diffusion.Configure | src/dsp/diffusion/Diffusion.cpp:109-120 | every stage gets the delay of its time at the block's rate and the coefficient; buffers and cursors are kept |
| Diffusion.SetInputConfig | src/dsp/diffusion/Diffusion.cpp:104-124 | the configuration is stored, the stage count clamped, `tvG` reset to its `g`, every input stage gets its delay and `g`; late stages and the rest are untouched |
| Diffusion.SetLateConfig | src/dsp/diffusion/Diffusion.cpp:126-138 | the configuration is stored and every late stage gets its delay and `maxG`; everything else is untouched |
| Diffusion.ClearAll | src/dsp/diffusion/Diffusion.cpp:93-102 | every stage is zeroed and rewound with capacity, coefficient and delay kept |
| Diffusion.Clear | src/dsp/diffusion/Diffusion.cpp:93-102 | all four chains silent, their settings kept, nothing else changed |
| Diffusion.ClearIdempotent | src/dsp/diffusion/Diffusion.cpp:93-102 | clearing twice is clearing once |
| Diffusion.SeedN | src/dsp/diffusion/Diffusion.cpp:63 | `(seed % 1000)/1000` lies in [0, 0.999] |
| Diffusion.OffsetsRange | src/dsp/diffusion/Diffusion.cpp:63-65 | `offA` lies in [0.08, 0.18), `offB` in (0.11, 0.23], and they never coincide |
| Diffusion.InputTimesL | src/dsp/diffusion/Diffusion.cpp:57-70 | eight left input times |
| Diffusion.InputTimesR | src/dsp/diffusion/Diffusion.cpp:57-70 | eight right input times |
| Diffusion.LateTimesL | src/dsp/diffusion/Diffusion.cpp:73 | three left late times |
| Diffusion.LateTimesR | src/dsp/diffusion/Diffusion.cpp:74 | three right late times |
| Diffusion.SeededInputConfig | src/dsp/diffusion/Diffusion.cpp:67-78 | the seeded times with 6 stages at `g = 0.72` |
| Diffusion.SeededLateConfig | src/dsp/diffusion/Diffusion.cpp:73-81 | the seeded late times with `minG = 0.45`, `maxG = 0.72` |
| Diffusion.SeededTimesDiffer | src/dsp/diffusion/Diffusion.cpp:51-74 | for every seed, every input and late stage has different left and right times |
| Diffusion.MaxDelaySamples | src/dsp/diffusion/Diffusion.cpp:40 | the capacity is at least 16 and `int(sr*0.030)` above that |
| Diffusion.InitAll | src/dsp/diffusion/Diffusion.cpp:42-49 | every stage is allocated with the capacity |
| Diffusion.Seeded | src/dsp/diffusion/Diffusion.cpp:34-88 | the seeded configurations are stored with `tvG = 0.72`, and every stage is allocated with the capacity |
| Diffusion.Init | src/dsp/diffusion/Diffusion.cpp:34-91 | initialised, rate stored, 6 stages, `tvG = 0.72`, seeded configurations and delays, all chains silent |
| Diffusion.InitDecorrelates | src/dsp/diffusion/Diffusion.cpp:51-74 | after `init` at a non-zero rate every left/right stage pair has different delay times `delaySamp` (the truncated whole-sample taps may still coincide) |
| Diffusion.InputG | src/dsp/diffusion/Diffusion.cpp:145 | `tvG` clamped to [0.30, 0.85] |
| Diffusion.ProcessInput | src/dsp/diffusion/Diffusion.cpp:140-161 | a no-op before `init` or with no active stage; otherwise each output is its side's chain run over the active stages at the clamped `tvG`, the stored stages are that chain's final stages, inactive stages and everything else untouched |
| Diffusion.LateG | src/dsp/diffusion/Diffusion.cpp:171-172 | the late coefficient lies in [0.25, 0.85], is `minG` at amount 0 and `maxG` at amount 1 and between them in range |
| Diffusion.ProcessLate | src/dsp/diffusion/Diffusion.cpp:163-188 | a no-op before `init` or at an amount of at most 0.0001; otherwise each output is exactly the crossfade, by the clamped amount, of the dry sample and its side's three-stage chain at the late coefficient, and the stored stages are that chain's final stages; fully diffused at amount 1 |
| Diffusion.ClearedInputFirstSample | src/dsp/diffusion/Diffusion.cpp:140-161 | after `clear()`, the first input sample on each side comes out scaled by `(-g)^N`, with `g` the clamped `tvG` and `N` the active stage count (unchanged when `N` is 0) |
| Diffusion.ClearedLateFirstSample | src/dsp/diffusion/Diffusion.cpp:163-188 | after `clear()`, above the 0.0001 threshold, each late output is the crossfade of the dry sample with that sample scaled by `(-g)^3` at the late coefficient |
| Diffusion.FreshIsNoOp | src/dsp/diffusion/Diffusion.cpp:141 | a constructed block leaves both calls' samples and state as they are |
| Diffusion.ClearedIsSilent | src/dsp/diffusion/Diffusion.cpp:93-188 | after `clear()` silence in gives silence out on both chains |
| Diffusion.SilentInputIsSilent | src/dsp/diffusion/Diffusion.cpp:140-161 | silent input stages fed 0 give 0 |
| Diffusion.SilentLateIsSilent | src/dsp/diffusion/Diffusion.cpp:163-188 | silent late stages fed 0 give 0 |
| Diffusion.TimeVaryingGDrivesInput | src/dsp/diffusion/Diffusion.cpp:145-153 | the coefficient set by `setTimeVaryingG`, clamped, is the one the next `processInput` gives every active stage |
| Matrices.ClampLines | src/dsp/tail/Matrices.cpp:19 | the line count is clamped to [1, 16], kept when inside, 1 below and 16 above |
| Matrices.HouseholderMix | src/dsp/tail/Matrices.cpp:52-65 | every active entry drops by twice the mean of the active entries; entries from `lines` on are untouched |
| Matrices.MeanIsMean | src/dsp/tail/Matrices.cpp:55-58 | `sum / lines` times `lines` is the sum of the active entries |
| Matrices.IsMeanUnique | src/dsp/tail/Matrices.cpp:55-58 | the mean is the only value whose product with `lines` is the sum |
| Matrices.HouseholderPreservesEnergy | src/dsp/tail/Matrices.cpp:52-65 | for every line count the sum of squares of the active entries is preserved |
| Matrices.ReflectEnergy | src/dsp/tail/Matrices.cpp:62-64 | subtracting twice the mean from every entry of a prefix keeps its sum of squares |
| Matrices.ReflectMean | src/dsp/tail/Matrices.cpp:62-64 | subtracting twice the mean negates the mean |
| Matrices.HouseholderNegatesMean | src/dsp/tail/Matrices.cpp:52-65 | the reflection negates the mean of the active entries |
| Matrices.HouseholderInvolution | src/dsp/tail/Matrices.cpp:52-65 | mixing twice gives back the input |
| Matrices.HouseholderInPlace | src/dsp/tail/Matrices.cpp:52-65 | the sum loop and the update loop compute the reflection |
| Matrices.IsPowerOfTwoExact | src/dsp/tail/Matrices.cpp:14-16 | on [1, 16] the bit test `x > 0 && (x & (x-1)) == 0` holds exactly for 1, 2, 4, 8 and 16 |
| Matrices.AlignedRoom | src/dsp/tail/Matrices.cpp:29-31 | an aligned block start below 16 leaves room for the whole block, so `i+j+step < 16` |
| Matrices.PartialButterfly | src/dsp/tail/Matrices.cpp:31-36 | the inner loop changes no entry outside the block |
| Matrices.Butterfly | src/dsp/tail/Matrices.cpp:31-36 | one block of butterflies changes no entry outside `[i, i + 2*step)` |
| Matrices.ScaleHead | src/dsp/tail/Matrices.cpp:47-49 | the first `n` entries are multiplied by the scale, the others kept |
| Matrices.HadamardMix | src/dsp/tail/Matrices.cpp:18-50 | a line count that is not a power of two gives exactly the Householder mix |
| Matrices.MatrixTypeCodes | src/dsp/tail/Matrices.h:92-95 | the two matrix types have distinct codes, Hadamard is 0 |
| Matrices.Mix | src/dsp/tail/Matrices.h:97-100 | the Hadamard type selects `hadamardMix`, any other the reflection |
| Matrices.PairEnergySplit | src/dsp/tail/Matrices.cpp:31-36 | the pair energy of a block is the energy of its two halves |
| Matrices.ButterflyArithmetic | src/dsp/tail/Matrices.cpp:32-35 | `(a+b)^2 + (a-b)^2 = 2a^2 + 2b^2` |
| Matrices.PairEnergyDoubles | src/dsp/tail/Matrices.cpp:31-36 | the butterflies double the pair energy of every prefix of the block |
| Matrices.ButterflyEnergy | src/dsp/tail/Matrices.cpp:31-36 | one block of butterflies doubles the energy of the block |
| Matrices.BlocksEnergy | src/dsp/tail/Matrices.cpp:30-37 | the blocks of one pass double the energy of every block they touch and keep everything from `lines` on |
| Matrices.AlignedWithin | src/dsp/tail/Matrices.cpp:30-31 | for a power-of-two line count every block lies below `lines`, so `i+j+step < lines` |
| Matrices.GainStep | src/dsp/tail/Matrices.cpp:29 | each pass of the outer loop doubles the gain |
| Matrices.GainIsLines | src/dsp/tail/Matrices.cpp:29-38 | the passes together multiply energy by `lines` |
| Matrices.StageFits | src/dsp/tail/Matrices.cpp:29-30 | every pass below a power-of-two line count works on whole blocks inside `[0, lines)` |
| Matrices.TransformEnergy | src/dsp/tail/Matrices.cpp:29-38 | the unscaled transform multiplies the energy of the active entries by its gain |
| Matrices.TransformKeepsTail | src/dsp/tail/Matrices.cpp:29-38 | for a power-of-two line count the transform keeps every entry at `lines` and above |
| Matrices.ScaleAfter | src/dsp/tail/Matrices.cpp:47-49 | scaling the active entries by `c` multiplies the energy factor by `c^2` |
| Matrices.HadamardEnergy | src/dsp/tail/Matrices.cpp:29-49 | for power-of-two `n` the mix multiplies the energy of the active entries by `scale^2 * n` |
| Matrices.HadamardPreservesEnergy16 | src/dsp/tail/Matrices.cpp:44-49 | with 16 lines and scale 0.25 energy is preserved exactly |
| Matrices.HadamardEnergy8 | src/dsp/tail/Matrices.cpp:43-49 | with 8 lines energy is scaled by `InvSqrt8^2 * 8`, within 1e-15 of 1 |
| Matrices.HadamardPreservesEnergySmall | src/dsp/tail/Matrices.cpp:45-49 | with 1, 2 or 4 lines energy is preserved whenever `rsqrt(n)^2 * n = 1` |
| Matrices.MixKeepsTail | src/dsp/tail/Matrices.cpp:18-65 | neither mix changes an entry at the clamped line count or above |
| Matrices.MixSilence | src/dsp/tail/Matrices.cpp:18-65 | either matrix type mixes a vector of zeros to zeros, on every line |
| Matrices.HouseholderSilence | src/dsp/tail/Matrices.cpp:52-65 | the reflection of a zero vector is zero: its mean is 0 |
| Matrices.HadamardSilence | src/dsp/tail/Matrices.cpp:18-50 | the scaled transform of a zero vector is zero on the active lines: it has no energy there |
| Matrices.StageInPlace | src/dsp/tail/Matrices.cpp:30-37 | the middle and inner loops compute one pass of the transform |
| Matrices.ButterflyInPlace | src/dsp/tail/Matrices.cpp:31-36 | the innermost loop replaces each pair `(v[i+j], v[i+j+step])` of one block by its sum and difference |
| Matrices.PartialButterflyStep | src/dsp/tail/Matrices.cpp:31-36 | one more butterfly writes `a+b` and `a-b` from entries still holding the block's inputs |
| Matrices.TransformInPlace | src/dsp/tail/Matrices.cpp:29-38 | the outer loop computes the transform |
| Matrices.HadamardInPlace | src/dsp/tail/Matrices.cpp:18-50 | the fallback test, the loops and the scaling compute `hadamardMix` |
| Matrices.ScaleInPlace | src/dsp/tail/Matrices.cpp:47-49 | the scaling loop multiplies the active entries |
| MatricesLegacy.HouseholderMix | Source/ReverbCore/Matrices.cpp:57-73 | the legacy reflection is the current one |
| MatricesLegacy.HouseholderOrthogonal | Source/ReverbCore/Matrices.cpp:57-73 | the legacy reflection preserves energy and is an involution |
| MatricesLegacy.HadamardAgrees | Source/ReverbCore/Matrices.cpp:32-55 | for power-of-two line counts the legacy mix equals the current one when `rsqrt` gives the current literals for 8 and 16 |
| MatricesLegacy.HadamardInPlace | Source/ReverbCore/Matrices.cpp:32-55 | the legacy loops compute the legacy mix |
| MatricesLegacy.SixLinesTransform | Source/ReverbCore/Matrices.cpp:38-47 | with six lines the unscaled transform carries an impulse on line 0 to lines 6 and 7 |
| MatricesLegacy.SixLinesStage1 | Source/ReverbCore/Matrices.cpp:38-47 | the first pass on the impulse |
| MatricesLegacy.SixLinesStage2 | Source/ReverbCore/Matrices.cpp:38-47 | the second pass on the impulse |
| MatricesLegacy.SixLinesStage4 | Source/ReverbCore/Matrices.cpp:38-47 | the third pass reaches lines 6 and 7 |
| MatricesLegacy.SixLinesWritesTail | Source/ReverbCore/Matrices.cpp:38-54 | with six lines the legacy mix leaves 1 on lines 6 and 7, unscaled; the current mix leaves them 0 |
| TapPatterns.CRem | src/dsp/tail/TapPatterns.cpp:16 | C's remainder lies strictly between `-n` and `n` and has the sign of the dividend |
| TapPatterns.CQuotRem | src/dsp/tail/TapPatterns.cpp:16 | C's quotient and remainder satisfy `(i/n)*n + i%n == i` |
| TapPatterns.WrapSteps | src/dsp/tail/TapPatterns.cpp:14-19 | 0 when `n <= 0`, otherwise in `[0, n)` |
| TapPatterns.WrapIndex | src/dsp/tail/TapPatterns.cpp:14-19 | 0 when `n <= 0`, otherwise in `[0, n)` |
| TapPatterns.ModUnique | src/dsp/tail/TapPatterns.cpp:14-19 | the residue in `[0, n)` congruent to `i` is unique |
| TapPatterns.WrapIndexSteps | src/dsp/tail/TapPatterns.cpp:14-19 | the source's steps, C remainder then `+n` when negative, give the Euclidean residue |
| TapPatterns.PatternId | src/dsp/tail/TapPatterns.cpp:128-129 | the selector lies in [0, 4) and is congruent to the id modulo 4 |
| TapPatterns.Wrapped | src/dsp/tail/TapPatterns.cpp:32 | one wrapped index per tap, each below `lines` |
| TapPatterns.TapLoop | src/dsp/tail/TapPatterns.cpp:31-41 | the tap loop computes the alternating-sign sum over the wrapped taps |
| TapPatterns.Tables | src/dsp/tail/TapPatterns.cpp:23-24 | the wrapped tables of patterns 0 to 2 have the source tables' sizes and read lines below `n` |
| TapPatterns.WrappedSteps | src/dsp/tail/TapPatterns.cpp:32 | every wrapped entry is what `wrapIndex` computes for its tap |
| TapPatterns.TablesWrap | src/dsp/tail/TapPatterns.cpp:23-85 | the tables hold `wrapIndex(tap, lines)` for every source tap; with 16 lines they are the source tables |
| TapPatterns.Pattern3Sums | src/dsp/tail/TapPatterns.cpp:96-111 | the loop counts `ceil(n/2)` even and `floor(n/2)` odd taps and sums the even lines into L, the odd into R |
| TapPatterns.Pattern3Means | src/dsp/tail/TapPatterns.cpp:96-117 | L is the even-index sum over its count, R the odd-index sum over its own count, and R is 0 for one line |
| TapPatterns.StrideSumConst | src/dsp/tail/TapPatterns.cpp:100-111 | `count` lines at `c` sum to `count * c` |
| TapPatterns.NormCancel | src/dsp/tail/TapPatterns.cpp:113-117 | `k` copies of `c` normalised by `k` give `c` |
| TapPatterns.Pattern3Constant | src/dsp/tail/TapPatterns.cpp:96-117 | with every active line at `c`, both sides are `c` (R is 0 for one line) |
| TapPatterns.Pattern3InPlace | src/dsp/tail/TapPatterns.cpp:93-118 | the loop of pattern 3 computes the pattern |
| TapPatterns.Pattern3Loops | src/dsp/tail/TapPatterns.cpp:94-111 | the accumulators and tap counters end as the reference accumulation over the active lines |
| TapPatterns.RenderById | src/dsp/tail/TapPatterns.cpp:126-140 | only the reduced id selects the pattern |
| TapPatterns.RenderPeriodic | src/dsp/tail/TapPatterns.cpp:128-129 | ids differing by a multiple of 4 render the same; -1 selects 3 |
| TapPatterns.SameResidue | src/dsp/tail/TapPatterns.cpp:128-129 | two ids whose difference is a multiple of 4 select the same pattern |
| TapPatterns.TapSumLocal | src/dsp/tail/TapPatterns.cpp:31-41 | a tap sum reads only the indexed lines |
| TapPatterns.Pattern3Local | src/dsp/tail/TapPatterns.cpp:100-111 | the loop of pattern 3 reads only lines below `n` |
| TapPatterns.TapPatternsLocal | src/dsp/tail/TapPatterns.cpp:22-90 | patterns 0 to 2 depend only on the lines their tables read |
| TapPatterns.RenderWithLocal | src/dsp/tail/TapPatterns.cpp:134-140 | the switch depends only on the first `n` lines |
| TapPatterns.RenderLocal | src/dsp/tail/TapPatterns.cpp:120-141 | the output depends only on `y[0..lines)` |
| TapPatterns.TapSumNeg | src/dsp/tail/TapPatterns.cpp:58-62 | flipping the first sign negates the sum |
| TapPatterns.NegMul | src/dsp/tail/TapPatterns.cpp:65-66 | `(-a)*b = -(a*b)` |
| TapPatterns.Pattern1Antisymmetric | src/dsp/tail/TapPatterns.cpp:55-66 | pattern 1 gives `wetR = -wetL` exactly |
| TapPatterns.AbsAdd | src/dsp/tail/TapPatterns.cpp:34 | one more term of magnitude at most `m` raises the bound by `m` |
| TapPatterns.TapSumBound | src/dsp/tail/TapPatterns.cpp:31-41 | a tap sum of `k` taps is at most `k*m` in magnitude |
| TapPatterns.StrideSumBound | src/dsp/tail/TapPatterns.cpp:100-111 | a pattern 3 sum of `k` lines is at most `k*m` in magnitude |
| TapPatterns.NormBound | src/dsp/tail/TapPatterns.cpp:113-117 | a sum of `k` bounded terms over `k` is bounded by `m` |
| TapPatterns.ScaledBound | src/dsp/tail/TapPatterns.cpp:43-45 | `|x*k| <= k*m` with `k > 0` gives `|x| <= m` |
| TapPatterns.TapSideBound | src/dsp/tail/TapPatterns.cpp:43-45 | one side of a tap-table pattern is bounded by the largest line it reads |
| TapPatterns.Pattern3Bound | src/dsp/tail/TapPatterns.cpp:113-117 | both sides of pattern 3 are bounded by the largest active line |
| TapPatterns.RenderWithBounded | src/dsp/tail/TapPatterns.cpp:134-140 | every selected pattern is bounded by the largest active line |
| TapPatterns.RenderBounded | src/dsp/tail/TapPatterns.cpp:120-141 | `|wetL|` and `|wetR|` never exceed the largest magnitude among the active lines |
| TapPatterns.ScaleAll | src/dsp/tail/TapPatterns.cpp:120-141 | every line multiplied by `c` |
| TapPatterns.TapSumLinear | src/dsp/tail/TapPatterns.cpp:31-41 | scaling the lines scales a tap sum |
| TapPatterns.StrideSumLinear | src/dsp/tail/TapPatterns.cpp:100-111 | scaling the lines scales a pattern 3 sum |
| TapPatterns.TimesAssoc | src/dsp/tail/TapPatterns.cpp:44 | products regroup |
| TapPatterns.TapSideLinear | src/dsp/tail/TapPatterns.cpp:43-45 | one normalised side scales with the lines |
| TapPatterns.StrideSideLinear | src/dsp/tail/TapPatterns.cpp:116-117 | one normalised side of pattern 3 scales with the lines |
| TapPatterns.Pattern0Linear | src/dsp/tail/TapPatterns.cpp:22-46 | pattern 0 is linear |
| TapPatterns.Pattern1Linear | src/dsp/tail/TapPatterns.cpp:49-67 | pattern 1 is linear |
| TapPatterns.Pattern2Linear | src/dsp/tail/TapPatterns.cpp:70-90 | pattern 2 is linear |
| TapPatterns.Pattern3Linear | src/dsp/tail/TapPatterns.cpp:93-118 | pattern 3 is linear |
| TapPatterns.RenderWithLinear | src/dsp/tail/TapPatterns.cpp:134-140 | the switch is linear over any tables |
| TapPatterns.RenderLinear | src/dsp/tail/TapPatterns.cpp:120-141 | scaling every line by `c` scales both outputs by `c` |
| TapPatterns.RenderSilence | src/dsp/tail/TapPatterns.cpp:120-141 | silent lines render `(0, 0)` |
| TapPatterns.Blend | src/dsp/tail/TapPatterns.h:97-98 | the blend lies between its ends, is `a` at 0, `b` at 1 and `a` when both ends agree |
| TapPatterns.Morph | src/dsp/tail/TapPatterns.h:82-99 | morph clamped to [0, 1]: pattern A at or below 0, pattern B at or above 1, pattern A whenever the ids agree modulo 4, each channel between the two patterns' |
| TapPatternsLegacy.RenderAgrees | Source/ReverbCore/TapPatterns.cpp:41-150 | patterns 0 to 2, and pattern 3 for even line counts, render as in the current source; the L output always agrees |
| TapPatternsLegacy.Pattern3Agrees | Source/ReverbCore/TapPatterns.cpp:111-134 | the legacy pattern 3 has the current L output, and the current R output too when the line count is even |
| TapPatternsLegacy.ThreeLinesHalvesRight | Source/ReverbCore/TapPatterns.cpp:111-134 | with three lines at 1 the legacy pattern 3 gives `wetR = 0.5`; the current one gives 1 |
| Tank.DefaultConfig | src/dsp/tail/Tank.h:54-119 | the member initialisers: 16 lines, Householder, multipliers 1.08/1.00/0.90, drive 1.2, `satMix` 0.25, no modulation depth |
| Tank.DefaultLine | src/dsp/tail/Tank.h:168-179 | a default-constructed line is well formed |
| Tank.Default | src/dsp/tail/Tank.h:125-191 | a constructed tank is well formed, not initialised, with the default configuration |
| Tank.GetEnv01 | src/dsp/tail/Tank.h:159 | the envelope reading lies in [0, 1] |
| Tank.Coefficient | src/dsp/common/Dsp.h:443-447 | the time-constant coefficient lies strictly in (0, 1) whenever `exp` maps negatives into (0, 1) |
| Tank.ClearLine | src/dsp/tail/Tank.cpp:84-94 | the delay is zeroed and rewound with its length kept, the filter states are 0 with their coefficients kept, the jitter is reset |
| Tank.Clear | src/dsp/tail/Tank.cpp:83-100 | every line is cleared, the envelope and `env01` are 0, the dynamic cutoff is the static one, nothing else changes |
| Tank.JitterSeed | src/dsp/tail/Tank.cpp:60 | `seed + 0x9E3779B9*(i+1)` wraps into `uint32_t` |
| Tank.InitLine | src/dsp/tail/Tank.cpp:55-71 | a zeroed, rewound delay of the given length and a jitter source seeded with the line's seed, or 1 for a zero seed |
| Tank.Init | src/dsp/tail/Tank.cpp:47-81 | initialised, rate and configuration stored, a zero seed becomes 1, every line at least 8 samples long and silent, `env01` 0 |
| Tank.Retune | src/dsp/tail/Tank.cpp:110-123 | the filters are retuned with their states, delay and jitter generator kept |
| Tank.SetConfig | src/dsp/tail/Tank.cpp:102-127 | the configuration is stored with `lines` clamped; only active lines are retuned; delays, envelope state and everything else kept |
| Tank.ConfigRoundTrip | src/dsp/tail/Tank.h:133-136 | `getConfig` returns what `setConfig` stored, unchanged when `lines` was already in range, and storing twice is storing once |
| Tank.DynamicTarget | src/dsp/tail/Tank.cpp:135-139 | the dynamic target lies between `dynMinHz` and `dynMaxHz`: `dynMaxHz` when quiet, `dynMinHz` when the scaled envelope reaches 1 |
| Tank.DynamicDampingHz | src/dsp/tail/Tank.cpp:129-147 | the cutoff lies between the static cutoff and the target: the static one at amount 0, the target at amount 1 |
| Tank.ReadParamsOf | src/dsp/tail/Tank.cpp:186-202 | the per-line arrays of the read loop have 16 entries |
| Tank.Modulation | src/dsp/tail/Tank.cpp:199-200 | no modulation depth gives no modulation |
| Tank.Jitter | src/dsp/tail/Tank.cpp:194-197 | the jitter draw lies in [-1, 1]; with jitter disabled it is 0 and the source is untouched |
| Tank.ReadLines | src/dsp/tail/Tank.cpp:181-212 | only the jitter of the read lines changes, lines from `k` on read 0, the peak bounds every read |
| Tank.ReadsUnmodulated | src/dsp/tail/Tank.cpp:199-205 | with no modulation depth every line is read at exactly its configured delay |
| Tank.ReadsSilence | src/dsp/tail/Tank.cpp:186-212 | all-zero delay lines read 0 whatever the draws |
| Tank.BandGain | src/dsp/tail/Tank.cpp:276-278 | a band gain lies in [0, 0.9997] and is the product when that is in range |
| Tank.DecayGains | src/dsp/tail/Tank.cpp:162-278 | every band gain lies in [0, 0.9997]; a non-positive decay gives all zeros |
| Tank.Split | src/dsp/tail/Tank.cpp:293-297 | the three bands add back to the filtered sample |
| Tank.Colour | src/dsp/tail/Tank.cpp:300-302 | equal band gains `d` give `d` times the filtered sample |
| Tank.FilterLine | src/dsp/tail/Tank.cpp:243-297 | only the four filters change; the sample is the retuned low-pass of the high-pass; the bands add back to it |
| Tank.FilterLineAtRest | src/dsp/tail/Tank.cpp:284-297 | filters at rest fed 0 give 0 in every band |
| Tank.FeedbackSample | src/dsp/tail/Tank.cpp:300-311 | without saturation the sample is the band-weighted one, `d` times the input for equal gains; silence stays silence |
| Tank.FeedLine | src/dsp/tail/Tank.cpp:283-318 | the jitter is kept and the delay receives exactly the written sample |
| Tank.FeedLineUniformGain | src/dsp/tail/Tank.cpp:283-318 | with equal gains and no saturation a line writes its share plus `d` times the filtered sample |
| Tank.FeedLineAtRest | src/dsp/tail/Tank.cpp:283-318 | a line at rest fed 0 writes exactly its injection share |
| Tank.WriteBackAtRest | src/dsp/tail/Tank.cpp:281-318 | lines with filters at rest, fed zeros from the matrix, each push exactly the injection share |
| Tank.InjectionSpread | src/dsp/tail/Tank.cpp:281 | the `N` shares `inj/N` add up to the injection |
| Tank.ConstantSum | src/dsp/tail/Tank.cpp:281 | `k` equal terms sum to `k` times the term |
| Tank.DampingHz | src/dsp/tail/Tank.cpp:235-238 | the static cutoff when dynamic damping is off, otherwise between the static cutoff and the target |
| Tank.WriteBack | src/dsp/tail/Tank.cpp:283-318 | active lines are fed their mixed sample, the rest are kept |
| Tank.Splice | src/dsp/tail/Tank.cpp:207-208 | the first `n` entries from one vector, the rest from the other |
| Tank.ProcessSample | src/dsp/tail/Tank.cpp:149-319 | before `init` `yOut` is zero-filled and nothing else changes; configuration and rate kept; inactive lines untouched and `yOut` keeps their entries |
| Tank.OutputIgnoresMatrix | src/dsp/tail/Tank.cpp:205-227 | `yOut` holds the reads before mixing, whatever the matrix type |
| Tank.UnmodulatedReads | src/dsp/tail/Tank.cpp:199-208 | with no modulation depth `yOut[i]` is line `i` read at its configured delay |
| Tank.ClearedTankReadsSilence | src/dsp/tail/Tank.cpp:83-212 | after `clear()` every active line reads 0 |
| Tank.ClearedTankWritesInjection | src/dsp/tail/Tank.cpp:83-318 | after `clear()` on an initialised tank, the next sample pushes exactly `inj / N` into every active line, for either matrix type and any `tanh` with `tanh(0) = 0` |
| Tank.QuietStepWritesInjection | src/dsp/tail/Tank.cpp:149-318 | an initialised tank whose delay lines are silent and whose filters are at rest pushes exactly `inj / N` into every active line on its next sample |
| Tank.ReadsAtRest | src/dsp/tail/Tank.cpp:149-212 | reading silent lines whose filters are at rest gives zeros and leaves delays and filter states as they were |
| Tank.FreshTankIsSilent | src/dsp/tail/Tank.cpp:153-156 | a constructed tank outputs silence and keeps its state |
| Modes.Value | src/dsp/modes/Modes.h:49-80 | a named mode's value lies in [0, 13); a value that names no enumerator lies outside [0, 13] |
| Modes.OfValue | src/dsp/modes/Modes.h:49-80 | an `int` in [0, 13) converts to a named mode, 13 to `Count`, anything else to an unnamed value |
| Modes.ValueRoundTrip | src/dsp/modes/Modes.h:49-80 | converting to `int` and back is the identity in both directions, and value `i` is the `i`-th mode |
| Modes.DeclarationOrder | src/dsp/modes/Modes.h:55-79 | thirteen distinct modes numbered 0 to 12 in declaration order, `Count = 13` |
| Modes.Name | src/dsp/modes/Modes.h:86-109 | every mode has a non-empty name, and the name is "Unknown" exactly for values that name no enumerator |
| Modes.NamesDistinct | src/dsp/modes/Modes.h:86-109 | different enumerators have different names |
| Modes.Categories | src/dsp/modes/Modes.h:115-135 | at most three category predicates hold |
| Modes.Partition | src/dsp/modes/Modes.h:115-135 | every mode lies in exactly one category; `Count` and unknown values in none |
| Modes.NamedEnumerators | src/dsp/modes/Modes.h:49-80 | the list of modes holds every enumerator except `Count`, and no out-of-range value |
| Modes.CategoriesAreRuns | src/dsp/modes/Modes.h:55-135 | the categories are the values 0-5, 6-9 and 10-12 |
| Modes.StapleMembers | src/dsp/modes/Modes.h:115-122 | the staples are Room, Hall, Cathedral, Plate, Spring and Vintage |
| Modes.AtmosphericMembers | src/dsp/modes/Modes.h:124-129 | the atmospheric modes are Sky, Blossom, Shimmer and Magnetic |
| Modes.ExperimentalMembers | src/dsp/modes/Modes.h:131-135 | the experimental modes are Granular, Singularity and MicroCosmic |
| Modes.CategoriesCover | src/dsp/modes/Modes.h:115-135 | the categories are disjoint and together make up every mode |
| ModePresets.FlagCount | src/dsp/engines/modes/ModePresets.h:40-47 | at most six blocks, and none exactly when every flag is off |
| ModePresets.Position | src/dsp/modes/ModePresets.cpp:15 | `t = i/15` lies in [0, 1], 0 at the first line and 1 at the last |
| ModePresets.RampShape | src/dsp/modes/ModePresets.cpp:14-18 | the ramp runs from `lo` to `lo + span`, stays inside and never falls |
| ModePresets.FillModMap | src/dsp/modes/ModePresets.cpp:12-46 | 16 depth and 16 rate multipliers starting at the spread's low ends |
| ModePresets.FillModMapLoop | src/dsp/modes/ModePresets.cpp:12-46 | the loop writes the maps of the spread |
| ModePresets.FillModMapShape | src/dsp/modes/ModePresets.cpp:12-46 | with non-negative spans the maps never fall and run exactly from the low end to the high end |
| ModePresets.Defaults | src/dsp/modes/ModePresets.cpp:49-81 | the baseline recipe: no blocks, 16 lines, Householder |
| ModePresets.GetModePreset | src/dsp/modes/ModePresets.cpp:48-388 | the recipe carries its mode, a stage count in [0, 8], 16 lines, tap patterns 0 and 1, Householder for every mode but Plate, a mid multiplier of 1 and 16-entry maps |
| ModePresets.PresetFeatures | src/dsp/modes/ModePresets.cpp:183-363 | each block belongs to its own mode (granular to Granular and MicroCosmic), a mode switches on at most one, and the modes with a block are Spring, every atmospheric mode but Sky and every experimental mode |
| ModePresets.OutOfRangeGetsDefaults | src/dsp/modes/ModePresets.cpp:381-383 | `Count` and values that name no mode get the baseline recipe |
| ModePresets.StageClampIsIdentity | src/dsp/modes/ModePresets.cpp:386 | the final stage clamp never changes a recipe |
| ModePresets.PresetSpread | src/dsp/modes/ModePresets.cpp:73-378 | every mode's maps are its family's spread: Plate, Vintage, the Sky family or the default |
| ModePresets.SpreadBounds | src/dsp/modes/ModePresets.cpp:12-46 | the four spreads rise and lie within [0.75, 1.25] for depth and [0.60, 1.30] for rate |
| ModePresets.PresetModMaps | src/dsp/modes/ModePresets.cpp:12-378 | every mode's maps hold 16 multipliers, rise along the lines and stay within those ranges |
| ModePresets.PresetVoicing | src/dsp/modes/ModePresets.cpp:48-388 | every recipe damps highs more than mids, orders its late diffusion range, keeps its delay scale in [0.78, 1.45] and its suggested decay, mix and pre-delay in the engine's ranges |
| Engine.EffectiveDecay | src/dsp/engines/tune_hall/ReverbEngine.cpp:286-291 | the decay lies in [0, 0.9995]: the clamped decay when not frozen, 0.9993 when fully frozen, between them otherwise |
| Engine.LoudnessCompDb | src/dsp/engines/tune_hall/ReverbEngine.cpp:293-301 | the attenuation lies in [-24, 0] dB: 0 with no decay, strength or ceiling, the full clamped ceiling at full decay and strength |
| Engine.LoudnessBound | src/dsp/engines/tune_hall/ReverbEngine.cpp:299 | the product of the clamped factors stays within the ceiling |
| Engine.LoudnessMonotone | src/dsp/engines/tune_hall/ReverbEngine.cpp:293-301 | a longer decay is attenuated at least as much |
| Engine.DuckGain | src/dsp/engines/tune_hall/ReverbEngine.cpp:369-378 | 1 at or below the threshold, between the depth and 1 always, the depth once the envelope reaches full scale |
| Engine.OverSaturates | src/dsp/engines/tune_hall/ReverbEngine.cpp:375 | at full scale the normalised excess reaches 1 |
| Engine.MixSample | src/dsp/engines/tune_hall/ReverbEngine.cpp:389-399 | the dry sample at mix 0, the wet at mix 1, between them otherwise |
| Engine.PredelaySamples | src/dsp/engines/tune_hall/ReverbEngine.cpp:317 | the pre-delay lies in [0, 0.2*sr] samples and converts the time unchanged when it is inside [0, 200] ms |
| Engine.DefaultParams | src/dsp/engines/tune_hall/ReverbEngine.h:26-139 | Hall, 35 % wet, 20 ms pre-delay, decay 0.92 |
| Engine.Default | src/dsp/engines/tune_hall/ReverbEngine.h:152-198 | a constructed engine is well formed, not prepared, with the default parameters |
| Engine.BaseSet | src/dsp/engines/tune_hall/ReverbEngine.cpp:134-152 | sixteen base delays per set |
| Engine.BaseSetShape | src/dsp/engines/tune_hall/ReverbEngine.cpp:134-147 | both delay sets rise strictly and lie in [29.7, 137.3] ms |
| Engine.PresetDelays | src/dsp/engines/tune_hall/ReverbEngine.cpp:154-157 | sixteen scaled delays |
| Engine.PresetTankConfig | src/dsp/engines/tune_hall/ReverbEngine.cpp:119-161 | the first tank configuration of a mode change is well shaped |
| Engine.TankTuning | src/dsp/engines/tune_hall/ReverbEngine.cpp:93-113 | the tuning pushed into the tank keeps its configuration well shaped |
| Engine.InputConfigFor | src/dsp/engines/tune_hall/ReverbEngine.cpp:81-85 | (corrected) the pushed input configuration keeps the seeded stage times |
| Engine.LateConfigFor | src/dsp/engines/tune_hall/ReverbEngine.cpp:87-90 | (corrected) the pushed late configuration keeps the seeded stage times |
| Engine.PushDiffusion | src/dsp/engines/tune_hall/ReverbEngine.cpp:81-90 | (corrected) the diffusion gets the target's stage count (clamped), coefficient and late range; rate and initialisation kept |
| Engine.ApplyModePreset | src/dsp/engines/tune_hall/ReverbEngine.cpp:116-284 | (corrected) the recipe is stored and reaches the target; rate, block size, pre-delay lines, oscillators and ducking are kept |
| Engine.PushTarget | src/dsp/engines/tune_hall/ReverbEngine.cpp:63-113 | (corrected) only the diffusion and the tank change |
| Engine.SetParams | src/dsp/engines/tune_hall/ReverbEngine.cpp:55-114 | (corrected) the target's mode is the requested one; rate, block size and the prepared flag are kept |
| Engine.Reset | src/dsp/engines/tune_hall/ReverbEngine.cpp:41-53 | nothing before `prepare`; afterwards only the signal state is cleared, with target, recipe and tank configuration kept |
| Engine.AtLeast | src/dsp/engines/tune_hall/ReverbEngine.cpp:20 | the buffer size is at least the floor |
| Engine.Allocate | src/dsp/engines/tune_hall/ReverbEngine.cpp:8-33 | rate stored, block size at least 1, target and prepared flag kept |
| Engine.Prepare | src/dsp/engines/tune_hall/ReverbEngine.cpp:8-39 | (corrected) prepared, rate stored, block size at least 1, the recipe of the target's mode installed |
| Engine.ScaledDelay | src/dsp/engines/tune_hall/ReverbEngine.cpp:4-6 | `msToSamples(base*scale, sr) = base*(scale*sr/1000)` |
| Engine.ScaleIncreasing | src/dsp/engines/tune_hall/ReverbEngine.cpp:154-157 | scaling by a positive factor keeps a set strictly rising |
| Engine.PresetDelaysShape | src/dsp/engines/tune_hall/ReverbEngine.cpp:154-157 | scaled by a positive factor at a positive rate the delays rise strictly, are positive and, for scales up to 1.45, stay below 0.2*sr |
| Engine.ScaledSetShape | src/dsp/engines/tune_hall/ReverbEngine.cpp:154-157 | the same for any set within the tables' range |
| Engine.DelayBound | src/dsp/engines/tune_hall/ReverbEngine.cpp:155-156 | one scaled delay lies strictly between 0 and 0.2*sr |
| Engine.PresetReachesBlocks | src/dsp/engines/tune_hall/ReverbEngine.cpp:119-124 | after a mode change the tank runs 16 lines, Hadamard exactly for Plate |
| Engine.HallVoicing | src/dsp/engines/tune_hall/ReverbEngine.cpp:194-223 | only Hall gets the extra voicing; other modes keep the previous values |
| Engine.SetParamsSameMode | src/dsp/engines/tune_hall/ReverbEngine.cpp:55-61 | with an unchanged mode the target is stored as given and the recipe kept |
| Engine.SetParamsModeChange | src/dsp/engines/tune_hall/ReverbEngine.cpp:56-61 | a mode change installs the new recipe and its suggestions override the caller's values |
| Engine.SetParamsTwice | src/dsp/engines/tune_hall/ReverbEngine.cpp:55-61 | sending the same parameters twice keeps exactly the caller's values |
| Engine.ModeDelays | src/dsp/engines/tune_hall/ReverbEngine.cpp:154-157 | every mode's own delay scale gives rising delays strictly between 0 and 0.2*sr |
| Engine.PushDiffusionDecorrelates | src/dsp/engines/tune_hall/ReverbEngine.cpp:81-90 | (corrected) pushing the target keeps every stage pair's L and R delay times different |
| Engine.ClearKeepsDecorrelation | src/dsp/diffusion/Diffusion.cpp:93-102 | clearing keeps the stored L/R times and the different L/R delay times |
| Engine.SharedTapAt44k | src/dsp/diffusion/Diffusion.cpp:51-74 | different delay times need not give different taps: after `init` at 44.1 kHz with the engine seed, input stage 0 has different L and R times and both read 59 samples back |
| Engine.PrepareDecorrelates | src/dsp/engines/tune_hall/ReverbEngine.cpp:8-39 | (corrected) after `prepare` every stage pair has different L and R delay times |
| Engine.SetParamsKeepsDecorrelation | src/dsp/engines/tune_hall/ReverbEngine.cpp:55-114 | (corrected) every later `setParams` keeps the stored L/R times and the different L/R delay times |
| Engine.ResetIdempotent | src/dsp/engines/tune_hall/ReverbEngine.cpp:41-53 | resetting twice is resetting once |
| Engine.TankClearIdempotent | src/dsp/tail/Tank.cpp:83-100 | clearing the tank twice is clearing once |
| Engine.ResetSilences | src/dsp/engines/tune_hall/ReverbEngine.cpp:41-53 | after `reset()` the pre-delay lines are silent, silent input leaves the diffusion silent, the tank reads silence and the ducking envelope is 0 |
| EngineBlock.PredelayReads | src/dsp/engines/tune_hall/ReverbEngine.cpp:319-324 | one read per input sample |
| EngineBlock.Predelay | src/dsp/engines/tune_hall/ReverbEngine.cpp:319-324 | the loop leaves the line holding every sample and produces the reference reads |
| EngineBlock.ReadsPrefix | src/dsp/engines/tune_hall/ReverbEngine.cpp:319-324 | a read never looks ahead: the reads of a prefix are the prefix of the reads |
| EngineBlock.ReadsSnoc | src/dsp/engines/tune_hall/ReverbEngine.cpp:319-324 | one more sample appends one more read |
| EngineBlock.PushAllAppend | src/dsp/common/Dsp.h:323-328 | pushing `a` then `b` is pushing `a + b` |
| EngineBlock.PushesSplit | src/dsp/common/Dsp.h:323-328 | the pushes up to a sample split at an earlier one |
| EngineBlock.PredelayLag | src/dsp/engines/tune_hall/ReverbEngine.cpp:319-324 | reading at a whole delay `lag + 1` yields the input `lag` samples back |
| EngineBlock.ReadLag | src/dsp/common/Dsp.h:323-360 | the same for one read after the pushes |
| EngineBlock.PredelayTap | src/dsp/engines/tune_hall/ReverbEngine.cpp:317-323 | the corrected tap is at least one sample and is the pre-delay whenever that is at least one sample |
| EngineBlock.ZeroPredelayPassesThrough | src/dsp/engines/tune_hall/ReverbEngine.cpp:317-323 | with the corrected tap a 0 ms pre-delay passes the input through |
| EngineBlock.LevelsOf | src/dsp/engines/tune_hall/ReverbEngine.cpp:330-337 | the effective decay lies in [0, 0.9995]; loudness compensation off gives the gain of 0 dB |
| EngineBlock.Duck | src/dsp/engines/tune_hall/ReverbEngine.cpp:369-378 | ducking off gives gain 1 and keeps the follower; the gain always lies between the depth and 1 |
| EngineBlock.TailSample | src/dsp/engines/tune_hall/ReverbEngine.cpp:339-385 | one pass changes only the diffusion, tank, oscillators and ducking; tank configuration kept; the gain bounds hold |
| EngineBlock.TailRun | src/dsp/engines/tune_hall/ReverbEngine.cpp:339-385 | one wet sample per input sample; the same state facts over the block |
| EngineBlock.Advance | src/dsp/engines/tune_hall/ReverbEngine.cpp:339-385 | one pass appended to a run keeps those facts |
| EngineBlock.Samples | src/dsp/engines/tune_hall/ReverbEngine.cpp:339-347 | one per-sample input per sample |
| EngineBlock.Wet | src/dsp/engines/tune_hall/ReverbEngine.cpp:319-387 | (corrected) one wet sample per input sample on each side |
| EngineBlock.Tail | src/dsp/engines/tune_hall/ReverbEngine.cpp:339-385 | the tail loop reaches the reference run |
| EngineBlock.Mix | src/dsp/engines/tune_hall/ReverbEngine.cpp:389-400 | every output sample is the clamped crossfade of its dry and wet samples; the input at mix 0, the wet block at mix 1 |
| EngineBlock.ProcessBlock | src/dsp/engines/tune_hall/ReverbEngine.cpp:303-401 | (corrected) before `prepare` nothing changes; afterwards the block grows to `n`, the pre-delay lines hold the block, the tank configuration is kept and every output sample is the mix of dry and wet |
| EngineBlock.WetPath | src/dsp/engines/tune_hall/ReverbEngine.cpp:317-387 | (corrected) the pre-delay loops leave each line holding the block, the wet block is the reference `Wet`, and the tail loop changes only diffusion, tank, oscillators and ducking |
| EngineAsWritten.InputConfigOf | src/dsp/engines/tune_hall/ReverbEngine.cpp:82-84 | the value-initialised input configuration is well shaped |
| EngineAsWritten.LateConfigOf | src/dsp/engines/tune_hall/ReverbEngine.cpp:87-89 | the value-initialised late configuration is well shaped |
| EngineAsWritten.PushDiffusion | src/dsp/engines/tune_hall/ReverbEngine.cpp:81-90 | the push as written keeps the diffusion well formed |
| EngineAsWritten.PushCollapsesDelays | src/dsp/engines/tune_hall/ReverbEngine.cpp:81-90 | the push as written sets every stage time to 0 and every tap to one sample |
| EngineAsWritten.InitThenPushIsMono | src/dsp/engines/tune_hall/ReverbEngine.cpp:24-90 | after `init` the push as written makes both chains identical and a mono input stays mono; with the corrected push every stage pair keeps different L and R delay times |
| EngineAsWritten.ZeroDelayReadsOldest | src/dsp/common/Dsp.h:323-360 | reading at delay 0 returns the sample pushed `n - 1` pushes earlier |
| EngineAsWritten.ZeroPredelayWraps | src/dsp/engines/tune_hall/ReverbEngine.cpp:317-324 | as written a 0 ms pre-delay yields the input `n - 1` samples back |
| EngineAsWritten.ReadWraps | src/dsp/common/Dsp.h:323-360 | the same for one read after the pushes |
| EngineAsWritten.SpringAsksForNoPredelay | src/dsp/modes/ModePresets.cpp:198 | a change to Spring installs a 0 ms pre-delay |
| EngineAsWritten.ZeroDelayReadsNextSlot | src/dsp/common/Dsp.h:323-360 | reading at delay 0 after one push returns the slot the next push overwrites |
| EngineAsWritten.ImpulseIsLost | src/dsp/engines/tune_hall/ReverbEngine.cpp:317-324 | an impulse into a cleared line at 0 ms comes out as 0 as written and as itself with the corrected tap |

## Left out

- Floating point: rounding, overflow to infinity, NaN and denormals. Samples are exact reals. `killDenorm`'s threshold is the exact real `1e-20`.
- `exp`, `sin`, `cos`, `tanh`, `pow`, `sqrt`, `log10` and `dbToLin` are parameters, not definitions. RT60 accuracy and frequency responses are not stated.
- Dsp.SoftSat: requires `tanh(1 + drive) > 0`. This holds for the real `tanh`, but the model does not define `tanh` and so cannot derive it. Every member that saturates (`Tank.FeedbackSample`, `Tank.ProcessSample`, `EngineBlock.ProcessBlock`, `Engine.ResetSilences`) carries the same requirement.
- Tank.Coefficient: requires a positive sample rate, as do `Tank.Init` and every member that needs a well-formed `Tank`. The engine always passes the rate given to `prepare`. The source's behaviour for a zero or negative rate, a division by zero in float, is not modelled.
- AllpassStage.AllpassDelayRoundTrip: stated for an integral tap, where the read index is exact. The truncation of a fractional `delaySamp` is modelled in `AllpassStage.TapDelay`.
- Early reflections (`EarlyReflections.*`) and the output stage (`OutputStage.*`), with their biquad and shelf design, are block transforms passed to `EngineBlock.ProcessBlock`. Only the fact that they return blocks as long as their inputs is assumed of them.
- The scratch-buffer reallocation in `prepare` and `processBlock` is not modelled. The block size bookkeeping is.
- `Tank::processSampleVec`, the RT60 gain cache (`fbGain*`, `lastDecay01`) and the `cloud*` fields of `Tank`: declared in `src/dsp/tail/Tank.h` with no definition in the sources.
- `ReverbEngine`'s `stereoDepth`, `cloud*` and `dynDiff*` parameters, `rebuildStereoVectors` and the smear lines: declared, never used by the modelled code.
- The test hosts (`apps/pedal_host/main.cpp`, `App/main.cpp`) and `src/core/Version.h`: file I/O and a build stamp.
- `Tank.ProcessSample`: the envelope follower's output is modelled, but no lemma bounds the tail's energy over time. A bound would depend on the library functions' values.
- Engine.SetParams: the early-reflection and output-stage parameters it forwards are stored in the target only. Their effect lives in the blocks left out above.
- Engine.InputConfigFor: keeps the seeded input stage times, where `ReverbEngine.cpp:81-85` pushes a value-initialised `InputConfig` whose times are all 0 ms; the as-written push is `EngineAsWritten.InputConfigOf` (see Findings).
- Engine.LateConfigFor: keeps the seeded late stage times, where `ReverbEngine.cpp:87-90` pushes zero times; the as-written push is `EngineAsWritten.LateConfigOf`.
- Engine.PushDiffusion: the corrected push keeps every stage's delay time, where the source's push collapses every stage to a one-sample tap; the as-written push is `EngineAsWritten.PushDiffusion`.
- Engine.ApplyModePreset: reaches the target through the corrected diffusion push, so its diffusion state is not the source's.
- Engine.PushTarget: uses the corrected diffusion push.
- Engine.SetParams: uses the corrected diffusion push whenever it pushes the target.
- Engine.Prepare: installs the recipe through the corrected diffusion push.
- Engine.PushDiffusionDecorrelates: proved for the corrected push only; the source's push makes both chains identical (`EngineAsWritten.InitThenPushIsMono`). It states different delay times, not different whole-sample taps.
- Engine.PrepareDecorrelates: proved for the corrected push only, and about delay times rather than taps: after truncation a stage pair can read at the same tap (`Engine.SharedTapAt44k`: input stage 0 at 44.1 kHz has times of about 59.0 and 59.8 samples, both read 59 samples back).
- Engine.SetParamsKeepsDecorrelation: proved for the corrected push only, about delay times rather than taps.
- EngineBlock.Wet: built on the corrected pre-delay tap `max(1, preSamp)` and the corrected diffusion push. The source reads at the raw `preSamp`, which also shifts every fractional pre-delay in [0, 1); that read is `EngineAsWritten.ZeroPredelayWraps`.
- EngineBlock.WetPath: reaches the corrected `Wet`, not the source's path.
- EngineBlock.ProcessBlock: its wet block is the corrected `Wet`, so for a pre-delay below one sample and for the diffusion times it is not the source's output.
- Dsp.SetCutoff: requires a positive sample rate. The source divides by `sr` and its callers pass the prepared rate; a zero or negative rate is not modelled.
- The engine copy of the primitives header also drops the denormal flush in the biquad and in `StereoSpinner`'s smoothing, stores the rate unchecked in `SmoothValue`, `EnvelopeFollower` and `StereoSpinner`, lacks the `clamp` template and `clamp01`, and writes `M_PI` and a pointer cast for `kPi` and `memcpy`. The biquad, `SmoothValue` and the spinner's smoothing are not modelled in either copy. The follower's rate is a parameter of `Tank.SetAttackRelease`, called with the prepared rate. The remaining differences change no value the model computes.
- EngineBlock.TailSample: the contract states what each pass keeps and bounds the ducking gain. The sample values it computes are given by its definition, which follows the source line by line, but are not restated as a separate property.

## Findings

| source | as written | input that shows it | evidently intended | confidence | as-written member | corrected member |
|---|---|---|---|---|---|---|
| Source/ReverbCore/Matrices.cpp:38-54 | the transform loops run for every clamped line count, so for a count that is not a power of two the blocks reach past `lines`, and the entries written there are never scaled | `lines = 6`, an impulse on line 0: lines 6 and 7 end at 1 | no entry at `lines` or above changes (the later revision falls back to the Householder mix) | high, not executed | MatricesLegacy.SixLinesWritesTail | Matrices.MixKeepsTail |
| Source/ReverbCore/TapPatterns.cpp:116-133 | pattern 3 counts only the even taps and normalises both sides by that count | three lines at 1: `wetL = 1`, `wetR = 0.5` | each side is normalised by its own tap count, so both are means | high, not executed | TapPatternsLegacy.ThreeLinesHalvesRight | TapPatterns.Pattern3Constant |
| src/dsp/engines/tune_hall/ReverbEngine.cpp:81-90 | `setParams` and `applyModePreset` push value-initialised diffusion configurations that carry only stage count and coefficients, so every stage time becomes 0 ms | `init` at any positive rate, then the push: the L and R chains are identical and a mono input leaves the input diffusion mono | the seeded, decorrelated stage times from `Diffusion::init` survive the push | medium, not executed | EngineAsWritten.InitThenPushIsMono | Engine.PrepareDecorrelates |
| src/dsp/engines/tune_hall/ReverbEngine.cpp:317-323 | each sample is pushed and then read at `preSamp`, so a pre-delay of 0 samples reads the slot the next push overwrites, the oldest in the line | Spring's 0 ms pre-delay: an impulse into a cleared line comes out as 0 and returns a full line (about 200 ms) later | a pre-delay of 0 ms passes the input through with no delay | medium, not executed | EngineAsWritten.ImpulseIsLost | EngineBlock.ZeroPredelayPassesThrough |

=== FILE: allpass.dfy ===
/** The Schroeder `Allpass` diffuser of src/dsp/common/Dsp.h: a circular buffer read `d`
    samples behind the cursor, `y = -g*x + buf[r]`, and a single write `buf[idx] = x + g*y`. */
module AllpassStage {
  import opened Dsp
  import opened Delay
  import Sums

  datatype Allpass = Allpass(buf: seq<real>, idx: int, g: real, delaySamp: real)

  /** The struct's member defaults: no buffer, `g = 0.7`, `delaySamp = 200`. */
  function Default(): (ap: Allpass)
    ensures Valid(ap) && |ap.buf| == 0 && ap.g == 0.7 && ap.delaySamp == 200.0
  {
    Allpass([], 0, 0.7, 200.0)
  }

  /** The cursor indexes the buffer, or is 0 for an unallocated stage. */
  predicate Valid(ap: Allpass)
  {
    0 <= ap.idx < |ap.buf| || (|ap.buf| == 0 && ap.idx == 0)
  }

  /** `init(maxDelaySamples)`: at least one zeroed slot, cursor at 0; `g` and the delay are kept. */
  function Init(ap: Allpass, maxDelaySamples: int): (b: Allpass)
    ensures Valid(b) && b.idx == 0 && AllZero(b.buf)
    ensures |b.buf| >= 1 && |b.buf| >= maxDelaySamples
    ensures maxDelaySamples >= 1 ==> |b.buf| == maxDelaySamples
    ensures b.g == ap.g && b.delaySamp == ap.delaySamp
  {
    ap.(buf := Zeros(if maxDelaySamples < 1 then 1 else maxDelaySamples), idx := 0)
  }

  /** `clear()`: zeroes the buffer and rewinds the cursor, keeping capacity, `g` and delay. */
  function ClearStage(ap: Allpass): (b: Allpass)
    ensures Valid(b) && b.idx == 0 && AllZero(b.buf) && |b.buf| == |ap.buf|
    ensures b.g == ap.g && b.delaySamp == ap.delaySamp
  {
    ap.(buf := Zeros(|ap.buf|), idx := 0)
  }

  /** `int(clampf(delaySamp, 1, size - 1))`: for a capacity of at least 2 the tap lies in
      [1, size-1]; for capacity 1 the inverted clamp yields its lower bound 1. */
  function TapDelay(delaySamp: real, n: int): (d: int)
    requires n >= 1
    ensures n >= 2 ==> 1 <= d <= n - 1
    ensures n == 1 ==> d == 1
    ensures 1.0 <= delaySamp <= (n - 1) as real ==> d as real <= delaySamp < d as real + 1.0
  {
    Trunc(Clamp(delaySamp, 1.0, (n - 1) as real))
  }

  /** `r = idx - d; if (r < 0) r += size;` */
  function ReadIndex(idx: int, d: int, n: int): (r: int)
    requires 0 <= idx < n && 1 <= d <= n
    ensures 0 <= r < n
    ensures r == (idx - d) % n
  {
    ModFold(idx - d, n);
    if idx - d < 0 then idx - d + n else idx - d
  }

  /** The value written back into the buffer: `x + g*y`. */
  function Feedback(g: real, x: real, y: real): real
  {
    x + Sums.Times(g, y)
  }

  /** The body of `process(x)` once the buffer has a slot: the output is `-g*x` plus the slot
      `d` behind the cursor, the feedback `x + g*y` is written at the cursor and nowhere else,
      and the cursor advances modulo the capacity. */
  function Tick(ap: Allpass, x: real): (s: Step<Allpass>)
    requires Valid(ap) && |ap.buf| >= 1
    ensures Valid(s.state) && |s.state.buf| == |ap.buf|
    ensures s.state.g == ap.g && s.state.delaySamp == ap.delaySamp
    ensures s.out == Sums.Times(-ap.g, x) + ap.buf[ReadIndex(ap.idx, TapDelay(ap.delaySamp, |ap.buf|), |ap.buf|)]
    ensures s.state.buf == ap.buf[ap.idx := Feedback(ap.g, x, s.out)]
    ensures s.state.idx == (ap.idx + 1) % |ap.buf|
  {
    var n := |ap.buf|;
    var r := ReadIndex(ap.idx, TapDelay(ap.delaySamp, n), n);
    var y := Sums.Times(-ap.g, x) + ap.buf[r];
    Step(ap.(buf := ap.buf[ap.idx := Feedback(ap.g, x, y)], idx := NextCursor(ap.idx, n)), y)
  }

  /** `process(x)` of the canonical header: a stage with fewer than two slots passes the input
      through and keeps its state; otherwise it reads `d` in [1, size-1] samples back. */
  function Process(ap: Allpass, x: real): (s: Step<Allpass>)
    requires Valid(ap)
    ensures Valid(s.state) && |s.state.buf| == |ap.buf|
    ensures s.state.g == ap.g && s.state.delaySamp == ap.delaySamp
    ensures |ap.buf| < 2 ==> s.out == x && s.state == ap
    ensures |ap.buf| >= 2 ==>
              s.out == Sums.Times(-ap.g, x) + ap.buf[ReadIndex(ap.idx, TapDelay(ap.delaySamp, |ap.buf|), |ap.buf|)]
    ensures |ap.buf| >= 2 ==> s.state.buf == ap.buf[ap.idx := Feedback(ap.g, x, s.out)]
    ensures |ap.buf| >= 2 ==> s.state.idx == (ap.idx + 1) % |ap.buf|
  {
    if |ap.buf| < 2 then Step(ap, x) else Tick(ap, x)
  }

  /** Successive calls of `process`, oldest input first; only the final state is kept. */
  function Run(ap: Allpass, xs: seq<real>): (b: Allpass)
    requires Valid(ap)
    ensures Valid(b) && |b.buf| == |ap.buf| && b.g == ap.g && b.delaySamp == ap.delaySamp
  {
    if |xs| == 0 then ap else Process(Run(ap, xs[..|xs| - 1]), xs[|xs| - 1]).state
  }

  /** After one call writes its slot, up to `n - 1` further calls leave that slot alone and
      move the cursor forward by one each. */
  lemma {:induction false} RunKeepsWrite(ap: Allpass, x: real, ys: seq<real>)
    requires Valid(ap) && |ap.buf| >= 2 && |ys| < |ap.buf|
    ensures Run(Process(ap, x).state, ys).idx == CursorAfter(ap.idx, 1 + |ys|, |ap.buf|)
    ensures Run(Process(ap, x).state, ys).buf[ap.idx] == Feedback(ap.g, x, Process(ap, x).out)
  {
    if |ys| > 0 {
      var prev := ys[..|ys| - 1];
      RunKeepsWrite(ap, x, prev);
      var e := Run(Process(ap, x).state, prev);
      assert Run(Process(ap, x).state, ys) == Process(e, ys[|ys| - 1]).state;
      assert e.idx != ap.idx;
    }
  }

  /** The feedback path is a pure delay of `d` samples: when the tap `d` lies in [1, size-1],
      the call `d` steps after input `x` reads back exactly `x + g*y`, the value that call
      stored. */
  lemma AllpassDelayRoundTrip(ap: Allpass, x: real, ys: seq<real>, z: real)
    requires Valid(ap) && |ap.buf| >= 2 && |ys| + 1 <= |ap.buf| - 1
    requires TapDelay(ap.delaySamp, |ap.buf|) == |ys| + 1
    ensures Process(Run(Process(ap, x).state, ys), z).out
              == Sums.Times(-ap.g, z) + Feedback(ap.g, x, Process(ap, x).out)
  {
    var s := Process(ap, x);
    var e := Run(s.state, ys);
    assert e.idx == CursorAfter(ap.idx, |ys| + 1, |ap.buf|) && e.buf[ap.idx] == Feedback(ap.g, x, s.out)
    by { RunKeepsWrite(ap, x, ys); }
    ReadsBack(ap.idx, |ys| + 1, e, ap.g, z);
  }

  /** A stage whose cursor stands `d` slots past slot `i`, with a tap of `d`, reads slot `i`. */
  lemma ReadsBack(i: int, d: int, e: Allpass, g: real, z: real)
    requires Valid(e) && 0 <= i < |e.buf| && 1 <= d <= |e.buf| - 1 && e.g == g
    requires TapDelay(e.delaySamp, |e.buf|) == d && e.idx == CursorAfter(i, d, |e.buf|)
    ensures Process(e, z).out == Sums.Times(-g, z) + e.buf[i]
  {
    assert ReadIndex(e.idx, d, |e.buf|) == i;
  }

  /** An integral delay `d` in [1, size-1] is its own tap. */
  lemma IntegralTap(d: int, n: int)
    requires 1 <= d <= n - 1
    ensures TapDelay(d as real, n) == d
  {
    assert (d as real).Floor == d;
  }
}

=== FILE: delay.dfy ===
/** `DelayLine` of src/dsp/common/Dsp.h: a circular sample buffer with a write cursor and a
    4-point cubic-Hermite (Catmull-Rom) fractional read. */
module Delay {
  import opened Dsp

  function Zeros(n: nat): (s: seq<real>)
    ensures |s| == n && AllZero(s)
  {
    seq(n, _ => 0.0)
  }

  predicate AllZero(s: seq<real>)
  {
    forall i :: 0 <= i < |s| ==> s[i] == 0.0
  }

  /** The cursor increment `i++; if (i >= size) i = 0;` shared by the delay line and the allpass. */
  function NextCursor(i: int, n: int): (j: int)
    requires 0 <= i < n
    ensures 0 <= j < n
    ensures j == (i + 1) % n
  {
    if i + 1 >= n then 0 else i + 1
  }

  datatype DelayLine = DelayLine(buf: seq<real>, w: int)

  /** The write cursor always indexes the buffer (or is 0 for an unallocated line). */
  predicate Valid(d: DelayLine)
  {
    0 <= d.w < |d.buf| || (|d.buf| == 0 && d.w == 0)
  }

  /** `init(maxSamples)`: at least 4 zeroed slots, cursor at 0. */
  function Init(maxSamples: int): (d: DelayLine)
    ensures Valid(d) && d.w == 0 && AllZero(d.buf)
    ensures |d.buf| >= 4 && |d.buf| >= maxSamples
    ensures maxSamples >= 4 ==> |d.buf| == maxSamples
  {
    DelayLine(Zeros(if maxSamples < 4 then 4 else maxSamples), 0)
  }

  /** `clear()`: re-zeroes the buffer and rewinds the cursor; the capacity is unchanged. */
  function Clear(d: DelayLine): (e: DelayLine)
    ensures Valid(e) && e.w == 0 && AllZero(e.buf) && |e.buf| == |d.buf|
  {
    DelayLine(Zeros(|d.buf|), 0)
  }

  /** `push(x)`: writes only the slot under the cursor, then advances the cursor modulo the
      capacity; an unallocated line ignores the call. */
  function Push(d: DelayLine, x: real): (e: DelayLine)
    requires Valid(d)
    ensures Valid(e) && |e.buf| == |d.buf|
    ensures |d.buf| == 0 ==> e == d
    ensures |d.buf| > 0 ==> e.buf == d.buf[d.w := x] && e.w == (d.w + 1) % |d.buf|
  {
    if |d.buf| == 0 then d
    else DelayLine(d.buf[d.w := x], NextCursor(d.w, |d.buf|))
  }

  /** A sequence of pushes, oldest first. */
  function PushAll(d: DelayLine, xs: seq<real>): (e: DelayLine)
    requires Valid(d)
    ensures Valid(e) && |e.buf| == |d.buf|
  {
    if |xs| == 0 then d else Push(PushAll(d, xs[..|xs| - 1]), xs[|xs| - 1])
  }

  /** The read position `w - delay` folded into [0, n): what the two `while` loops of
      `readFracCubic` compute for a delay already clamped to [0, n-4]. */
  function ReadPosition(w: int, delay: real, n: int): (rp: real)
    requires 4 <= n && 0 <= w < n && 0.0 <= delay <= (n - 4) as real
    ensures 0.0 <= rp < n as real
    ensures rp == w as real - delay || rp == w as real - delay + n as real
  {
    var p := w as real - delay;
    if p < 0.0 then p + n as real else p
  }

  /** The four neighbour indices and the fractional part of one cubic read. */
  datatype Taps = Taps(i0: int, i1: int, i2: int, i3: int, f: real)

  /** Index arithmetic of `readFracCubic`: the delay is clamped to [0, n-4], the position is
      split into `i1 + f`, and the neighbours are wrapped into the buffer. */
  function ReadTaps(d: DelayLine, delay: real): (t: Taps)
    requires Valid(d) && |d.buf| >= 4
    ensures 0 <= t.i0 < |d.buf| && 0 <= t.i1 < |d.buf| && 0 <= t.i2 < |d.buf| && 0 <= t.i3 < |d.buf|
    ensures t.i0 == (t.i1 - 1) % |d.buf| && t.i2 == (t.i1 + 1) % |d.buf| && t.i3 == (t.i1 + 2) % |d.buf|
    ensures 0.0 <= t.f < 1.0
    ensures t.i1 as real + t.f == ReadPosition(d.w, Clamp(delay, 0.0, (|d.buf| - 4) as real), |d.buf|)
  {
    var n := |d.buf|;
    var rp := ReadPosition(d.w, Clamp(delay, 0.0, (n - 4) as real), n);
    var i1 := rp.Floor;
    assert 0 <= i1 < n;
    var i0 := if i1 - 1 < 0 then i1 - 1 + n else i1 - 1;
    var i2 := if i1 + 1 >= n then i1 + 1 - n else i1 + 1;
    var i3 := if i1 + 2 >= n then i1 + 2 - n else i1 + 2;
    ModFold(i1 - 1, n);
    ModFold(i1 + 1, n);
    ModFold(i1 + 2, n);
    Taps(i0, i1, i2, i3, rp - i1 as real)
  }

  /** The cubic Hermite interpolant between `y1` (at f = 0) and `y2` (at f = 1) with
      Catmull-Rom tangents. */
  function Hermite(y0: real, y1: real, y2: real, y3: real, f: real): real
  {
    var m1 := 0.5 * (y2 - y0);
    var m2 := 0.5 * (y3 - y1);
    var f2 := f * f;
    var f3 := f2 * f;
    var h00 := 2.0 * f3 - 3.0 * f2 + 1.0;
    var h10 := f3 - 2.0 * f2 + f;
    var h01 := -2.0 * f3 + 3.0 * f2;
    var h11 := f3 - f2;
    h00 * y1 + h10 * m1 + h01 * y2 + h11 * m2
  }

  /** The interpolant passes through its two inner samples: the weights at f = 0 are
      (1, 0, 0, 0) and at f = 1 they are (0, 0, 1, 0). */
  lemma HermiteInterpolates(y0: real, y1: real, y2: real, y3: real)
    ensures Hermite(y0, y1, y2, y3, 0.0) == y1
    ensures Hermite(y0, y1, y2, y3, 1.0) == y2
  {
  }

  /** `readFracCubic(delay)` of the canonical header; buffers shorter than 4 read as 0. */
  function ReadFracCubic(d: DelayLine, delay: real): (y: real)
    requires Valid(d)
    ensures |d.buf| < 4 ==> y == 0.0
    ensures AllZero(d.buf) ==> y == 0.0
  {
    if |d.buf| < 4 then 0.0
    else
      var t := ReadTaps(d, delay);
      Hermite(d.buf[t.i0], d.buf[t.i1], d.buf[t.i2], d.buf[t.i3], t.f)
  }

  /** The read position computed as the source does it: start at `w - delay` and add or
      subtract the capacity until the position lies in [0, n). */
  method FoldReadPosition(w: int, delay: real, n: int) returns (rp: real)
    requires 4 <= n && 0 <= w < n && 0.0 <= delay <= (n - 4) as real
    ensures 0.0 <= rp < n as real
    ensures rp == ReadPosition(w, delay, n)
  {
    var p := w as real - delay;
    rp := p;
    while rp < 0.0
      invariant rp == p || (rp == p + n as real && p < 0.0 && rp >= 0.0)
      decreases if rp < 0.0 then 1 else 0
    {
      rp := rp + n as real;
    }
    ghost var k := if rp == p then 0 else 1;
    rp, k := FoldDown(p, rp, k, n);
    FoldUnique(p, k, n);
  }

  /** The second loop of `readFracCubic`: subtract the capacity while the position is at
      least `n`. */
  method FoldDown(p: real, rp0: real, ghost k0: int, n: int) returns (rp: real, ghost k: int)
    requires n >= 1 && rp0 == p + k0 as real * n as real && rp0 >= 0.0
    ensures rp == p + k as real * n as real && 0.0 <= rp < n as real
  {
    rp, k := rp0, k0;
    while rp >= n as real
      invariant rp == p + k as real * n as real
      invariant rp >= 0.0
      decreases rp.Floor
    {
      ShiftStep(k - 1, n);
      rp := rp - n as real;
      k := k - 1;
    }
  }

  /** One more multiple of `n`. */
  lemma ShiftStep(k: int, n: int)
    ensures (k + 1) as real * n as real == k as real * n as real + n as real
  {
  }

  /** Only one multiple of `n` moves a value of (-n, n) into [0, n). */
  lemma FoldUnique(a: real, k: int, n: int)
    requires n >= 1 && -(n as real) < a < n as real
    requires 0.0 <= a + k as real * n as real < n as real
    ensures (k == 0 && a >= 0.0) || (k == 1 && a < 0.0)
  {
    if k >= 2 {
      MulNonneg((k - 2) as real, n as real);
    } else if k <= -1 {
      MulNonneg((-1 - k) as real, n as real);
    }
  }

  /** `a % n` for a value at most one capacity away from [0, n). */
  lemma ModFold(a: int, n: int)
    requires n >= 1 && -n <= a < 2 * n
    ensures a % n == (if a < 0 then a + n else if a >= n then a - n else a)
  {
    if a < 0 {
      ModBelow(a, n);
    } else if a >= n {
      ModAbove(a, n);
    }
  }

  lemma ModBelow(a: int, n: int)
    requires n >= 1 && -n <= a < 0
    ensures a % n == a + n
  {
    assert a == -1 * n + (a + n);
  }

  lemma ModAbove(a: int, n: int)
    requires n >= 1 && n <= a < 2 * n
    ensures a % n == a - n
  {
    assert a == 1 * n + (a - n);
  }

  /** Position of the cursor `m` pushes after a push at `w0`, without `%`. */
  function CursorAfter(w0: int, m: int, n: int): int
  {
    if w0 + m < n then w0 + m else w0 + m - n
  }

  /** After `x` is pushed at the cursor `w0`, up to `n - 1` further pushes leave it in place
      and move the cursor to `w0 + 1 + |ys|` (folded once). */
  lemma {:induction false} PushAllKeeps(d: DelayLine, x: real, ys: seq<real>)
    requires Valid(d) && |d.buf| > 0 && |ys| < |d.buf|
    ensures PushAll(Push(d, x), ys).w == CursorAfter(d.w, 1 + |ys|, |d.buf|)
    ensures PushAll(Push(d, x), ys).buf[d.w] == x
  {
    var n := |d.buf|;
    if |ys| == 0 {
      assert PushAll(Push(d, x), ys) == Push(d, x);
    } else {
      var prev := ys[..|ys| - 1];
      PushAllKeeps(d, x, prev);
      var e := PushAll(Push(d, x), prev);
      assert PushAll(Push(d, x), ys) == Push(e, ys[|ys| - 1]);
      assert e.w != d.w;
    }
  }

  /** Push/read round trip: a sample pushed and followed by `k - 1` further pushes is read
      back exactly at the integer delay `k`, for every `1 <= k <= n - 4`. */
  lemma PushReadRoundTrip(d: DelayLine, x: real, ys: seq<real>)
    requires Valid(d) && |d.buf| >= 4
    requires |ys| + 1 <= |d.buf| - 4
    ensures ReadFracCubic(PushAll(Push(d, x), ys), (|ys| + 1) as real) == x
  {
    var n := |d.buf|;
    var k := |ys| + 1;
    var e := PushAll(Push(d, x), ys);
    PushAllKeeps(d, x, ys);
    var t := ReadTaps(e, k as real);
    assert t.i1 == d.w && t.f == 0.0 by {
      assert ReadPosition(e.w, k as real, n) == d.w as real;
      assert (d.w as real).Floor == d.w;
    }
    HermiteInterpolates(e.buf[t.i0], e.buf[t.i1], e.buf[t.i2], e.buf[t.i3]);
  }
}

=== FILE: diffusion.dfy ===
/** The stereo diffusion block of src/dsp/diffusion: up to eight input allpass stages per side
    driven by a time-varying coefficient, three late stages crossfaded against the dry signal,
    and seed-derived left/right delay times. */
module Diffusion {
  import opened Dsp
  import opened Delay
  import AP = AllpassStage
  import Sums

  const MaxInputStages: int := 8
  const LateStages: int := 3

  /** `clampInputStages` (and the `clampStages` that `setInputConfig` calls): [0, 8]. */
  function ClampInputStages(s: int): (r: int)
    ensures 0 <= r <= MaxInputStages
    ensures 0 <= s <= MaxInputStages ==> r == s
    ensures s < 0 ==> r == 0
    ensures MaxInputStages < s ==> r == MaxInputStages
  {
    ClampInt(s, 0, MaxInputStages)
  }

  /** `msToSamples`: milliseconds at sample rate `sr`. */
  function MsToSamples(ms: real, sr: real): real
  {
    ms * 0.001 * sr
  }

  /** At a non-zero rate, distinct times give distinct delays. */
  lemma MsToSamplesInjective(a: real, b: real, sr: real)
    requires a != b && sr != 0.0
    ensures MsToSamples(a, sr) != MsToSamples(b, sr)
  {
    assert MsToSamples(a, sr) - MsToSamples(b, sr) == (a - b) * (0.001 * sr);
  }

  datatype InputConfig = InputConfig(stages: int, g: real, timesMsL: seq<real>, timesMsR: seq<real>)

  datatype LateConfig = LateConfig(minG: real, maxG: real, timesMsL: seq<real>, timesMsR: seq<real>)

  /** The `std::array` sizes of the two configurations. */
  predicate InputShaped(c: InputConfig)
  {
    |c.timesMsL| == MaxInputStages && |c.timesMsR| == MaxInputStages
  }

  predicate LateShaped(c: LateConfig)
  {
    |c.timesMsL| == LateStages && |c.timesMsR| == LateStages
  }

  /** The member initialisers: 6 stages at `g = 0.72`, and `minG = 0.45`, `maxG = 0.72`, with
      zeroed time arrays. */
  function DefaultInputConfig(): (c: InputConfig)
    ensures InputShaped(c) && c.stages == 6 && c.g == 0.72
  {
    InputConfig(6, 0.72, Zeros(MaxInputStages), Zeros(MaxInputStages))
  }

  function DefaultLateConfig(): (c: LateConfig)
    ensures LateShaped(c) && c.minG == 0.45 && c.maxG == 0.72
  {
    LateConfig(0.45, 0.72, Zeros(LateStages), Zeros(LateStages))
  }

  predicate AllValid(st: seq<AP.Allpass>)
  {
    forall i :: 0 <= i < |st| ==> AP.Valid(st[i])
  }

  datatype Diffusion = Diffusion(
    sr: real,
    inputCfg: InputConfig,
    lateCfg: LateConfig,
    inL: seq<AP.Allpass>,
    inR: seq<AP.Allpass>,
    lateL: seq<AP.Allpass>,
    lateR: seq<AP.Allpass>,
    activeInputStages: int,
    tvG: real,
    inited: bool)

  /** The fixed array sizes, valid stages, and an active stage count that only ever comes from
      the [0, 8] clamp (or its initial 6). */
  predicate Valid(d: Diffusion)
  {
    InputShaped(d.inputCfg) && LateShaped(d.lateCfg) &&
    |d.inL| == MaxInputStages && |d.inR| == MaxInputStages &&
    |d.lateL| == LateStages && |d.lateR| == LateStages &&
    AllValid(d.inL) && AllValid(d.inR) && AllValid(d.lateL) && AllValid(d.lateR) &&
    0 <= d.activeInputStages <= MaxInputStages
  }

  /** A default-constructed `Diffusion`: rate 48000, six active stages, `tvG = 0.72`, stages with
      no buffer, and `inited = false`. */
  function Default(): (d: Diffusion)
    ensures Valid(d) && !d.inited
    ensures d.sr == 48000.0 && d.activeInputStages == 6 && d.tvG == 0.72
  {
    Diffusion(48000.0, DefaultInputConfig(), DefaultLateConfig(),
              seq(MaxInputStages, _ => AP.Default()), seq(MaxInputStages, _ => AP.Default()),
              seq(LateStages, _ => AP.Default()), seq(LateStages, _ => AP.Default()),
              6, 0.72, false)
  }

  /** `setTimeVaryingG` and `getTimeVaryingG`. */
  function SetTimeVaryingG(d: Diffusion, g: real): Diffusion
  {
    d.(tvG := g)
  }

  function GetTimeVaryingG(d: Diffusion): real
  {
    d.tvG
  }

  /** Reading back the coefficient returns what was set, setting it changes nothing else, and
      writing back what was read is a no-op. */
  lemma TimeVaryingGRoundTrip(d: Diffusion, g: real)
    ensures GetTimeVaryingG(SetTimeVaryingG(d, g)) == g
    ensures SetTimeVaryingG(d, g).(tvG := d.tvG) == d
    ensures SetTimeVaryingG(d, GetTimeVaryingG(d)) == d
    ensures Valid(d) ==> Valid(SetTimeVaryingG(d, g))
  {
  }

  // ---------------------------------------------------------------------------------------
  // Stage chains
  // ---------------------------------------------------------------------------------------

  datatype Chain = Chain(stages: seq<AP.Allpass>, out: real)

  /** The loop body shared by both chains: stages `0..k-1` in order each get `g` and process the
      running sample. */
  function RunChain(st: seq<AP.Allpass>, k: int, g: real, x: real): (c: Chain)
    requires 0 <= k <= |st| && AllValid(st)
    ensures |c.stages| == |st| && AllValid(c.stages)
    ensures forall j :: k <= j < |st| ==> c.stages[j] == st[j]
    ensures forall j :: 0 <= j < k ==> c.stages[j].g == g
    ensures forall j :: 0 <= j < |st| ==>
              c.stages[j].delaySamp == st[j].delaySamp && |c.stages[j].buf| == |st[j].buf|
    decreases k
  {
    if k == 0 then Chain(st, x)
    else
      var c := RunChain(st, k - 1, g, x);
      var s := AP.Process(c.stages[k - 1].(g := g), c.out);
      Chain(c.stages[k - 1 := s.state], s.out)
  }

  /** The source's loop over the stages computes the chain. */
  method ChainLoop(st: seq<AP.Allpass>, k: int, g: real, x: real) returns (stages: seq<AP.Allpass>, y: real)
    requires 0 <= k <= |st| && AllValid(st)
    ensures Chain(stages, y) == RunChain(st, k, g, x)
  {
    stages, y := st, x;
    var i := 0;
    while i < k
      invariant 0 <= i <= k
      invariant Chain(stages, y) == RunChain(st, i, g, x)
    {
      var s := AP.Process(stages[i].(g := g), y);
      stages, y := stages[i := s.state], s.out;
      i := i + 1;
    }
  }

  predicate AllSilent(st: seq<AP.Allpass>)
  {
    forall i :: 0 <= i < |st| ==> AllZero(st[i].buf)
  }

  /** The first sample through `k` flushed stages, each with room for a tap, is scaled by
      `(-g)^k`: every stage reads back zero, so only its `-g*x` path contributes. */
  lemma {:induction false} ChainFirstSample(st: seq<AP.Allpass>, k: int, g: real, x: real)
    requires 0 <= k <= |st| && AllValid(st) && AllSilent(st)
    requires forall j :: 0 <= j < k ==> |st[j].buf| >= 2
    ensures RunChain(st, k, g, x).out == Sums.Times(Sums.Power(-g, k), x)
  {
    if k > 0 {
      ChainFirstSample(st, k - 1, g, x);
      var c := RunChain(st, k - 1, g, x);
      var ap := c.stages[k - 1].(g := g);
      assert ap.buf == st[k - 1].buf;
      var s := AP.Process(ap, c.out);
      assert s.out == Sums.Times(-g, c.out);
      Sums.TimesAssoc(-g, Sums.Power(-g, k - 1), x);
      assert RunChain(st, k, g, x).out == s.out;
    }
  }

  /** Silence in, silence out: stages whose buffers are all zero, fed 0, output 0 and stay zero. */
  lemma {:induction false} ChainSilent(st: seq<AP.Allpass>, k: int, g: real)
    requires 0 <= k <= |st| && AllValid(st) && AllSilent(st)
    ensures RunChain(st, k, g, 0.0).out == 0.0
    ensures AllSilent(RunChain(st, k, g, 0.0).stages)
  {
    if k > 0 {
      ChainSilent(st, k - 1, g);
      var c := RunChain(st, k - 1, g, 0.0);
      var ap := c.stages[k - 1].(g := g);
      assert ap.buf == st[k - 1].buf;
      var s := AP.Process(ap, 0.0);
      StageSilent(ap);
      assert RunChain(st, k, g, 0.0) == Chain(c.stages[k - 1 := s.state], s.out);
    }
  }

  /** One silent stage fed 0 outputs 0 and writes 0 back. */
  lemma StageSilent(ap: AP.Allpass)
    requires AP.Valid(ap) && AllZero(ap.buf)
    ensures AP.Process(ap, 0.0).out == 0.0 && AllZero(AP.Process(ap, 0.0).state.buf)
  {
    if |ap.buf| >= 2 {
      var n := |ap.buf|;
      var r := AP.ReadIndex(ap.idx, AP.TapDelay(ap.delaySamp, n), n);
      assert AP.Process(ap, 0.0).out == -ap.g * 0.0 + ap.buf[r];
    }
  }

  // ---------------------------------------------------------------------------------------
  // Configuration
  // ---------------------------------------------------------------------------------------

  /** Every stage gets the delay of its time at rate `sr` and the coefficient `g`; buffers and
      cursors are kept. */
  function Configure(st: seq<AP.Allpass>, times: seq<real>, sr: real, g: real): (r: seq<AP.Allpass>)
    requires |times| == |st| && AllValid(st)
    ensures |r| == |st| && AllValid(r)
    ensures forall i :: 0 <= i < |st| ==>
              r[i].buf == st[i].buf && r[i].idx == st[i].idx && r[i].g == g &&
              r[i].delaySamp == MsToSamples(times[i], sr)
  {
    seq(|st|, i requires 0 <= i < |st| => st[i].(delaySamp := MsToSamples(times[i], sr), g := g))
  }

  /** `setInputConfig`: stores the configuration, clamps the stage count, gives every input
      stage its delay and `cfg.g`, and resets `tvG` to `cfg.g`. */
  function SetInputConfig(d: Diffusion, cfg: InputConfig): (e: Diffusion)
    requires Valid(d) && InputShaped(cfg)
    ensures Valid(e) && e.inputCfg == cfg
    ensures e.activeInputStages == ClampInputStages(cfg.stages)
    ensures e.tvG == cfg.g
    ensures forall i :: 0 <= i < MaxInputStages ==>
              e.inL[i].g == cfg.g && e.inR[i].g == cfg.g &&
              e.inL[i].delaySamp == MsToSamples(cfg.timesMsL[i], d.sr) &&
              e.inR[i].delaySamp == MsToSamples(cfg.timesMsR[i], d.sr) &&
              e.inL[i].buf == d.inL[i].buf && e.inR[i].buf == d.inR[i].buf &&
              e.inL[i].idx == d.inL[i].idx && e.inR[i].idx == d.inR[i].idx
    ensures e.(inputCfg := d.inputCfg, activeInputStages := d.activeInputStages, tvG := d.tvG,
               inL := d.inL, inR := d.inR) == d
  {
    d.(inputCfg := cfg, activeInputStages := ClampInputStages(cfg.stages),
       inL := Configure(d.inL, cfg.timesMsL, d.sr, cfg.g),
       inR := Configure(d.inR, cfg.timesMsR, d.sr, cfg.g),
       tvG := cfg.g)
  }

  /** `setLateConfig`: stores the configuration and gives every late stage its delay and
      `maxG`; nothing else changes. */
  function SetLateConfig(d: Diffusion, cfg: LateConfig): (e: Diffusion)
    requires Valid(d) && LateShaped(cfg)
    ensures Valid(e) && e.lateCfg == cfg
    ensures forall i :: 0 <= i < LateStages ==>
              e.lateL[i].g == cfg.maxG && e.lateR[i].g == cfg.maxG &&
              e.lateL[i].delaySamp == MsToSamples(cfg.timesMsL[i], d.sr) &&
              e.lateR[i].delaySamp == MsToSamples(cfg.timesMsR[i], d.sr) &&
              e.lateL[i].buf == d.lateL[i].buf && e.lateR[i].buf == d.lateR[i].buf &&
              e.lateL[i].idx == d.lateL[i].idx && e.lateR[i].idx == d.lateR[i].idx
    ensures e.(lateCfg := d.lateCfg, lateL := d.lateL, lateR := d.lateR) == d
  {
    d.(lateCfg := cfg,
       lateL := Configure(d.lateL, cfg.timesMsL, d.sr, cfg.maxG),
       lateR := Configure(d.lateR, cfg.timesMsR, d.sr, cfg.maxG))
  }

  /** Every stage cleared: buffer zeroed, cursor rewound, capacity, `g` and delay kept. */
  function ClearAll(st: seq<AP.Allpass>): (r: seq<AP.Allpass>)
    ensures |r| == |st| && AllValid(r) && AllSilent(r)
    ensures forall i :: 0 <= i < |st| ==>
              r[i].idx == 0 && |r[i].buf| == |st[i].buf| &&
              r[i].g == st[i].g && r[i].delaySamp == st[i].delaySamp
  {
    seq(|st|, i requires 0 <= i < |st| => AP.ClearStage(st[i]))
  }

  /** `clear()`: flushes every input and late stage; configurations, `tvG`, the stage count and
      the `inited` flag are untouched. */
  function Clear(d: Diffusion): (e: Diffusion)
    requires Valid(d)
    ensures Valid(e)
    ensures AllSilent(e.inL) && AllSilent(e.inR) && AllSilent(e.lateL) && AllSilent(e.lateR)
    ensures forall i :: 0 <= i < MaxInputStages ==>
              e.inL[i].idx == 0 && e.inR[i].idx == 0 &&
              |e.inL[i].buf| == |d.inL[i].buf| && |e.inR[i].buf| == |d.inR[i].buf|
    ensures forall i :: 0 <= i < LateStages ==>
              e.lateL[i].idx == 0 && e.lateR[i].idx == 0 &&
              |e.lateL[i].buf| == |d.lateL[i].buf| && |e.lateR[i].buf| == |d.lateR[i].buf|
    ensures e.(inL := d.inL, inR := d.inR, lateL := d.lateL, lateR := d.lateR) == d
  {
    d.(inL := ClearAll(d.inL), inR := ClearAll(d.inR),
       lateL := ClearAll(d.lateL), lateR := ClearAll(d.lateR))
  }

  /** Clearing twice is clearing once. */
  lemma ClearIdempotent(d: Diffusion)
    requires Valid(d)
    ensures Clear(Clear(d)) == Clear(d)
  {
    var e := Clear(d);
    assert ClearAll(e.inL) == e.inL;
    assert ClearAll(e.inR) == e.inR;
    assert ClearAll(e.lateL) == e.lateL;
    assert ClearAll(e.lateR) == e.lateR;
  }

  // ---------------------------------------------------------------------------------------
  // init: seed-derived delay times
  // ---------------------------------------------------------------------------------------

  /** Input base times (ms). */
  const BaseTimes: seq<real> := [1.2, 2.1, 3.7, 5.9, 8.6, 12.1, 16.4, 20.0]

  /** `seedN = (seed % 1000) / 1000`, in [0, 0.999]. */
  function SeedN(seed: nat): (s: real)
    ensures 0.0 <= s <= 0.999
  {
    ((seed % 1000) as real) / 1000.0
  }

  function OffsetA(seed: nat): real
  {
    0.08 + 0.10 * SeedN(seed)
  }

  function OffsetB(seed: nat): real
  {
    0.11 + 0.12 * (1.0 - SeedN(seed))
  }

  /** `offA` lies in [0.08, 0.18) and `offB` in (0.11, 0.23]; they never coincide, since that
      would need `seed % 1000 == 15000/22`, which is not an integer. */
  lemma OffsetsRange(seed: nat)
    ensures 0.08 <= OffsetA(seed) < 0.18
    ensures 0.11 < OffsetB(seed) <= 0.23
    ensures OffsetA(seed) != OffsetB(seed)
  {
  }

  /** `timesMsL[i] = base[i] + (i odd ? offA : offB)`, and R with the offsets swapped. */
  function InputTimesL(seed: nat): (t: seq<real>)
    ensures |t| == MaxInputStages
  {
    seq(MaxInputStages, i requires 0 <= i < MaxInputStages =>
      BaseTimes[i] + (if i % 2 == 1 then OffsetA(seed) else OffsetB(seed)))
  }

  function InputTimesR(seed: nat): (t: seq<real>)
    ensures |t| == MaxInputStages
  {
    seq(MaxInputStages, i requires 0 <= i < MaxInputStages =>
      BaseTimes[i] + (if i % 2 == 1 then OffsetB(seed) else OffsetA(seed)))
  }

  function LateTimesL(seed: nat): (t: seq<real>)
    ensures |t| == LateStages
  {
    [4.2 + OffsetA(seed), 7.3 + OffsetB(seed), 11.5 + OffsetA(seed)]
  }

  function LateTimesR(seed: nat): (t: seq<real>)
    ensures |t| == LateStages
  {
    [4.8 + OffsetB(seed), 6.9 + OffsetA(seed), 12.1 + OffsetB(seed)]
  }

  /** `init`'s configurations: all times from the seed, 6 stages at `g = 0.72`, and the late
      range [0.45, 0.72]. */
  function SeededInputConfig(seed: nat): (c: InputConfig)
    ensures InputShaped(c) && c.stages == 6 && c.g == 0.72
  {
    InputConfig(6, 0.72, InputTimesL(seed), InputTimesR(seed))
  }

  function SeededLateConfig(seed: nat): (c: LateConfig)
    ensures LateShaped(c) && c.minG == 0.45 && c.maxG == 0.72
  {
    LateConfig(0.45, 0.72, LateTimesL(seed), LateTimesR(seed))
  }

  /** For every seed each input stage and each late stage has different L and R times. */
  lemma SeededTimesDiffer(seed: nat)
    ensures forall i :: 0 <= i < MaxInputStages ==> InputTimesL(seed)[i] != InputTimesR(seed)[i]
    ensures forall i :: 0 <= i < LateStages ==> LateTimesL(seed)[i] != LateTimesR(seed)[i]
  {
    OffsetsRange(seed);
  }

  /** `max(16, int(sr * 0.030))`: the capacity of every stage, at least 16. */
  function MaxDelaySamples(sampleRate: real): (m: int)
    ensures m >= 16
    ensures sampleRate * 0.030 >= 16.0 ==> m == Trunc(sampleRate * 0.030)
  {
    var t := Trunc(sampleRate * 0.030);
    if t < 16 then 16 else t
  }

  function InitAll(st: seq<AP.Allpass>, m: int): (r: seq<AP.Allpass>)
    requires m >= 1
    ensures |r| == |st| && AllValid(r)
    ensures forall i :: 0 <= i < |st| ==> |r[i].buf| == m
  {
    seq(|st|, i requires 0 <= i < |st| => AP.Init(st[i], m))
  }

  /** The state after the allocation loop and the configuration assignments of `init`. */
  function Seeded(d: Diffusion, sampleRate: real, seed: nat): (e: Diffusion)
    requires Valid(d)
    ensures Valid(e) && e.sr == sampleRate && e.tvG == 0.72 && e.inited == d.inited
    ensures e.inputCfg == SeededInputConfig(seed) && e.lateCfg == SeededLateConfig(seed)
    ensures forall i :: 0 <= i < MaxInputStages ==>
              |e.inL[i].buf| == MaxDelaySamples(sampleRate) && |e.inR[i].buf| == MaxDelaySamples(sampleRate)
    ensures forall i :: 0 <= i < LateStages ==>
              |e.lateL[i].buf| == MaxDelaySamples(sampleRate) && |e.lateR[i].buf| == MaxDelaySamples(sampleRate)
  {
    var m := MaxDelaySamples(sampleRate);
    d.(sr := sampleRate,
       inL := InitAll(d.inL, m), inR := InitAll(d.inR, m),
       lateL := InitAll(d.lateL, m), lateR := InitAll(d.lateR, m),
       inputCfg := SeededInputConfig(seed), lateCfg := SeededLateConfig(seed), tvG := 0.72)
  }

  /** `init(sampleRate, seed)`: allocates, applies the seeded configurations, clears and marks
      the block initialised. */
  function Init(d: Diffusion, sampleRate: real, seed: nat): (e: Diffusion)
    requires Valid(d)
    ensures Valid(e) && e.inited && e.sr == sampleRate
    ensures e.activeInputStages == 6 && e.tvG == 0.72
    ensures e.inputCfg == SeededInputConfig(seed) && e.lateCfg == SeededLateConfig(seed)
    ensures AllSilent(e.inL) && AllSilent(e.inR) && AllSilent(e.lateL) && AllSilent(e.lateR)
    ensures forall i :: 0 <= i < MaxInputStages ==>
              |e.inL[i].buf| == MaxDelaySamples(sampleRate) && |e.inR[i].buf| == MaxDelaySamples(sampleRate) &&
              e.inL[i].idx == 0 && e.inR[i].idx == 0 && e.inL[i].g == 0.72 && e.inR[i].g == 0.72 &&
              e.inL[i].delaySamp == MsToSamples(InputTimesL(seed)[i], sampleRate) &&
              e.inR[i].delaySamp == MsToSamples(InputTimesR(seed)[i], sampleRate)
    ensures forall i :: 0 <= i < LateStages ==>
              |e.lateL[i].buf| == MaxDelaySamples(sampleRate) && |e.lateR[i].buf| == MaxDelaySamples(sampleRate) &&
              e.lateL[i].idx == 0 && e.lateR[i].idx == 0 && e.lateL[i].g == 0.72 && e.lateR[i].g == 0.72 &&
              e.lateL[i].delaySamp == MsToSamples(LateTimesL(seed)[i], sampleRate) &&
              e.lateR[i].delaySamp == MsToSamples(LateTimesR(seed)[i], sampleRate)
  {
    var s := Seeded(d, sampleRate, seed);
    var c := SetInputConfig(s, s.inputCfg);
    Clear(SetLateConfig(c, c.lateCfg)).(inited := true)
  }

  /** After `init` at a non-zero rate, every stage pair has different left and right delay
      times `delaySamp`. The whole-sample taps the stages read at are these times truncated,
      so a pair whose times lie within one sample of each other can still share a tap. */
  lemma InitDecorrelates(d: Diffusion, sampleRate: real, seed: nat)
    requires Valid(d) && sampleRate != 0.0
    ensures var e := Init(d, sampleRate, seed);
            (forall i :: 0 <= i < MaxInputStages ==> e.inL[i].delaySamp != e.inR[i].delaySamp) &&
            (forall i :: 0 <= i < LateStages ==> e.lateL[i].delaySamp != e.lateR[i].delaySamp)
  {
    SeededTimesDiffer(seed);
    forall i | 0 <= i < MaxInputStages
      ensures MsToSamples(InputTimesL(seed)[i], sampleRate) != MsToSamples(InputTimesR(seed)[i], sampleRate)
    {
      MsToSamplesInjective(InputTimesL(seed)[i], InputTimesR(seed)[i], sampleRate);
    }
    forall i | 0 <= i < LateStages
      ensures MsToSamples(LateTimesL(seed)[i], sampleRate) != MsToSamples(LateTimesR(seed)[i], sampleRate)
    {
      MsToSamplesInjective(LateTimesL(seed)[i], LateTimesR(seed)[i], sampleRate);
    }
  }

  // ---------------------------------------------------------------------------------------
  // Processing
  // ---------------------------------------------------------------------------------------

  datatype Frame = Frame(d: Diffusion, l: real, r: real)

  /** The input chain's coefficient: `tvG` clamped to [0.30, 0.85]. */
  function InputG(tvG: real): (g: real)
    ensures 0.30 <= g <= 0.85
    ensures 0.30 <= tvG <= 0.85 ==> g == tvG
  {
    Clamp(tvG, 0.30, 0.85)
  }

  /** `processInput`: a no-op before `init` or with no active stage; otherwise both chains run
      their first `activeInputStages` stages at the clamped `tvG`. */
  function ProcessInput(d: Diffusion, l: real, r: real): (f: Frame)
    requires Valid(d)
    ensures Valid(f.d)
    ensures !d.inited || d.activeInputStages <= 0 ==> f == Frame(d, l, r)
    ensures f.d.(inL := d.inL, inR := d.inR) == d
    ensures forall j :: d.activeInputStages <= j < MaxInputStages ==>
              f.d.inL[j] == d.inL[j] && f.d.inR[j] == d.inR[j]
    ensures d.inited ==> forall j :: 0 <= j < d.activeInputStages ==>
              f.d.inL[j].g == InputG(d.tvG) && f.d.inR[j].g == InputG(d.tvG)
    ensures d.inited && d.activeInputStages > 0 ==>
              var g := InputG(d.tvG);
              f.l == RunChain(d.inL, d.activeInputStages, g, l).out &&
              f.r == RunChain(d.inR, d.activeInputStages, g, r).out &&
              f.d.inL == RunChain(d.inL, d.activeInputStages, g, l).stages &&
              f.d.inR == RunChain(d.inR, d.activeInputStages, g, r).stages
  {
    if !d.inited || d.activeInputStages <= 0 then Frame(d, l, r)
    else
      var g := InputG(d.tvG);
      var cl := RunChain(d.inL, d.activeInputStages, g, l);
      var cr := RunChain(d.inR, d.activeInputStages, g, r);
      Frame(d.(inL := cl.stages, inR := cr.stages), cl.out, cr.out)
  }

  /** The late coefficient: `minG + (maxG - minG)*amount`, clamped to [0.25, 0.85]. With the
      range inside [0.25, 0.85] and `amount` in [0, 1] it lies between `minG` and `maxG`. */
  function LateG(cfg: LateConfig, amount: real): (g: real)
    ensures 0.25 <= g <= 0.85
    ensures amount == 0.0 && 0.25 <= cfg.minG <= 0.85 ==> g == cfg.minG
    ensures amount == 1.0 && 0.25 <= cfg.maxG <= 0.85 ==> g == cfg.maxG
    ensures 0.0 <= amount <= 1.0 && 0.25 <= cfg.minG <= 0.85 && 0.25 <= cfg.maxG <= 0.85 ==>
              Between(g, cfg.minG, cfg.maxG)
  {
    var raw := cfg.minG + (cfg.maxG - cfg.minG) * amount;
    ConvexBetween(cfg.maxG, cfg.minG, amount);
    assert raw == amount * cfg.maxG + (1.0 - amount) * cfg.minG;
    Clamp(raw, 0.25, 0.85)
  }

  /** `processLate`: a no-op before `init` or when the clamped amount is at most 0.0001;
      otherwise all three stages per side run at the late coefficient and each output is the
      crossfade of the dry input and the diffused sample. */
  function ProcessLate(d: Diffusion, l: real, r: real, amount: real): (f: Frame)
    requires Valid(d)
    ensures Valid(f.d)
    ensures !d.inited || Clamp01(amount) <= 0.0001 ==> f == Frame(d, l, r)
    ensures f.d.(lateL := d.lateL, lateR := d.lateR) == d
    ensures d.inited && Clamp01(amount) > 0.0001 ==>
              var a := Clamp01(amount);
              var g := LateG(d.lateCfg, a);
              (forall j :: 0 <= j < LateStages ==> f.d.lateL[j].g == g && f.d.lateR[j].g == g) &&
              Between(f.l, l, RunChain(d.lateL, LateStages, g, l).out) &&
              Between(f.r, r, RunChain(d.lateR, LateStages, g, r).out) &&
              f.l == Crossfade(l, RunChain(d.lateL, LateStages, g, l).out, a) &&
              f.r == Crossfade(r, RunChain(d.lateR, LateStages, g, r).out, a) &&
              f.d.lateL == RunChain(d.lateL, LateStages, g, l).stages &&
              f.d.lateR == RunChain(d.lateR, LateStages, g, r).stages
    ensures d.inited && amount >= 1.0 ==>
              var g := LateG(d.lateCfg, 1.0);
              f.l == RunChain(d.lateL, LateStages, g, l).out &&
              f.r == RunChain(d.lateR, LateStages, g, r).out
  {
    if !d.inited then Frame(d, l, r)
    else
      var a := Clamp01(amount);
      if a <= 0.0001 then Frame(d, l, r)
      else
        var g := LateG(d.lateCfg, a);
        var cl := RunChain(d.lateL, LateStages, g, l);
        var cr := RunChain(d.lateR, LateStages, g, r);
        Frame(d.(lateL := cl.stages, lateR := cr.stages), Crossfade(l, cl.out, a), Crossfade(r, cr.out, a))
  }

  /** A fresh block processes nothing until `init`. */
  lemma FreshIsNoOp(l: real, r: real, amount: real)
    ensures ProcessInput(Default(), l, r) == Frame(Default(), l, r)
    ensures ProcessLate(Default(), l, r, amount) == Frame(Default(), l, r)
  {
  }

  /** After `clear()`, a silent input leaves both chains silent and outputs silence. */
  lemma ClearedIsSilent(d: Diffusion, amount: real)
    requires Valid(d)
    ensures ProcessInput(Clear(d), 0.0, 0.0).l == 0.0 && ProcessInput(Clear(d), 0.0, 0.0).r == 0.0
    ensures ProcessLate(Clear(d), 0.0, 0.0, amount).l == 0.0 && ProcessLate(Clear(d), 0.0, 0.0, amount).r == 0.0
  {
    var e := Clear(d);
    SilentInputIsSilent(e);
    SilentLateIsSilent(e, amount);
  }

  lemma SilentInputIsSilent(e: Diffusion)
    requires Valid(e) && AllSilent(e.inL) && AllSilent(e.inR)
    ensures ProcessInput(e, 0.0, 0.0).l == 0.0 && ProcessInput(e, 0.0, 0.0).r == 0.0
  {
    if e.inited && e.activeInputStages > 0 {
      var g := InputG(e.tvG);
      ChainSilent(e.inL, e.activeInputStages, g);
      ChainSilent(e.inR, e.activeInputStages, g);
    }
  }

  lemma SilentLateIsSilent(e: Diffusion, amount: real)
    requires Valid(e) && AllSilent(e.lateL) && AllSilent(e.lateR)
    ensures ProcessLate(e, 0.0, 0.0, amount).l == 0.0 && ProcessLate(e, 0.0, 0.0, amount).r == 0.0
  {
    var a := Clamp01(amount);
    if e.inited && a > 0.0001 {
      var g := LateG(e.lateCfg, a);
      ChainSilent(e.lateL, LateStages, g);
      ChainSilent(e.lateR, LateStages, g);
    }
  }

  /** The first sample after `clear()` through the input chains: each side is scaled by
      `(-g)^N` for the clamped `tvG` and `N` active stages. */
  lemma ClearedInputFirstSample(d: Diffusion, l: real, r: real)
    requires Valid(d) && d.inited
    requires forall j :: 0 <= j < MaxInputStages ==> |d.inL[j].buf| >= 2 && |d.inR[j].buf| >= 2
    ensures var p := Sums.Power(-InputG(d.tvG), d.activeInputStages);
            ProcessInput(Clear(d), l, r).l == Sums.Times(p, l) && ProcessInput(Clear(d), l, r).r == Sums.Times(p, r)
  {
    var e := Clear(d);
    var n := d.activeInputStages;
    var g := InputG(d.tvG);
    assert e.inited && e.activeInputStages == n && e.tvG == d.tvG;
    if n > 0 {
      ChainFirstSample(e.inL, n, g, l);
      ChainFirstSample(e.inR, n, g, r);
    } else {
      assert Sums.Power(-g, n) == 1.0;
    }
  }

  /** The first sample after `clear()` through the late stages: once the clamped amount
      exceeds 0.0001, each side is the crossfade of the dry sample with it scaled by `(-g)^3`
      for the late coefficient. */
  lemma ClearedLateFirstSample(d: Diffusion, l: real, r: real, amount: real)
    requires Valid(d) && d.inited
    requires forall j :: 0 <= j < LateStages ==> |d.lateL[j].buf| >= 2 && |d.lateR[j].buf| >= 2
    ensures var a := Clamp01(amount);
            var p := Sums.Power(-LateG(d.lateCfg, a), LateStages);
            a > 0.0001 ==>
              ProcessLate(Clear(d), l, r, amount).l == Crossfade(l, Sums.Times(p, l), a) &&
              ProcessLate(Clear(d), l, r, amount).r == Crossfade(r, Sums.Times(p, r), a)
  {
    var e := Clear(d);
    var a := Clamp01(amount);
    assert e.inited && e.lateCfg == d.lateCfg;
    if a > 0.0001 {
      ChainFirstSample(e.lateL, LateStages, LateG(d.lateCfg, a), l);
      ChainFirstSample(e.lateR, LateStages, LateG(d.lateCfg, a), r);
    }
  }

  /** The coefficient set by `setTimeVaryingG` is the one the next `processInput` applies,
      after the clamp. */
  lemma TimeVaryingGDrivesInput(d: Diffusion, g: real, l: real, r: real)
    requires Valid(d) && d.inited
    ensures forall j :: 0 <= j < d.activeInputStages ==>
              ProcessInput(SetTimeVaryingG(d, g), l, r).d.inL[j].g == Clamp(g, 0.30, 0.85)
  {
  }
}

=== FILE: dsp.dfy ===
/** Scalar DSP helpers of the canonical primitives header (src/dsp/common/Dsp.h):
    clamps, denormal scrubbing, one-pole filters and the envelope follower.

    Samples are modelled as `real`; IEEE rounding, NaN and infinities are not modelled.
    Transcendental functions (exp, tanh, pow) are passed in as function values. */
module Dsp {

  /** The `kPi` constant of the header. */
  const Pi: real := 3.14159265358979323846

  /** The `1e-20f` threshold below which `killDenorm` flushes to zero. */
  const DenormThreshold: real := 0.00000000000000000001

  function Abs(x: real): (r: real)
    ensures r >= 0.0 && (r == x || r == -x)
  {
    if x < 0.0 then -x else x
  }

  /** `std::min(a, b)`: returns `b` only when `b < a`. */
  function Min(a: real, b: real): (r: real)
    ensures r <= a && r <= b && (r == a || r == b)
  {
    if b < a then b else a
  }

  /** `std::max(a, b)`: returns `b` only when `a < b`. */
  function Max(a: real, b: real): (r: real)
    ensures r >= a && r >= b && (r == a || r == b)
  {
    if a < b then b else a
  }

  /** True when `x` lies in the closed interval spanned by `a` and `b` (in either order). */
  predicate Between(x: real, a: real, b: real)
  {
    (a <= x <= b) || (b <= x <= a)
  }

  /** `clamp(x, lo, hi) = max(lo, min(hi, x))`; also the body of `clampf`. */
  function Clamp(x: real, lo: real, hi: real): (r: real)
    ensures lo <= hi ==> lo <= r <= hi
    ensures lo <= x <= hi ==> r == x
    ensures lo <= hi && x < lo ==> r == lo
    ensures lo <= hi && hi < x ==> r == hi
    ensures hi < lo ==> r == lo
  {
    Max(lo, Min(hi, x))
  }

  /** `clamp01(x) = clampf(x, 0, 1)`. */
  function Clamp01(x: real): (r: real)
    ensures 0.0 <= r <= 1.0
    ensures 0.0 <= x <= 1.0 ==> r == x
    ensures x < 0.0 ==> r == 0.0
    ensures 1.0 < x ==> r == 1.0
  {
    Clamp(x, 0.0, 1.0)
  }

  /** The integer instance of the `clamp` template. */
  function ClampInt(x: int, lo: int, hi: int): (r: int)
    ensures lo <= hi ==> lo <= r <= hi
    ensures lo <= x <= hi ==> r == x
    ensures lo <= hi && x < lo ==> r == lo
    ensures lo <= hi && hi < x ==> r == hi
  {
    if lo < (if hi < x then hi else x) then (if hi < x then hi else x) else lo
  }

  /** Clamping is idempotent: a clamped value is left where it is. */
  lemma ClampIdempotent(x: real, lo: real, hi: real)
    requires lo <= hi
    ensures Clamp(Clamp(x, lo, hi), lo, hi) == Clamp(x, lo, hi)
  {
  }

  /** C's `int(x)` cast of a float: truncation toward zero. */
  function Trunc(x: real): (r: int)
    ensures 0.0 <= x ==> r as real <= x < r as real + 1.0
    ensures x < 0.0 ==> r as real - 1.0 < x <= r as real
  {
    if x >= 0.0 then x.Floor else -((-x).Floor)
  }

  /** `killDenorm`: magnitudes below 1e-20 are flushed to 0, everything else is kept. */
  function KillDenorm(x: real): (r: real)
    ensures Abs(x) < DenormThreshold ==> r == 0.0
    ensures Abs(x) >= DenormThreshold ==> r == x
  {
    if Abs(x) < DenormThreshold then 0.0 else x
  }

  lemma KillDenormIdempotent(x: real)
    ensures KillDenorm(KillDenorm(x)) == KillDenorm(x)
  {
  }

  /** A one-pole filter: state `z` and pole coefficient `a` (OnePoleLP and OnePoleHP share it). */
  datatype OnePole = OnePole(z: real, a: real)

  /** Output of a stateful per-sample step: the new state and the sample it returns. */
  datatype Step<S> = Step(state: S, out: real)

  /** `setCutoff`: `a = exp(-2*pi*hz/sr)` with `hz` clamped to [5, 0.49*sr]; the state is kept.
      Because the clamped cutoff is positive, any `exp` that maps negative arguments into
      (0,1) yields a pole strictly inside (0,1). */
  function SetCutoff(p: OnePole, hz: real, sr: real, exp: real -> real): (q: OnePole)
    requires sr > 0.0
    ensures q.z == p.z
    ensures (forall t :: t < 0.0 ==> 0.0 < exp(t) < 1.0) ==> 0.0 < q.a < 1.0
  {
    var h := Clamp(hz, 5.0, 0.49 * sr);
    assert -2.0 * Pi * h / sr < 0.0 by {
      assert 2.0 * Pi * h > 0.0;
    }
    OnePole(p.z, exp(-2.0 * Pi * h / sr))
  }

  /** The one-pole update `a*z + (1-a)*x`, before any denormal flush. With `a` in [0, 1] it
      lies between the old value `z` and the input `x`. */
  function Glide(a: real, z: real, x: real): (y: real)
    ensures 0.0 <= a <= 1.0 ==> Between(y, z, x)
  {
    ConvexBetween(z, x, a);
    a * z + (1.0 - a) * x
  }

  /** `OnePoleLP::process`: the new state is returned as the output. */
  function LowPass(p: OnePole, x: real): (s: Step<OnePole>)
    ensures s.out == s.state.z && s.state.a == p.a
    ensures 0.0 <= p.a <= 1.0 ==> Between(s.out, p.z, x) || s.out == 0.0
  {
    var z := KillDenorm(Glide(p.a, p.z, x));
    Step(OnePole(z, p.a), z)
  }

  /** `OnePoleHP::process`: the input minus the updated low-pass state. */
  function HighPass(p: OnePole, x: real): (s: Step<OnePole>)
    ensures s.state == LowPass(p, x).state
    ensures s.out + s.state.z == x
  {
    var lp := LowPass(p, x);
    Step(lp.state, x - lp.state.z)
  }

  /** A convex combination of `u` and `v` lies between them. */
  lemma ConvexBetween(u: real, v: real, a: real)
    ensures 0.0 <= a <= 1.0 ==> Between(a * u + (1.0 - a) * v, u, v)
  {
    if a < 0.0 || 1.0 < a {
    } else if u <= v {
      MulNonneg(a, v - u);
      MulNonneg(1.0 - a, v - u);
    } else {
      MulNonneg(a, u - v);
      MulNonneg(1.0 - a, u - v);
    }
  }

  /** The crossfade `(1 - a)*dry + a*wet`. */
  function Crossfade(dry: real, wet: real, a: real): (y: real)
    ensures a == 0.0 ==> y == dry
    ensures a == 1.0 ==> y == wet
    ensures dry == wet ==> y == dry
    ensures 0.0 <= a <= 1.0 ==> Between(y, dry, wet)
  {
    ConvexBetween(wet, dry, a);
    assert (1.0 - a) * dry + a * wet == a * wet + (1.0 - a) * dry;
    (1.0 - a) * dry + a * wet
  }

  lemma MulNonneg(x: real, y: real)
    requires x >= 0.0 && y >= 0.0
    ensures x * y >= 0.0
  {
  }

  /** `clear()` of either one-pole filter. */
  function ClearPole(p: OnePole): (q: OnePole)
    ensures q.z == 0.0 && q.a == p.a
  {
    p.(z := 0.0)
  }

  /** EnvelopeFollower state: the envelope and its attack/release coefficients. */
  datatype Envelope = Envelope(env: real, aAtk: real, aRel: real)

  /** `EnvelopeFollower::process`: attack coefficient when the magnitude rises above the
      envelope, release coefficient otherwise; the result is scrubbed of denormals. */
  function Follow(e: Envelope, x: real): (s: Step<Envelope>)
    ensures s.out == s.state.env
    ensures s.state.aAtk == e.aAtk && s.state.aRel == e.aRel
    ensures 0.0 <= e.aAtk <= 1.0 && 0.0 <= e.aRel <= 1.0 ==>
              Between(s.out, e.env, Abs(x)) || s.out == 0.0
    ensures 0.0 <= e.aAtk <= 1.0 && 0.0 <= e.aRel <= 1.0 && e.env >= 0.0 ==> s.out >= 0.0
  {
    var mag := Abs(x);
    var a := if mag > e.env then e.aAtk else e.aRel;
    var env := KillDenorm(Glide(a, e.env, mag));
    Step(e.(env := env), env)
  }

  function ClearEnvelope(e: Envelope): (f: Envelope)
    ensures f.env == 0.0 && f.aAtk == e.aAtk && f.aRel == e.aRel
  {
    e.(env := 0.0)
  }

  /** `curve01`: `pow(x, shape)` with `x` clamped to [0,1] and `shape` to [0.05,10]. Inside
      both ranges it is `pow(x, shape)`; below 0 and above 1 the base is the nearer bound. For
      any `pow` that keeps that box inside [0,1], the curve stays in [0,1]. */
  function Curve01(x: real, shape: real, pow: (real, real) -> real): (r: real)
    ensures (forall b, e :: 0.0 <= b <= 1.0 && 0.05 <= e <= 10.0 ==> 0.0 <= pow(b, e) <= 1.0)
              ==> 0.0 <= r <= 1.0
    ensures exists b, e :: 0.0 <= b <= 1.0 && 0.05 <= e <= 10.0 && r == pow(b, e)
    ensures 0.0 <= x <= 1.0 && 0.05 <= shape <= 10.0 ==> r == pow(x, shape)
    ensures x <= 0.0 ==> r == pow(0.0, Clamp(shape, 0.05, 10.0))
    ensures x >= 1.0 ==> r == pow(1.0, Clamp(shape, 0.05, 10.0))
  {
    var b := Clamp(x, 0.0, 1.0);
    var e := Clamp(shape, 0.05, 10.0);
    pow(b, e)
  }

  /** `softSat`: `tanh(x*(1+d)) / tanh(1+d)` with `d` the drive clamped to [0,10]. The
      normalisation makes full scale a fixed point. `tanh` of the gain (at least 1) is
      positive. */
  function SoftSat(x: real, drive: real, tanh: real -> real): (r: real)
    requires tanh(DriveGain(drive)) > 0.0
    ensures x == 1.0 ==> r == 1.0
    ensures tanh(0.0) == 0.0 && x == 0.0 ==> r == 0.0
  {
    var g := DriveGain(drive);
    tanh(x * g) / tanh(g)
  }

  /** `1 + drive` with the drive clamped to [0, 10]. */
  function DriveGain(drive: real): (g: real)
    ensures 1.0 <= g <= 11.0
  {
    1.0 + Clamp(drive, 0.0, 10.0)
  }

  /** For a `tanh` odd at the scaled input the saturator is odd: `softSat(-x) == -softSat(x)`. */
  lemma SoftSatOdd(x: real, drive: real, tanh: real -> real)
    requires tanh(DriveGain(drive)) > 0.0
    requires tanh(-(x * DriveGain(drive))) == -tanh(x * DriveGain(drive))
    ensures SoftSat(-x, drive, tanh) == -SoftSat(x, drive, tanh)
  {
    assert tanh(-x * DriveGain(drive)) == -tanh(x * DriveGain(drive)) by {
      assert -x * DriveGain(drive) == -(x * DriveGain(drive));
    }
    NegDiv(tanh(x * DriveGain(drive)), tanh(DriveGain(drive)));
  }

  /** `(-a) / b == -(a / b)`. */
  lemma NegDiv(a: real, b: real)
    requires b != 0.0
    ensures (-a) / b == -(a / b)
  {
  }
}

=== FILE: dsp_unguarded.dfy ===
/** The engine-local copy of the primitives header (src/dsp/engines/common/Dsp.h). The
    differences from the canonical header that this module models, each next to a lemma or
    contract relating it to the canonical model:
    - `Allpass::process` and `DelayLine::push`/`readFracCubic` have no size guard; they rely on
      `init` having allocated at least 1 (allpass) or 4 (delay) slots;
    - `MultiLFO::init` and `SmoothNoise::setSampleRate` store the sample rate unchecked;
    - `OnePoleLP`, `OnePoleHP`, `EnvelopeFollower` and `SmoothNoise` do not flush denormals.
    The copy also drops the flush in the biquad and the stereo spinner, stores the rate
    unchecked in `SmoothValue`, `EnvelopeFollower` and `StereoSpinner`, has no `clamp`
    template and no `clamp01`, and writes `M_PI` and a pointer cast where the canonical header
    has `kPi` and `memcpy`; these are not modelled. `clampf` and `curve01`
    are textually the same as `Dsp.Clamp` and `Dsp.Curve01`. */
module DspUnguarded {
  import opened Dsp
  import Delay
  import AllpassStage
  import MultiLfo
  import Noise

  /** `OnePoleLP::process` of the engine copy: the same update without the denormal flush.
      The canonical filter's output is this one scrubbed, and with `a` in [0, 1] the output
      lies between the old state and the input with no exception for a flushed value. */
  function LowPass(p: OnePole, x: real): (s: Step<OnePole>)
    ensures s.state == p.(z := s.out)
    ensures Dsp.LowPass(p, x).out == KillDenorm(s.out)
    ensures 0.0 <= p.a <= 1.0 ==> Between(s.out, p.z, x)
  {
    var z := Glide(p.a, p.z, x);
    Step(p.(z := z), z)
  }

  /** `OnePoleHP::process` of the engine copy: the input minus the unscrubbed low-pass state.
      It differs from the canonical output by less than the flush threshold. */
  function HighPass(p: OnePole, x: real): (s: Step<OnePole>)
    ensures s.state == LowPass(p, x).state
    ensures s.out + s.state.z == x
    ensures Abs(s.out - Dsp.HighPass(p, x).out) < DenormThreshold
  {
    var lp := LowPass(p, x);
    Step(lp.state, x - lp.state.z)
  }

  /** `EnvelopeFollower::process` of the engine copy: attack or release glide towards the
      magnitude without the flush. The canonical envelope is this one scrubbed. */
  function Follow(e: Envelope, x: real): (s: Step<Envelope>)
    ensures s.out == s.state.env && s.state == e.(env := s.out)
    ensures Dsp.Follow(e, x).out == KillDenorm(s.out)
    ensures 0.0 <= e.aAtk <= 1.0 && 0.0 <= e.aRel <= 1.0 ==> Between(s.out, e.env, Abs(x))
    ensures 0.0 <= e.aAtk <= 1.0 && 0.0 <= e.aRel <= 1.0 && e.env >= 0.0 ==> s.out >= 0.0
  {
    var mag := Abs(x);
    var a := if mag > e.env then e.aAtk else e.aRel;
    var env := Glide(a, e.env, mag);
    Step(e.(env := env), env)
  }

  /** `Allpass::process` without the `size < 2` pass-through. Every stage that went through
      `init` has at least one slot, and then every access stays inside the buffer. */
  function AllpassProcess(ap: AllpassStage.Allpass, x: real): (s: Step<AllpassStage.Allpass>)
    requires AllpassStage.Valid(ap) && |ap.buf| >= 1
    ensures AllpassStage.Valid(s.state) && |s.state.buf| == |ap.buf|
    ensures s == AllpassStage.Tick(ap, x)
  {
    AllpassStage.Tick(ap, x)
  }

  /** From two slots on, the unguarded stage is the canonical one. With a single slot the
      inverted clamp `clampf(delay, 1, 0)` gives `d = 1`, so the stage reads and rewrites slot 0
      where the canonical one passes the input through. */
  lemma AllpassAgrees(ap: AllpassStage.Allpass, x: real)
    requires AllpassStage.Valid(ap) && |ap.buf| >= 1
    ensures |ap.buf| >= 2 ==> AllpassProcess(ap, x) == AllpassStage.Process(ap, x)
    ensures |ap.buf| == 1 ==>
              AllpassProcess(ap, x).out == -ap.g * x + ap.buf[0] &&
              AllpassProcess(ap, x).state.buf ==
                [AllpassStage.Feedback(ap.g, x, AllpassProcess(ap, x).out)] &&
              AllpassProcess(ap, x).state.idx == 0
  {
    if |ap.buf| == 1 {
      assert AllpassStage.TapDelay(ap.delaySamp, 1) == 1;
      assert AllpassStage.ReadIndex(ap.idx, 1, 1) == 0;
    }
  }

  /** `DelayLine::push` without the empty-buffer guard; `init` always allocates 4 slots. */
  function Push(d: Delay.DelayLine, x: real): (e: Delay.DelayLine)
    requires Delay.Valid(d) && |d.buf| >= 1
    ensures Delay.Valid(e) && |e.buf| == |d.buf|
    ensures e.buf == d.buf[d.w := x] && e.w == (d.w + 1) % |d.buf|
    ensures e == Delay.Push(d, x)
  {
    Delay.DelayLine(d.buf[d.w := x], Delay.NextCursor(d.w, |d.buf|))
  }

  /** `readFracCubic` without the `size < 4` guard. For every line that went through `init`
      it is the canonical read, so the delay clamp, the index ranges and the round trip of
      `Delay` carry over. */
  function ReadFracCubic(d: Delay.DelayLine, delay: real): (y: real)
    requires Delay.Valid(d) && |d.buf| >= 4
    ensures y == Delay.ReadFracCubic(d, delay)
  {
    var t := Delay.ReadTaps(d, delay);
    Delay.Hermite(d.buf[t.i0], d.buf[t.i1], d.buf[t.i2], d.buf[t.i3], t.f)
  }

  /** Successive unguarded pushes, oldest sample first. On an allocated line they are the
      canonical pushes. */
  function PushAll(d: Delay.DelayLine, xs: seq<real>): (e: Delay.DelayLine)
    requires Delay.Valid(d) && |d.buf| >= 1
    ensures Delay.Valid(e) && |e.buf| == |d.buf|
    ensures e == Delay.PushAll(d, xs)
  {
    if |xs| == 0 then d else Push(PushAll(d, xs[..|xs| - 1]), xs[|xs| - 1])
  }

  /** The push/read round trip of the unguarded copy, through its own `push` and read: a
      sample pushed and followed by any `k - 1` further samples, `k` in [1, size-4], is read
      back exactly at delay `k`. */
  lemma PushReadRoundTrip(d: Delay.DelayLine, x: real, ys: seq<real>)
    requires Delay.Valid(d) && |d.buf| >= 4 && |ys| + 1 <= |d.buf| - 4
    ensures ReadFracCubic(PushAll(Push(d, x), ys), (|ys| + 1) as real) == x
  {
    Delay.PushReadRoundTrip(d, x, ys);
  }

  /** `MultiLFO::init` of the engine copy: the sample rate is stored as given. */
  function LfoInit(n: int, sampleRate: real): (m: MultiLfo.MultiLFO)
    ensures m.sr == sampleRate && m.count >= 1
    ensures sampleRate > 1.0 ==> m == MultiLfo.Init(n, sampleRate)
    ensures sampleRate <= 1.0 ==> m.sr != MultiLfo.Init(n, sampleRate).sr
  {
    MultiLfo.InitWithRate(n, sampleRate)
  }

  /** `SmoothNoise::setSampleRate` of the engine copy stores the rate unchecked, while the
      canonical one replaces a rate of at most 1 by 48000. */
  function SetSampleRate(n: Noise.SmoothNoise, sampleRate: real): (m: Noise.SmoothNoise)
    ensures m.sr == sampleRate && m == n.(sr := sampleRate)
    ensures sampleRate > 1.0 ==> m == Noise.SetSampleRate(n, sampleRate)
  {
    n.(sr := sampleRate)
  }

  /** `SmoothNoise::process` of the engine copy: the same reload and smoothing, with no
      denormal flush before the output clamp. */
  function NoiseProcess(n: Noise.SmoothNoise): (s: Step<Noise.SmoothNoise>)
    requires Noise.Valid(n)
    ensures Noise.Valid(s.state)
    ensures -1.0 <= s.out <= 1.0
    ensures s.state == Noise.Process(n).state.(y := s.state.y)
    ensures Noise.Process(n).state.y == KillDenorm(s.state.y)
  {
    var m := Noise.Advance(n);
    var y := Noise.Smooth(m.a, m.y, m.target);
    Step(m.(y := y), Clamp(y, -1.0, 1.0))
  }

  /** The two copies produce the same sample unless the smoothed value is below the denormal
      threshold, and even then they differ by less than 1e-20. */
  lemma NoiseAgrees(n: Noise.SmoothNoise)
    requires Noise.Valid(n)
    ensures Abs(NoiseProcess(n).state.y) >= DenormThreshold ==>
              NoiseProcess(n).out == Noise.Process(n).out
    ensures Abs(NoiseProcess(n).out - Noise.Process(n).out) < DenormThreshold
  {
  }
}

=== FILE: engine.dfy ===
/** The tuned-hall reverb engine (src/dsp/engines/tune_hall/ReverbEngine.cpp): the parameter
    block, `prepare`/`reset`/`setParams`, the mode-preset mapping onto the tank and the
    diffusion, and the per-block signal path of pre-delay, input diffusion, tank, output taps,
    late diffusion, loudness compensation, ducking and the dry/wet mix. The early reflections
    and the output stage are passed in as block transforms. */
module Engine {
  import opened Dsp
  import opened Modes
  import MP = ModePresets
  import Delay
  import Diff = Diffusion
  import AllpassStage
  import Tank
  import MultiLfo
  import Matrices
  import TP = TapPatterns

  // ---------------------------------------------------------------------------------------
  // Constants and scalar helpers
  // ---------------------------------------------------------------------------------------

  /** The seeds `prepare` hands to the diffusion and to the tank. */
  const DiffusionSeed: nat := 0xB16B_00B5
  const TankSeed: int := 0xC0_FFEE

  /** The decay a full freeze holds, and the ceiling of the unfrozen decay. */
  const FrozenDecay: real := 0.9993
  const MaxDecay: real := 0.9995

  /** The pre-delay ceiling in milliseconds. */
  const MaxPredelayMs: real := 200.0

  /** How much of the early reflections is fed into the tank. */
  const ErFeed: real := 0.65

  /** Every `> 0.0001f` switch of the parameter block. */
  predicate On(flag: real)
  {
    flag > 0.0001
  }

  /** `computeEffectiveDecay(decay, freeze01)`: the clamped decay crossfaded towards the
      frozen decay by the clamped freeze amount. */
  function EffectiveDecay(decay: real, freeze01: real): (r: real)
    ensures 0.0 <= r <= MaxDecay
    ensures freeze01 <= 0.0 ==> r == Clamp(decay, 0.0, MaxDecay)
    ensures freeze01 >= 1.0 ==> r == FrozenDecay
    ensures Between(r, Clamp(decay, 0.0, MaxDecay), FrozenDecay)
  {
    var f := Clamp01(freeze01);
    var d := Clamp(decay, 0.0, MaxDecay);
    Crossfade(d, FrozenDecay, f)
  }

  /** `computeLoudnessCompDb(decay01)` with the strength and ceiling of the parameter block:
      `-maxDb * strength * decay01`, each factor clamped first. */
  function LoudnessCompDb(decay01: real, strength: real, maxDb: real): (db: real)
    ensures -24.0 <= db <= 0.0
    ensures decay01 <= 0.0 || strength <= 0.0 || maxDb <= 0.0 ==> db == 0.0
    ensures decay01 >= 1.0 && strength >= 1.0 ==> db == -Clamp(maxDb, 0.0, 24.0)
  {
    var d := Clamp01(decay01);
    var s := Clamp01(strength);
    var m := Clamp(maxDb, 0.0, 24.0);
    LoudnessBound(m, s, d);
    -m * s * d
  }

  lemma LoudnessBound(m: real, s: real, d: real)
    requires 0.0 <= m <= 24.0 && 0.0 <= s <= 1.0 && 0.0 <= d <= 1.0
    ensures 0.0 <= m * s <= m && 0.0 <= m * s * d <= m * s
  {
    MulNonneg(m, s);
    MulNonneg(m, 1.0 - s);
    MulNonneg(m * s, d);
    MulNonneg(m * s, 1.0 - d);
  }

  /** A longer decay is compensated at least as much: the attenuation never shrinks as
      `decay01` grows. */
  lemma LoudnessMonotone(a: real, b: real, strength: real, maxDb: real)
    requires a <= b
    ensures LoudnessCompDb(b, strength, maxDb) <= LoudnessCompDb(a, strength, maxDb)
  {
    var m := Clamp(maxDb, 0.0, 24.0);
    var s := Clamp01(strength);
    var da, db := Clamp01(a), Clamp01(b);
    assert da <= db;
    LoudnessBound(m, s, da);
    MulNonneg(m * s, db - da);
    assert m * s * db - m * s * da == m * s * (db - da);
  }

  /** The ducking gain for envelope `env`: 1 at or below the threshold, otherwise
      `(1 - over) + over*depth` with `over = clamp((env - th)/max(1e-6, 1 - th), 0, 1)`. */
  function DuckGain(env: real, threshLin: real, depthLin: real): (g: real)
    ensures env <= threshLin ==> g == 1.0
    ensures Between(g, depthLin, 1.0)
    ensures depthLin == 1.0 ==> g == 1.0
    ensures env >= 1.0 && threshLin <= 1.0 - 0.000001 ==> g == depthLin
  {
    if env > threshLin then
      var over := Clamp01((env - threshLin) / Max(0.000001, 1.0 - threshLin));
      OverSaturates(env, threshLin);
      var g := (1.0 - over) + over * depthLin;
      assert g == Crossfade(1.0, depthLin, over);
      g
    else 1.0
  }

  lemma OverSaturates(env: real, threshLin: real)
    requires env > threshLin
    ensures env >= 1.0 && threshLin <= 1.0 - 0.000001 ==>
              (env - threshLin) / Max(0.000001, 1.0 - threshLin) >= 1.0
  {
  }

  /** `(1 - mix)*dry + mix*wet` with `mix` clamped to `[0, 1]`. */
  function MixSample(dry: real, wet: real, mix: real): (y: real)
    ensures mix <= 0.0 ==> y == dry
    ensures mix >= 1.0 ==> y == wet
    ensures Between(y, dry, wet)
  {
    Crossfade(dry, wet, Clamp01(mix))
  }

  /** The pre-delay in samples: the pre-delay time clamped to `[0, 200]` ms. */
  function PredelaySamples(ms: real, sr: real): (d: real)
    requires sr >= 0.0
    ensures 0.0 <= d <= 0.2 * sr
    ensures 0.0 <= ms <= MaxPredelayMs ==> d == Diff.MsToSamples(ms, sr)
  {
    var c := Clamp(ms, 0.0, MaxPredelayMs);
    MulNonneg(c * 0.001, sr);
    MulNonneg((MaxPredelayMs - c) * 0.001, sr);
    Diff.MsToSamples(c, sr)
  }

  // ---------------------------------------------------------------------------------------
  // Parameters and state
  // ---------------------------------------------------------------------------------------

  /** `ReverbEngine::Params`: the fields the engine reads or writes. */
  datatype Params = Params(
    mode: Mode,
    mix: real, predelayMs: real, decay: real, dampingHz: real, feedbackHpHz: real,
    modDepthMs: real, modRateHz: real,
    modJitterEnable: real, modJitterAmount: real, modJitterRateHz: real, modJitterSmoothMs: real,
    fbXoverLoHz: real, fbXoverHiHz: real,
    decayLowMul: real, decayMidMul: real, decayHighMul: real,
    inputDiffStages: int, inputDiffG: real,
    lateDiffEnable: real, lateDiffAmount: real, lateDiffMinG: real, lateDiffMaxG: real,
    erLevel: real, erSize: real, erDampHz: real, erWidth: real,
    outHpHz: real, outLowShelfHz: real, outLowGainDb: real, outHighShelfHz: real,
    outHighGainDb: real, outWidth: real, outDrive: real, outLevel: real,
    freeze: real,
    duckEnable: real, duckThresholdDb: real, duckDepthDb: real,
    loudCompEnable: real, loudCompStrength: real, loudCompMaxDb: real)

  /** The member initialisers of `Params`: Hall, 35 % wet, 20 ms pre-delay, decay 0.92. */
  function DefaultParams(): (p: Params)
    ensures p.mode == Hall && p.mix == 0.35 && p.predelayMs == 20.0 && p.decay == 0.92
  {
    Params(Hall, 0.35, 20.0, 0.92, 9000.0, 30.0, 6.0, 0.25, 1.0, 0.35, 0.35, 80.0,
           250.0, 3500.0, 1.08, 1.00, 0.90, 6, 0.72, 1.0, 0.60, 0.45, 0.72,
           0.30, 0.55, 9000.0, 1.0, 20.0, 200.0, 0.0, 8000.0, 0.0, 1.10, 0.0, 1.0,
           0.0, 0.0, -28.0, 10.0, 1.0, 0.50, 9.0)
  }

  /** The engine: rate, block size, the `prepared` flag, the target parameters, the active
      recipe, and the blocks it owns. The early reflections and the output stage keep their
      own state outside this model. */
  datatype Engine = Engine(
    sr: real, block: int, prepared: bool,
    target: Params, modeCfg: MP.ModeConfig,
    diffusion: Diff.Diffusion, tank: Tank.Tank,
    preL: Delay.DelayLine, preR: Delay.DelayLine,
    lfos: MultiLfo.MultiLFO,
    duck: Envelope)

  /** Every block is well formed, the diffusion runs at the engine's rate, and the modulation
      bank only has oscillators once `prepare` has run. */
  predicate Valid(e: Engine)
  {
    e.sr > 0.0 && e.block >= 1 &&
    Diff.Valid(e.diffusion) && e.diffusion.sr == e.sr && Tank.Valid(e.tank) &&
    Delay.Valid(e.preL) && Delay.Valid(e.preR) && (e.prepared ==> MultiLfo.Valid(e.lfos))
  }

  /** `ModeConfig{}`: the recipe defaults for `Room` (the zero enumerator) with zeroed
      modulation maps. */
  function EmptyModeConfig(): MP.ModeConfig
  {
    var c := MP.Defaults(Room);
    c.(tank := c.tank.(modDepthMul := Delay.Zeros(MP.MapSize), modRateMul := Delay.Zeros(MP.MapSize)))
  }

  /** A default-constructed engine: 48 kHz, block 64, not prepared. */
  function Default(): (e: Engine)
    ensures Valid(e) && !e.prepared && e.target == DefaultParams()
  {
    Engine(48000.0, 64, false, DefaultParams(), EmptyModeConfig(), Diff.Default(), Tank.Default(),
           Delay.DelayLine([], 0), Delay.DelayLine([], 0), MultiLfo.MultiLFO(0, 48000.0, [], []),
           Envelope(0.0, 0.0, 0.0))
  }

  // ---------------------------------------------------------------------------------------
  // applyModePreset
  // ---------------------------------------------------------------------------------------

  /** The general-purpose and the Hall delay sets, in milliseconds. */
  const BaseMsDefault: seq<real> :=
    [29.7, 37.1, 41.1, 43.7, 53.9, 59.5, 61.7, 71.3, 79.9, 89.7, 97.3, 101.9, 107.9, 115.1, 123.7, 131.9]
  const BaseMsHall: seq<real> :=
    [31.7, 37.9, 41.3, 43.1, 53.3, 59.9, 61.1, 71.7, 79.3, 89.1, 97.9, 103.3, 109.7, 117.1, 125.9, 137.3]

  /** Hall has its own delay set; every other mode uses the general one. */
  function BaseSet(m: Mode): (s: seq<real>)
    ensures |s| == Tank.MaxLines
  {
    if m == Hall then BaseMsHall else BaseMsDefault
  }

  /** A strictly increasing sequence. */
  predicate Increasing(s: seq<real>)
  {
    forall i, j :: 0 <= i < j < |s| ==> s[i] < s[j]
  }

  /** Both delay sets rise strictly from line to line, from at least 29.7 ms to at most
      137.3 ms. */
  lemma BaseSetShape(m: Mode)
    ensures Increasing(BaseSet(m))
    ensures forall i :: 0 <= i < Tank.MaxLines ==> 29.7 <= BaseSet(m)[i] <= 137.3
  {
  }

  /** `delaySamp[i] = msToSamples(base[i] * delayScale, sr)`. */
  function PresetDelays(m: Mode, scale: real, sr: real): (d: seq<real>)
    ensures |d| == Tank.MaxLines
  {
    seq(Tank.MaxLines, i requires 0 <= i < Tank.MaxLines => Diff.MsToSamples(BaseSet(m)[i] * scale, sr))
  }

  /** The first tank configuration of `applyModePreset`: line count, matrix, delays and
      modulation maps from the recipe; everything else as it was. */
  function PresetTankConfig(c: Tank.Config, mc: MP.ModeConfig, m: Mode, sr: real): (tc: Tank.Config)
    requires Tank.Shaped(c)
    requires |mc.tank.modDepthMul| == Tank.MaxLines && |mc.tank.modRateMul| == Tank.MaxLines
    ensures Tank.Shaped(tc)
  {
    c.(lines := mc.tank.delayLines,
       matrix := if mc.tank.useHouseholder then Matrices.Householder else Matrices.Hadamard,
       delaySamp := PresetDelays(m, mc.tank.delayScale, sr),
       modDepthMul := mc.tank.modDepthMul, modRateMul := mc.tank.modRateMul)
  }

  /** The target parameters after `applyModePreset`: diffusion, modulation and decay tuning
      and the suggested defaults from the recipe, plus the extra Hall voicing. */
  function PresetTarget(t: Params, mc: MP.ModeConfig, m: Mode): Params
  {
    var u := t.(inputDiffStages := mc.tank.inputDiffStages, inputDiffG := mc.tank.inputDiffG,
                lateDiffMinG := mc.tank.lateDiffMinG, lateDiffMaxG := mc.tank.lateDiffMaxG,
                modDepthMs := mc.tank.modDepthMs, modRateHz := mc.tank.modRateHz,
                decayLowMul := mc.tank.decayLowMul, decayMidMul := mc.tank.decayMidMul,
                decayHighMul := mc.tank.decayHighMul,
                mix := mc.defaultMix, decay := mc.defaultDecay, dampingHz := mc.defaultDamping,
                predelayMs := mc.defaultPreDelay, erLevel := mc.defaultERLevel,
                erSize := mc.defaultERSize);
    if m == Hall then
      u.(fbXoverLoHz := 220.0, fbXoverHiHz := 3800.0, erDampHz := 8500.0, erWidth := 1.20,
         modJitterEnable := 1.0, modJitterAmount := 0.25, modJitterRateHz := 0.30,
         modJitterSmoothMs := 90.0, outHpHz := 22.0, outLowShelfHz := 180.0, outLowGainDb := 1.0,
         outHighShelfHz := 7000.0, outHighGainDb := -1.5, outWidth := 1.15, outDrive := 0.0)
    else u
  }

  /** The tank tuning both `setParams` and `applyModePreset` push: filters, crossovers, band
      decay multipliers, modulation and jitter from the target parameters. */
  function TankTuning(c: Tank.Config, t: Params, sr: real): (tc: Tank.Config)
    ensures Tank.Shaped(c) ==> Tank.Shaped(tc)
  {
    c.(xoverLoHz := t.fbXoverLoHz, xoverHiHz := t.fbXoverHiHz,
       decayLowMul := t.decayLowMul, decayMidMul := t.decayMidMul, decayHighMul := t.decayHighMul,
       modDepthSamples := Diff.MsToSamples(t.modDepthMs, sr), modRateHz := t.modRateHz,
       jitterEnable := t.modJitterEnable, jitterAmount := t.modJitterAmount,
       jitterRateHz := t.modJitterRateHz, jitterSmoothMs := t.modJitterSmoothMs,
       fbHpHz := t.feedbackHpHz, dampHz := t.dampingHz)
  }

  /** The input-diffusion configuration pushed from the target: the stage count and `g`
      change, the stage times already in place are kept. */
  function InputConfigFor(d: Diff.Diffusion, t: Params): (c: Diff.InputConfig)
    requires Diff.Valid(d)
    ensures Diff.InputShaped(c)
    ensures c.timesMsL == d.inputCfg.timesMsL && c.timesMsR == d.inputCfg.timesMsR
  {
    d.inputCfg.(stages := t.inputDiffStages, g := t.inputDiffG)
  }

  /** The late-diffusion configuration pushed from the target, keeping the stage times. */
  function LateConfigFor(d: Diff.Diffusion, t: Params): (c: Diff.LateConfig)
    requires Diff.Valid(d)
    ensures Diff.LateShaped(c)
    ensures c.timesMsL == d.lateCfg.timesMsL && c.timesMsR == d.lateCfg.timesMsR
  {
    d.lateCfg.(minG := t.lateDiffMinG, maxG := t.lateDiffMaxG)
  }

  /** `setInputConfig` then `setLateConfig` with the target's diffusion settings. */
  function PushDiffusion(d: Diff.Diffusion, t: Params): (e: Diff.Diffusion)
    requires Diff.Valid(d)
    ensures Diff.Valid(e)
    ensures e.activeInputStages == Diff.ClampInputStages(t.inputDiffStages) && e.tvG == t.inputDiffG
    ensures e.lateCfg.minG == t.lateDiffMinG && e.lateCfg.maxG == t.lateDiffMaxG
    ensures e.sr == d.sr && e.inited == d.inited
  {
    var d1 := Diff.SetInputConfig(d, InputConfigFor(d, t));
    Diff.SetLateConfig(d1, LateConfigFor(d1, t))
  }

  /** `applyModePreset(m)`. */
  function ApplyModePreset(e: Engine, m: Mode, exp: real -> real): (f: Engine)
    requires Valid(e)
    ensures Valid(f)
    ensures f.sr == e.sr && f.block == e.block && f.prepared == e.prepared
    ensures f.modeCfg == MP.GetModePreset(m)
    ensures f.target == PresetTarget(e.target, MP.GetModePreset(m), m)
    ensures f.preL == e.preL && f.preR == e.preR && f.lfos == e.lfos && f.duck == e.duck
  {
    var mc := MP.GetModePreset(m);
    var t1 := Tank.SetConfig(e.tank, PresetTankConfig(e.tank.cfg, mc, m, e.sr), exp);
    var target := PresetTarget(e.target, mc, m);
    var d := PushDiffusion(e.diffusion, target);
    var t2 := Tank.SetConfig(t1, TankTuning(Tank.GetConfig(t1), target, e.sr), exp);
    e.(modeCfg := mc, target := target, tank := t2, diffusion := d)
  }

  // ---------------------------------------------------------------------------------------
  // setParams, reset, prepare
  // ---------------------------------------------------------------------------------------

  /** The tail of `setParams`: the target's diffusion settings and tank tuning pushed into
      the blocks. */
  function PushTarget(e: Engine, exp: real -> real): (f: Engine)
    requires Valid(e)
    ensures Valid(f)
    ensures f.(diffusion := e.diffusion, tank := e.tank) == e
  {
    e.(diffusion := PushDiffusion(e.diffusion, e.target),
       tank := Tank.SetConfig(e.tank, TankTuning(Tank.GetConfig(e.tank), e.target, e.sr), exp))
  }

  /** `setParams(p)`: stores `p`, reapplies the recipe only when the mode changed, then
      pushes the target into the diffusion and the tank. */
  function SetParams(e: Engine, p: Params, exp: real -> real): (f: Engine)
    requires Valid(e)
    ensures Valid(f)
    ensures f.sr == e.sr && f.block == e.block && f.prepared == e.prepared
    ensures f.target.mode == p.mode
  {
    var e1 := e.(target := p);
    var e2 := if p.mode != e.target.mode then ApplyModePreset(e1, p.mode, exp) else e1;
    PushTarget(e2, exp)
  }

  /** `reset()`: nothing before `prepare`; afterwards every delay line, stage, tank line and
      the ducking envelope are cleared. */
  function Reset(e: Engine): (f: Engine)
    requires Valid(e)
    ensures Valid(f)
    ensures !e.prepared ==> f == e
    ensures f.target == e.target && f.modeCfg == e.modeCfg && f.prepared == e.prepared
    ensures f.tank.cfg == e.tank.cfg && f.sr == e.sr
  {
    if !e.prepared then e
    else
      e.(preL := Delay.Clear(e.preL), preR := Delay.Clear(e.preR),
         diffusion := Diff.Clear(e.diffusion), tank := Tank.Clear(e.tank),
         duck := ClearEnvelope(e.duck))
  }

  /** `max(lo, int(x))`, the buffer sizes `prepare` asks for. */
  function AtLeast(lo: int, x: real): (n: int)
    ensures n >= lo
  {
    var t := Trunc(x);
    if t < lo then lo else t
  }

  /** The allocation half of `prepare`: rate and block size, pre-delay lines of
      `max(16, int(0.2 sr))` samples, the diffusion seeded with `0xB16B00B5`, sixteen LFOs,
      the ducking follower at 8/120 ms, and the tank with `max(64, int(2.5 sr))` samples per
      line seeded with `0xC0FFEE`. */
  function Allocate(e: Engine, sampleRate: real, blockSize: int, exp: real -> real): (f: Engine)
    requires Valid(e) && sampleRate > 0.0
    ensures Valid(f) && MultiLfo.Valid(f.lfos) && f.sr == sampleRate
    ensures f.block == (if blockSize < 1 then 1 else blockSize)
    ensures f.target == e.target && f.prepared == e.prepared
  {
    var sr := sampleRate;
    var preMax := AtLeast(16, sr * 0.20);
    var duckSr := if sr <= 1.0 then 48000.0 else sr;
    e.(sr := sr, block := if blockSize < 1 then 1 else blockSize,
       preL := Delay.Init(preMax), preR := Delay.Init(preMax),
       diffusion := Diff.Init(e.diffusion, sr, DiffusionSeed),
       lfos := MultiLfo.Init(Tank.MaxLines, sr),
       duck := ClearEnvelope(Tank.SetAttackRelease(e.duck, 8.0, 120.0, duckSr, exp)),
       tank := Tank.Init(e.tank, sr, AtLeast(64, sr * 2.5), TankSeed, exp))
  }

  /** `prepare(sampleRate, blockSize)`: allocates and initialises every block, applies the
      current mode's recipe, runs `reset()` and only then sets `prepared`. On the first call
      `prepared` is still false, so the reset is a no-op; on a later call it clears the
      freshly allocated blocks. */
  function Prepare(e: Engine, sampleRate: real, blockSize: int, exp: real -> real): (f: Engine)
    requires Valid(e) && sampleRate > 0.0
    ensures Valid(f) && f.prepared && f.sr == sampleRate
    ensures f.block == (if blockSize < 1 then 1 else blockSize)
    ensures f.modeCfg == MP.GetModePreset(e.target.mode)
  {
    var e1 := Allocate(e, sampleRate, blockSize, exp);
    var e2 := ApplyModePreset(e1, e1.target.mode, exp);
    var e3 := Reset(e2);
    e3.(prepared := true)
  }

  // ---------------------------------------------------------------------------------------
  // Properties of the preset mapping and the lifecycle
  // ---------------------------------------------------------------------------------------

  /** One scaled delay: `msToSamples(base * scale, sr) = base * (scale * sr / 1000)`. */
  lemma ScaledDelay(base: real, scale: real, sr: real)
    ensures Diff.MsToSamples(base * scale, sr) == base * (scale * 0.001 * sr)
  {
  }

  /** Multiplying a strictly increasing sequence by a positive factor keeps it strictly
      increasing. */
  lemma ScaleIncreasing(b: seq<real>, d: seq<real>, k: real)
    requires |d| == |b| && k > 0.0 && Increasing(b)
    requires forall i :: 0 <= i < |b| ==> d[i] == b[i] * k
    ensures Increasing(d)
  {
    forall i, j | 0 <= i < j < |b|
      ensures d[i] < d[j]
    {
      assert d[j] - d[i] == (b[j] - b[i]) * k;
    }
  }

  /** Scaling the delay set by a positive factor at a positive rate keeps it strictly
      increasing and positive; with the largest scale of the recipe table (1.45) every delay
      stays under a fifth of a second. */
  lemma PresetDelaysShape(m: Mode, scale: real, sr: real)
    requires scale > 0.0 && sr > 0.0
    ensures Increasing(PresetDelays(m, scale, sr))
    ensures forall i :: 0 <= i < Tank.MaxLines ==> PresetDelays(m, scale, sr)[i] > 0.0
    ensures scale <= 1.45 ==> forall i :: 0 <= i < Tank.MaxLines ==> PresetDelays(m, scale, sr)[i] < 0.2 * sr
  {
    BaseSetShape(m);
    ScaledSetShape(BaseSet(m), PresetDelays(m, scale, sr), scale, sr);
  }

  /** The same facts for any delay set within the range of the two tables. */
  lemma ScaledSetShape(b: seq<real>, d: seq<real>, scale: real, sr: real)
    requires |d| == |b| && scale > 0.0 && sr > 0.0 && Increasing(b)
    requires forall i :: 0 <= i < |b| ==> 29.7 <= b[i] <= 137.3
    requires forall i :: 0 <= i < |b| ==> d[i] == Diff.MsToSamples(b[i] * scale, sr)
    ensures Increasing(d)
    ensures forall i :: 0 <= i < |d| ==> d[i] > 0.0
    ensures scale <= 1.45 ==> forall i :: 0 <= i < |d| ==> d[i] < 0.2 * sr
  {
    var k := scale * 0.001 * sr;
    MulNonneg(scale * 0.001, sr);
    forall i | 0 <= i < |b|
      ensures d[i] == b[i] * k
      ensures d[i] > 0.0
      ensures scale <= 1.45 ==> d[i] < 0.2 * sr
    {
      DelayBound(b[i], d[i], scale, sr);
    }
    ScaleIncreasing(b, d, k);
  }

  /** A base delay of 29.7 to 137.3 ms scaled by at most 1.45 lands strictly between 0 and
      200 ms. */
  lemma DelayBound(base: real, delay: real, scale: real, sr: real)
    requires 29.7 <= base <= 137.3 && scale > 0.0 && sr > 0.0
    requires delay == Diff.MsToSamples(base * scale, sr)
    ensures delay == base * (scale * 0.001 * sr)
    ensures delay > 0.0
    ensures scale <= 1.45 ==> delay < 0.2 * sr
  {
    ScaledDelay(base, scale, sr);
    var k := scale * 0.001 * sr;
    MulNonneg(scale * 0.001, sr);
    assert k > 0.0;
    assert base * k > 0.0;
    if scale <= 1.45 {
      MulNonneg(137.3 - base, scale);
      MulNonneg(1.45 - scale, base);
      assert base * scale <= 137.3 * 1.45;
      assert 0.2 * sr - base * k == (200.0 - base * scale) * (0.001 * sr);
    }
  }

  /** After `applyModePreset(m)` the tank runs 16 lines through the recipe's matrix
      (Hadamard exactly for Plate), at the recipe's scaled delay set, with its modulation
      maps and depth; the input diffusion runs the recipe's stage count and `g`. */
  lemma PresetReachesBlocks(e: Engine, m: Mode, exp: real -> real)
    requires Valid(e)
    ensures var f := ApplyModePreset(e, m, exp);
            var mc := MP.GetModePreset(m);
            && f.tank.cfg.lines == 16
            && (f.tank.cfg.matrix == Matrices.Hadamard <==> m == Plate)
            && f.tank.cfg.delaySamp == PresetDelays(m, mc.tank.delayScale, e.sr)
            && f.tank.cfg.modDepthMul == mc.tank.modDepthMul && f.tank.cfg.modRateMul == mc.tank.modRateMul
            && f.tank.cfg.modDepthSamples == Diff.MsToSamples(mc.tank.modDepthMs, e.sr)
            && f.tank.cfg.decayLowMul == mc.tank.decayLowMul && f.tank.cfg.decayHighMul == mc.tank.decayHighMul
            && f.diffusion.activeInputStages == mc.tank.inputDiffStages
            && f.diffusion.tvG == mc.tank.inputDiffG
  {
  }

  /** Only Hall gets the extra voicing (crossovers at 220/3800 Hz, jitter at 0.25, the
      output-stage shelves); every other mode leaves those parameters as they were. */
  lemma HallVoicing(e: Engine, m: Mode, exp: real -> real)
    requires Valid(e)
    ensures var t := ApplyModePreset(e, m, exp).target;
            m == Hall ==> t.fbXoverLoHz == 220.0 && t.fbXoverHiHz == 3800.0
                          && t.modJitterEnable == 1.0 && t.modJitterAmount == 0.25
                          && t.outLowGainDb == 1.0 && t.outHighGainDb == -1.5 && t.outDrive == 0.0
    ensures var t := ApplyModePreset(e, m, exp).target;
            m != Hall ==> t.fbXoverLoHz == e.target.fbXoverLoHz && t.fbXoverHiHz == e.target.fbXoverHiHz
                          && t.modJitterEnable == e.target.modJitterEnable
                          && t.modJitterAmount == e.target.modJitterAmount
                          && t.erDampHz == e.target.erDampHz && t.erWidth == e.target.erWidth
                          && t.outLowGainDb == e.target.outLowGainDb
                          && t.outHighGainDb == e.target.outHighGainDb && t.outDrive == e.target.outDrive
  {
  }

  /** `setParams` with an unchanged mode stores `p` as given and keeps the recipe. */
  lemma SetParamsSameMode(e: Engine, p: Params, exp: real -> real)
    requires Valid(e) && p.mode == e.target.mode
    ensures SetParams(e, p, exp).target == p
    ensures SetParams(e, p, exp).modeCfg == e.modeCfg
  {
  }

  /** A mode change installs the new recipe, and its suggestions override what `p` asked
      for: mix, decay, damping and pre-delay come from the recipe. */
  lemma SetParamsModeChange(e: Engine, p: Params, exp: real -> real)
    requires Valid(e) && p.mode != e.target.mode
    ensures var f := SetParams(e, p, exp);
            var mc := MP.GetModePreset(p.mode);
            && f.modeCfg == mc
            && f.target == PresetTarget(p, mc, p.mode)
            && f.target.mix == mc.defaultMix && f.target.decay == mc.defaultDecay
            && f.target.dampingHz == mc.defaultDamping && f.target.predelayMs == mc.defaultPreDelay
  {
  }

  /** Sending the same parameters twice keeps exactly the caller's values: the recipe's
      suggestions survive only until the next `setParams`. */
  lemma SetParamsTwice(e: Engine, p: Params, exp: real -> real)
    requires Valid(e)
    ensures SetParams(SetParams(e, p, exp), p, exp).target == p
  {
    SetParamsSameMode(SetParams(e, p, exp), p, exp);
  }

  /** The recipe's own delay scale (0.78 to 1.45) keeps every line's delay positive, strictly
      increasing from line to line, and under the 200 ms pre-delay ceiling. */
  lemma ModeDelays(m: Mode, sr: real)
    requires sr > 0.0
    ensures var d := PresetDelays(m, MP.GetModePreset(m).tank.delayScale, sr);
            Increasing(d) && forall i :: 0 <= i < Tank.MaxLines ==> 0.0 < d[i] < 0.2 * sr
  {
    MP.PresetVoicing(m);
    PresetDelaysShape(m, MP.GetModePreset(m).tank.delayScale, sr);
  }

  // ---------------------------------------------------------------------------------------
  // Stereo decorrelation of the diffusion
  // ---------------------------------------------------------------------------------------

  /** The stored configurations give every stage pair different L and R times. */
  predicate TimesDiffer(d: Diff.Diffusion)
    requires Diff.Valid(d)
  {
    (forall i :: 0 <= i < Diff.MaxInputStages ==> d.inputCfg.timesMsL[i] != d.inputCfg.timesMsR[i]) &&
    (forall i :: 0 <= i < Diff.LateStages ==> d.lateCfg.timesMsL[i] != d.lateCfg.timesMsR[i])
  }

  /** Every stage pair has different L and R delay times `delaySamp` (before the truncation
      to a whole-sample tap, which may map both times to the same tap). */
  predicate Decorrelated(d: Diff.Diffusion)
    requires Diff.Valid(d)
  {
    (forall i :: 0 <= i < Diff.MaxInputStages ==> d.inL[i].delaySamp != d.inR[i].delaySamp) &&
    (forall i :: 0 <= i < Diff.LateStages ==> d.lateL[i].delaySamp != d.lateR[i].delaySamp)
  }

  /** Pushing the target keeps the stored times, so at a non-zero rate the stages come out
      with different L and R delay times whenever the stored times differ. */
  lemma PushDiffusionDecorrelates(d: Diff.Diffusion, t: Params)
    requires Diff.Valid(d) && d.sr != 0.0 && TimesDiffer(d)
    ensures TimesDiffer(PushDiffusion(d, t)) && Decorrelated(PushDiffusion(d, t))
  {
    var d1 := Diff.SetInputConfig(d, InputConfigFor(d, t));
    var e := Diff.SetLateConfig(d1, LateConfigFor(d1, t));
    forall i | 0 <= i < Diff.MaxInputStages
      ensures e.inL[i].delaySamp != e.inR[i].delaySamp
    {
      Diff.MsToSamplesInjective(d.inputCfg.timesMsL[i], d.inputCfg.timesMsR[i], d.sr);
    }
    forall i | 0 <= i < Diff.LateStages
      ensures e.lateL[i].delaySamp != e.lateR[i].delaySamp
    {
      Diff.MsToSamplesInjective(d.lateCfg.timesMsL[i], d.lateCfg.timesMsR[i], d.sr);
    }
  }

  /** Clearing the stages keeps their delays and configurations. */
  lemma ClearKeepsDecorrelation(d: Diff.Diffusion)
    requires Diff.Valid(d) && TimesDiffer(d) && Decorrelated(d)
    ensures TimesDiffer(Diff.Clear(d)) && Decorrelated(Diff.Clear(d))
  {
  }

  /** After `prepare` every diffusion stage pair has different L and R delay times: the seeded
      times survive the recipe push and the reset. */
  lemma PrepareDecorrelates(e: Engine, sampleRate: real, blockSize: int, exp: real -> real)
    requires Valid(e) && sampleRate > 0.0
    ensures TimesDiffer(Prepare(e, sampleRate, blockSize, exp).diffusion)
    ensures Decorrelated(Prepare(e, sampleRate, blockSize, exp).diffusion)
  {
    var e1 := Allocate(e, sampleRate, blockSize, exp);
    assert e1.diffusion == Diff.Init(e.diffusion, sampleRate, DiffusionSeed);
    Diff.SeededTimesDiffer(DiffusionSeed);
    assert TimesDiffer(e1.diffusion);
    var e2 := ApplyModePreset(e1, e1.target.mode, exp);
    assert e2.diffusion == PushDiffusion(e1.diffusion, e2.target);
    PushDiffusionDecorrelates(e1.diffusion, e2.target);
    ClearKeepsDecorrelation(e2.diffusion);
  }

  /** Different delay times need not give different taps: after `init` at 44.1 kHz with the
      engine's seed, input stage 0 has times of about 59.0 and 59.8 samples on the two sides,
      and both read 59 samples back. */
  lemma SharedTapAt44k(d: Diff.Diffusion)
    requires Diff.Valid(d)
    ensures var e := Diff.Init(d, 44100.0, DiffusionSeed);
            e.inL[0].delaySamp != e.inR[0].delaySamp &&
            AllpassStage.TapDelay(e.inL[0].delaySamp, |e.inL[0].buf|) == 59 &&
            AllpassStage.TapDelay(e.inR[0].delaySamp, |e.inR[0].buf|) == 59
  {
    var e := Diff.Init(d, 44100.0, DiffusionSeed);
    assert Diff.SeedN(DiffusionSeed) == 0.765;
    assert Trunc(44100.0 * 0.030) == 1323;
    assert |e.inL[0].buf| == 1323 && |e.inR[0].buf| == 1323;
    assert Diff.InputTimesL(DiffusionSeed)[0] == 1.2 + 0.1382;
    assert Diff.InputTimesR(DiffusionSeed)[0] == 1.2 + 0.1565;
    assert e.inL[0].delaySamp == 59.01462 by {
      assert Diff.MsToSamples(1.3382, 44100.0) == 59.01462;
    }
    assert e.inR[0].delaySamp == 59.82165 by {
      assert Diff.MsToSamples(1.3565, 44100.0) == 59.82165;
    }
    assert Trunc(59.01462) == 59 && Trunc(59.82165) == 59;
  }

  /** Every later `setParams` keeps the different L and R times. */
  lemma SetParamsKeepsDecorrelation(e: Engine, p: Params, exp: real -> real)
    requires Valid(e) && TimesDiffer(e.diffusion)
    ensures TimesDiffer(SetParams(e, p, exp).diffusion) && Decorrelated(SetParams(e, p, exp).diffusion)
  {
    var e1 := e.(target := p);
    var e2 := if p.mode != e.target.mode then ApplyModePreset(e1, p.mode, exp) else e1;
    if p.mode != e.target.mode {
      PushDiffusionDecorrelates(e1.diffusion, e2.target);
    }
    PushDiffusionDecorrelates(e2.diffusion, e2.target);
  }

  // ---------------------------------------------------------------------------------------
  // reset
  // ---------------------------------------------------------------------------------------

  /** `reset()` twice is `reset()` once. */
  lemma ResetIdempotent(e: Engine)
    requires Valid(e)
    ensures Reset(Reset(e)) == Reset(e)
  {
    if e.prepared {
      var f := Reset(e);
      Diff.ClearIdempotent(e.diffusion);
      assert Delay.Clear(f.preL) == f.preL;
      assert Delay.Clear(f.preR) == f.preR;
      TankClearIdempotent(e.tank);
    }
  }

  lemma TankClearIdempotent(t: Tank.Tank)
    requires Tank.Valid(t)
    ensures Tank.Clear(Tank.Clear(t)) == Tank.Clear(t)
  {
    var u := Tank.Clear(t);
    forall i | 0 <= i < Tank.MaxLines
      ensures Tank.ClearLine(u.line[i]) == u.line[i]
    {
      assert Delay.Clear(u.line[i].delay) == u.line[i].delay;
    }
    assert Tank.Clear(u).line == u.line;
  }

  /** After `reset()` on a prepared engine the pre-delay lines hold silence, a silent input
      leaves both diffusion chains silent, the tank reads silence on every active line, and
      the ducking envelope is at 0. */
  lemma ResetSilences(e: Engine, inj: real, baseDecay: real, yOut: seq<real>,
                      sin: real -> real, exp: real -> real, tanh: real -> real, rsqrt: real -> real, amount: real)
    requires Valid(e) && e.prepared && |yOut| == Tank.MaxLines
    requires tanh(DriveGain(e.tank.cfg.drive)) > 0.0
    ensures var f := Reset(e);
            && Delay.AllZero(f.preL.buf) && Delay.AllZero(f.preR.buf) && f.duck.env == 0.0
            && Diff.ProcessInput(f.diffusion, 0.0, 0.0).l == 0.0 && Diff.ProcessInput(f.diffusion, 0.0, 0.0).r == 0.0
            && Diff.ProcessLate(f.diffusion, 0.0, 0.0, amount).l == 0.0
            && Diff.ProcessLate(f.diffusion, 0.0, 0.0, amount).r == 0.0
            && forall i :: 0 <= i < e.tank.cfg.lines ==>
                 Tank.ProcessSample(f.tank, inj, baseDecay, f.lfos, yOut, sin, exp, tanh, rsqrt).yOut[i] == 0.0
  {
    Diff.ClearedIsSilent(e.diffusion, amount);
    Tank.ClearedTankReadsSilence(e.tank, inj, baseDecay, e.lfos, yOut, sin, exp, tanh, rsqrt);
  }
}

=== FILE: engine_as_written.dfy ===
/** Two steps of `ReverbEngine` as the source writes them.

    The diffusion push of `ReverbEngine::setParams` and `ReverbEngine::applyModePreset` as the
    source writes it: both build value-initialised `InputConfig` and `LateConfig` structs and
    fill in only the stage count and the coefficients, so every stage time pushed is 0 ms.
    The rest of the model uses the corrected push, `Engine.PushDiffusion`, which keeps the
    seeded times.

    The pre-delay read of `ReverbEngine::processBlock`: each sample is pushed and the line
    is then read at `preSamp`, so a pre-delay of 0 samples reads the slot the next push
    will overwrite, the oldest sample in the line. The rest of the model reads at
    `EngineBlock.PredelayTap`, never below one sample. */
module EngineAsWritten {
  import Delay
  import AP = AllpassStage
  import Diff = Diffusion
  import Engine
  import EngineBlock
  import MP = ModePresets
  import Modes

  /** `InputConfig inCfg = {}` with `stages` and `g` from the target: all eight times 0. */
  function InputConfigOf(t: Engine.Params): (c: Diff.InputConfig)
    ensures Diff.InputShaped(c)
  {
    Diff.InputConfig(t.inputDiffStages, t.inputDiffG, Delay.Zeros(Diff.MaxInputStages), Delay.Zeros(Diff.MaxInputStages))
  }

  /** `LateConfig lateCfg = {}` with `minG` and `maxG` from the target: all three times 0. */
  function LateConfigOf(t: Engine.Params): (c: Diff.LateConfig)
    ensures Diff.LateShaped(c)
  {
    Diff.LateConfig(t.lateDiffMinG, t.lateDiffMaxG, Delay.Zeros(Diff.LateStages), Delay.Zeros(Diff.LateStages))
  }

  /** `setInputConfig(inCfg)` then `setLateConfig(lateCfg)` with the zero-time structs. */
  function PushDiffusion(d: Diff.Diffusion, t: Engine.Params): (e: Diff.Diffusion)
    requires Diff.Valid(d)
    ensures Diff.Valid(e)
  {
    Diff.SetLateConfig(Diff.SetInputConfig(d, InputConfigOf(t)), LateConfigOf(t))
  }

  /** Whatever the state before, the push sets every stage delay to 0 samples, so every
      stage's tap is clamped to one sample: L and R read the same delay everywhere. */
  lemma PushCollapsesDelays(d: Diff.Diffusion, t: Engine.Params)
    requires Diff.Valid(d)
    ensures var e := PushDiffusion(d, t);
            (forall i :: 0 <= i < Diff.MaxInputStages ==>
               e.inL[i].delaySamp == 0.0 && e.inR[i].delaySamp == 0.0 &&
               (|e.inL[i].buf| >= 1 ==> AP.TapDelay(e.inL[i].delaySamp, |e.inL[i].buf|) == 1) &&
               (|e.inR[i].buf| >= 1 ==> AP.TapDelay(e.inR[i].delaySamp, |e.inR[i].buf|) == 1)) &&
            (forall i :: 0 <= i < Diff.LateStages ==>
               e.lateL[i].delaySamp == 0.0 && e.lateR[i].delaySamp == 0.0)
  {
  }

  /** Counterexample to the decorrelation the seeded times are meant to give: after `init`
      at any positive rate, the push as written leaves the left and right input chains
      identical, stage for stage, so a mono input leaves the input diffusion as the same
      sample on both sides. The corrected push keeps every stage pair's L and R delay times
      different. */
  lemma InitThenPushIsMono(d: Diff.Diffusion, sampleRate: real, t: Engine.Params, x: real)
    requires Diff.Valid(d) && sampleRate > 0.0
    ensures var e := PushDiffusion(Diff.Init(d, sampleRate, Engine.DiffusionSeed), t);
            e.inL == e.inR && e.lateL == e.lateR && !Engine.Decorrelated(e) &&
            Diff.ProcessInput(e, x, x).l == Diff.ProcessInput(e, x, x).r
    ensures Engine.Decorrelated(Engine.PushDiffusion(Diff.Init(d, sampleRate, Engine.DiffusionSeed), t))
  {
    var s := Diff.Init(d, sampleRate, Engine.DiffusionSeed);
    var e := PushDiffusion(s, t);
    forall i | 0 <= i < Diff.MaxInputStages
      ensures e.inL[i] == e.inR[i]
    {
      assert e.inL[i].buf == e.inR[i].buf;
    }
    forall i | 0 <= i < Diff.LateStages
      ensures e.lateL[i] == e.lateR[i]
    {
      assert e.lateL[i].buf == e.lateR[i].buf;
    }
    assert e.inL[0].delaySamp == e.inR[0].delaySamp;
    Diff.SeededTimesDiffer(Engine.DiffusionSeed);
    Engine.PushDiffusionDecorrelates(s, t);
  }

  /** Reading at delay 0 right after a push returns the sample pushed `n - 1` pushes
      earlier, `n` being the line's capacity. */
  lemma ZeroDelayReadsOldest(d: Delay.DelayLine, x: real, ys: seq<real>)
    requires Delay.Valid(d) && |d.buf| >= 4 && |ys| == |d.buf| - 1
    ensures Delay.ReadFracCubic(Delay.PushAll(Delay.Push(d, x), ys), 0.0) == x
  {
    var n := |d.buf|;
    var e := Delay.PushAll(Delay.Push(d, x), ys);
    Delay.PushAllKeeps(d, x, ys);
    var t := Delay.ReadTaps(e, 0.0);
    assert t.i1 == d.w && t.f == 0.0 by {
      assert Delay.ReadPosition(e.w, 0.0, n) == d.w as real;
      assert (d.w as real).Floor == d.w;
    }
    Delay.HermiteInterpolates(e.buf[t.i0], e.buf[t.i1], e.buf[t.i2], e.buf[t.i3]);
  }

  /** With a pre-delay of 0 ms, as written, the pre-delayed signal is the input
      `n - 1` samples back: a full line length (about 200 ms) instead of none. */
  lemma ZeroPredelayWraps(line: Delay.DelayLine, xs: seq<real>, sr: real, k: int)
    requires Delay.Valid(line) && |line.buf| >= 4 && sr >= 0.0
    requires |line.buf| - 1 <= k < |xs|
    ensures EngineBlock.PredelayReads(line, xs, Engine.PredelaySamples(0.0, sr))[k] == xs[k - (|line.buf| - 1)]
  {
    ReadWraps(line, xs, k);
  }

  lemma ReadWraps(line: Delay.DelayLine, xs: seq<real>, k: int)
    requires Delay.Valid(line) && |line.buf| >= 4
    requires |line.buf| - 1 <= k < |xs|
    ensures Delay.ReadFracCubic(Delay.PushAll(line, xs[..k + 1]), 0.0) == xs[k - (|line.buf| - 1)]
  {
    var j := k - (|line.buf| - 1);
    EngineBlock.PushesSplit(line, xs, j, k);
    ZeroDelayReadsOldest(Delay.PushAll(line, xs[..j]), xs[j], xs[j + 1..k + 1]);
  }

  /** Spring's recipe asks for a pre-delay of 0 ms, and a mode change to Spring installs it. */
  lemma SpringAsksForNoPredelay(e: Engine.Engine, p: Engine.Params, exp: real -> real)
    requires Engine.Valid(e) && p.mode == Modes.Spring && e.target.mode != Modes.Spring
    ensures Engine.SetParams(e, p, exp).target.predelayMs == 0.0
  {
    assert MP.GetModePreset(Modes.Spring).defaultPreDelay == 0.0;
    Engine.SetParamsModeChange(e, p, exp);
  }

  /** Reading at delay 0 right after one push returns the slot after the one just written. */
  lemma ZeroDelayReadsNextSlot(d: Delay.DelayLine, x: real)
    requires Delay.Valid(d) && |d.buf| >= 4
    ensures Delay.ReadFracCubic(Delay.Push(d, x), 0.0) == d.buf[(d.w + 1) % |d.buf|]
  {
    var e := Delay.Push(d, x);
    var t := Delay.ReadTaps(e, 0.0);
    assert t.i1 == e.w && t.f == 0.0 by {
      assert Delay.ReadPosition(e.w, 0.0, |d.buf|) == e.w as real;
      assert (e.w as real).Floor == e.w;
    }
    assert e.w != d.w;
    Delay.HermiteInterpolates(e.buf[t.i0], e.buf[t.i1], e.buf[t.i2], e.buf[t.i3]);
  }

  /** Counterexample: an impulse entering a cleared pre-delay line with a pre-delay of 0 ms
      comes out as 0 on its own sample as written, and as itself with the corrected tap. */
  lemma ImpulseIsLost(n: int, sr: real)
    requires n >= 5 && sr >= 0.0
    ensures EngineBlock.PredelayReads(Delay.Init(n), [1.0], Engine.PredelaySamples(0.0, sr))[0] == 0.0
    ensures EngineBlock.PredelayReads(Delay.Init(n), [1.0], EngineBlock.PredelayTap(0.0, sr))[0] == 1.0
  {
    var line := Delay.Init(n);
    assert [1.0][..1] == [1.0];
    assert Delay.PushAll(line, [1.0]) == Delay.Push(line, 1.0) by {
      assert [1.0][..0] == [];
    }
    ZeroDelayReadsNextSlot(line, 1.0);
    EngineBlock.ZeroPredelayPassesThrough(line, [1.0], sr, 0);
  }
}

=== FILE: engine_block.dfy ===
/** `ReverbEngine::processBlock`: pre-delay, early reflections, input diffusion, tank, tap
    pattern, late diffusion, loudness compensation, ducking, output stage and the dry/wet mix,
    for one block of `n` stereo samples. The early reflections and the output stage are
    block transforms given as parameters, as are the transcendental functions. */
module EngineBlock {
  import opened Dsp
  import Delay
  import Diff = Diffusion
  import Tank
  import MultiLfo
  import TP = TapPatterns
  import opened Engine

  datatype Stereo = Stereo(l: real, r: real)

  /** A stereo block: two channels of equal length. */
  datatype Block = Block(l: seq<real>, r: seq<real>)

  /** The library functions the block calls: `std::sin`, `std::exp`, `std::tanh`, the
      reciprocal square root and `dbToLin`. */
  datatype Math = Math(sin: real -> real, exp: real -> real, tanh: real -> real,
                       rsqrt: real -> real, dbToLin: real -> real)

  /** A block transform that hands back two channels as long as the ones it was given. */
  ghost predicate KeepsLength(f: (seq<real>, seq<real>) -> Block)
  {
    forall a: seq<real>, b: seq<real> :: |a| == |b| ==> |f(a, b).l| == |a| && |f(a, b).r| == |a|
  }

  // ---------------------------------------------------------------------------------------
  // Pre-delay
  // ---------------------------------------------------------------------------------------

  /** Sample `k` of the pre-delayed signal: the line after pushing the first `k + 1` input
      samples, read `delay` samples back. */
  function PredelayReads(line: Delay.DelayLine, xs: seq<real>, delay: real): (ys: seq<real>)
    requires Delay.Valid(line)
    ensures |ys| == |xs|
  {
    seq(|xs|, k requires 0 <= k < |xs| => Delay.ReadFracCubic(Delay.PushAll(line, xs[..k + 1]), delay))
  }

  /** The pre-delay loop: one push and one cubic read per sample. It leaves the line holding
      the whole block and yields the closed form of `PredelayReads`. */
  method Predelay(line: Delay.DelayLine, xs: seq<real>, delay: real) returns (out: Delay.DelayLine, ys: seq<real>)
    requires Delay.Valid(line)
    ensures Delay.Valid(out) && |out.buf| == |line.buf|
    ensures out == Delay.PushAll(line, xs)
    ensures ys == PredelayReads(line, xs, delay)
  {
    out := line;
    ys := [];
    var i := 0;
    while i < |xs|
      invariant 0 <= i <= |xs|
      invariant out == Delay.PushAll(line, xs[..i])
      invariant ys == PredelayReads(line, xs[..i], delay)
    {
      ReadsSnoc(line, xs[..i + 1], delay);
      assert xs[..i + 1][..i] == xs[..i];
      out := Delay.Push(out, xs[i]);
      ys := ys + [Delay.ReadFracCubic(out, delay)];
      i := i + 1;
    }
    assert xs[..|xs|] == xs;
  }

  /** The reads of a prefix of the input are the prefix of the reads: a read never looks ahead. */
  lemma ReadsPrefix(line: Delay.DelayLine, xs: seq<real>, m: int, delay: real)
    requires Delay.Valid(line) && 0 <= m <= |xs|
    ensures PredelayReads(line, xs[..m], delay) == PredelayReads(line, xs, delay)[..m]
  {
    var a := PredelayReads(line, xs, delay);
    var b := PredelayReads(line, xs[..m], delay);
    forall k | 0 <= k < m
      ensures b[k] == a[k]
    {
      assert xs[..m][..k + 1] == xs[..k + 1];
    }
  }

  /** One more input sample appends one more read: the read after all the pushes. */
  lemma ReadsSnoc(line: Delay.DelayLine, xs: seq<real>, delay: real)
    requires Delay.Valid(line) && |xs| > 0
    ensures PredelayReads(line, xs, delay)
            == PredelayReads(line, xs[..|xs| - 1], delay) + [Delay.ReadFracCubic(Delay.PushAll(line, xs), delay)]
  {
    ReadsPrefix(line, xs, |xs| - 1, delay);
    ReadsLast(line, xs, delay);
    SnocSplit(PredelayReads(line, xs, delay));
  }

  /** The last read is the read after all the pushes. */
  lemma ReadsLast(line: Delay.DelayLine, xs: seq<real>, delay: real)
    requires Delay.Valid(line) && |xs| > 0
    ensures PredelayReads(line, xs, delay)[|xs| - 1] == Delay.ReadFracCubic(Delay.PushAll(line, xs), delay)
  {
    assert xs[..|xs|] == xs;
  }

  lemma SnocSplit(a: seq<real>)
    requires |a| > 0
    ensures a == a[..|a| - 1] + [a[|a| - 1]]
  {
  }

  /** Pushing `a` then `b` is pushing `a + b`. */
  lemma {:induction false} PushAllAppend(d: Delay.DelayLine, a: seq<real>, b: seq<real>)
    requires Delay.Valid(d)
    ensures Delay.PushAll(d, a + b) == Delay.PushAll(Delay.PushAll(d, a), b)
    decreases |b|
  {
    if |b| == 0 {
      assert a + b == a;
    } else {
      PushAllAppend(d, a, b[..|b| - 1]);
      assert (a + b)[..|a + b| - 1] == a + b[..|b| - 1];
      assert (a + b)[|a + b| - 1] == b[|b| - 1];
    }
  }

  /** The pushes up to sample `k` split at an earlier sample `j`: everything before it, then
      `xs[j]`, then the samples after it. */
  lemma PushesSplit(line: Delay.DelayLine, xs: seq<real>, j: int, k: int)
    requires Delay.Valid(line) && 0 <= j <= k < |xs|
    ensures Delay.PushAll(line, xs[..k + 1])
            == Delay.PushAll(Delay.Push(Delay.PushAll(line, xs[..j]), xs[j]), xs[j + 1..k + 1])
  {
    var ys := xs[j + 1..k + 1];
    assert xs[..k + 1] == xs[..j] + ([xs[j]] + ys);
    PushAllAppend(line, xs[..j], [xs[j]] + ys);
    var p := Delay.PushAll(line, xs[..j]);
    PushAllAppend(p, [xs[j]], ys);
    assert Delay.PushAll(p, [xs[j]]) == Delay.Push(p, xs[j]) by {
      assert [xs[j]][..0] == [];
    }
  }

  /** Reading the pre-delay line at the whole delay `lag + 1` yields the input `lag`
      samples back: the newest sample sits at delay 1. */
  lemma PredelayLag(line: Delay.DelayLine, xs: seq<real>, lag: nat, k: int)
    requires Delay.Valid(line) && lag + 5 <= |line.buf|
    requires lag <= k < |xs|
    ensures PredelayReads(line, xs, (lag + 1) as real)[k] == xs[k - lag]
  {
    ReadLag(line, xs, lag, k);
  }

  lemma ReadLag(line: Delay.DelayLine, xs: seq<real>, lag: nat, k: int)
    requires Delay.Valid(line) && lag + 5 <= |line.buf|
    requires lag <= k < |xs|
    ensures Delay.ReadFracCubic(Delay.PushAll(line, xs[..k + 1]), (lag + 1) as real) == xs[k - lag]
  {
    var j := k - lag;
    var d := Delay.PushAll(line, xs[..j]);
    var ys := xs[j + 1..k + 1];
    PushesSplit(line, xs, j, k);
    ReadAfterPushes(d, xs[j], ys, Delay.PushAll(line, xs[..k + 1]), (lag + 1) as real);
  }

  /** `PushReadRoundTrip` stated for a line and a delay given by name. */
  lemma ReadAfterPushes(d: Delay.DelayLine, x: real, ys: seq<real>, e: Delay.DelayLine, delay: real)
    requires Delay.Valid(d) && |ys| + 5 <= |d.buf|
    requires e == Delay.PushAll(Delay.Push(d, x), ys) && delay == (|ys| + 1) as real
    ensures Delay.ReadFracCubic(e, delay) == x
  {
    Delay.PushReadRoundTrip(d, x, ys);
  }

  /** The delay the pre-delay lines are read at: the pre-delay in samples, but never below
      one sample, the position of the sample just pushed. Reading at less than one sample
      would reach round to the oldest sample in the line. */
  function PredelayTap(ms: real, sr: real): (d: real)
    requires sr >= 0.0
    ensures 1.0 <= d && (d == 1.0 || d == PredelaySamples(ms, sr))
    ensures PredelaySamples(ms, sr) >= 1.0 ==> d == PredelaySamples(ms, sr)
  {
    Max(1.0, PredelaySamples(ms, sr))
  }

  /** With a pre-delay of 0 ms the pre-delayed signal is the input itself. */
  lemma ZeroPredelayPassesThrough(line: Delay.DelayLine, xs: seq<real>, sr: real, k: int)
    requires Delay.Valid(line) && |line.buf| >= 5 && sr >= 0.0 && 0 <= k < |xs|
    ensures PredelayReads(line, xs, PredelayTap(0.0, sr))[k] == xs[k]
  {
    PredelayLag(line, xs, 0, k);
  }

  // ---------------------------------------------------------------------------------------
  // Per-sample tail
  // ---------------------------------------------------------------------------------------

  /** The per-block levels: the effective decay, the loudness-compensation gain and the
      ducking threshold and depth as linear gains. */
  datatype Levels = Levels(effDecay: real, loudGain: real, duckThresh: real, duckDepth: real)

  function LevelsOf(t: Params, dbToLin: real -> real): (lv: Levels)
    ensures 0.0 <= lv.effDecay <= MaxDecay
    ensures !On(t.loudCompEnable) ==> lv.loudGain == dbToLin(0.0)
  {
    var loudDb := if On(t.loudCompEnable) then LoudnessCompDb(t.decay, t.loudCompStrength, t.loudCompMaxDb) else 0.0;
    Levels(EffectiveDecay(t.decay, t.freeze), dbToLin(loudDb),
           dbToLin(Clamp(t.duckThresholdDb, -80.0, 0.0)), dbToLin(-Clamp(t.duckDepthDb, 0.0, 36.0)))
  }

  /** What one sample of the tail loop reads: the pre-delayed input, the early reflections
      and the dry input. */
  datatype Sample = Sample(pre: Stereo, er: Stereo, dry: Stereo)

  /** The engine's state inside the tail loop, with the tank's output vector `yVec`, which
      lives for one block. */
  predicate Ready(e: Engine, yVec: seq<real>, m: Math)
  {
    Valid(e) && e.prepared && |yVec| == Tank.MaxLines && m.tanh(DriveGain(e.tank.cfg.drive)) > 0.0
  }

  datatype TailOut = TailOut(e: Engine, yVec: seq<real>, wet: Stereo, duckGain: real)

  /** The ducking step: with ducking on, the follower tracks the mean magnitude of the dry
      input and yields the gain for its envelope; with it off, the gain is 1 and the follower
      is left alone. */
  function Duck(env: Envelope, dry: Stereo, t: Params, lv: Levels): (s: Step<Envelope>)
    ensures !On(t.duckEnable) ==> s == Step(env, 1.0)
    ensures Between(s.out, lv.duckDepth, 1.0)
  {
    if On(t.duckEnable) then
      var f := Follow(env, 0.5 * (Abs(dry.l) + Abs(dry.r)));
      Step(f.state, DuckGain(f.out, lv.duckThresh, lv.duckDepth))
    else Step(env, 1.0)
  }

  /** One pass of the tail loop: inject the pre-delayed input plus 0.65 of the reflections,
      run the input diffusion at the target's `g`, feed the mono sum to the tank, render the
      tap pattern, optionally run the late diffusion, add the reflections back, and apply the
      loudness and ducking gains. Only the diffusion, tank, LFO bank and follower change. */
  function TailSample(e: Engine, yVec: seq<real>, s: Sample, lv: Levels, m: Math): (o: TailOut)
    requires Ready(e, yVec, m)
    ensures Ready(o.e, o.yVec, m)
    ensures o.e.(diffusion := e.diffusion, tank := e.tank, lfos := e.lfos, duck := e.duck) == e
    ensures o.e.tank.cfg == e.tank.cfg
    ensures !On(e.target.duckEnable) ==> o.e.duck == e.duck && o.duckGain == 1.0
    ensures Between(o.duckGain, lv.duckDepth, 1.0)
    ensures !On(e.target.lateDiffEnable) ==>
              o.e.diffusion.lateL == e.diffusion.lateL && o.e.diffusion.lateR == e.diffusion.lateR
  {
    var t := e.target;
    var injL := s.pre.l + s.er.l * ErFeed;
    var injR := s.pre.r + s.er.r * ErFeed;
    var d0 := Diff.SetTimeVaryingG(e.diffusion, t.inputDiffG);
    Diff.TimeVaryingGRoundTrip(e.diffusion, t.inputDiffG);
    var fi := Diff.ProcessInput(d0, injL, injR);
    var injMono := 0.5 * (fi.l + fi.r);
    var o := Tank.ProcessSample(e.tank, injMono, lv.effDecay, e.lfos, yVec, m.sin, m.exp, m.tanh, m.rsqrt);
    var tail := TP.Render(o.yOut, o.tank.cfg.lines, e.modeCfg.tank.tapPattern);
    var fl := if On(t.lateDiffEnable) then Diff.ProcessLate(fi.d, tail.l, tail.r, Clamp01(t.lateDiffAmount))
              else Diff.Frame(fi.d, tail.l, tail.r);
    var dk := Duck(e.duck, s.dry, t, lv);
    var wet := Stereo((fl.l + s.er.l) * lv.loudGain * dk.out, (fl.r + s.er.r) * lv.loudGain * dk.out);
    TailOut(e.(diffusion := fl.d, tank := o.tank, lfos := o.bank, duck := dk.state), o.yOut, wet, dk.out)
  }

  datatype Run = Run(e: Engine, yVec: seq<real>, wetL: seq<real>, wetR: seq<real>)

  /** The tail loop over a block, as a reference definition: sample by sample from the
      first, each pass seeing the state the previous one left. */
  function TailRun(e: Engine, yVec: seq<real>, xs: seq<Sample>, lv: Levels, m: Math): (r: Run)
    requires Ready(e, yVec, m)
    ensures Ready(r.e, r.yVec, m)
    ensures |r.wetL| == |xs| && |r.wetR| == |xs|
    ensures r.e.(diffusion := e.diffusion, tank := e.tank, lfos := e.lfos, duck := e.duck) == e
    ensures r.e.tank.cfg == e.tank.cfg
    ensures !On(e.target.duckEnable) ==> r.e.duck == e.duck
    ensures !On(e.target.lateDiffEnable) ==>
              r.e.diffusion.lateL == e.diffusion.lateL && r.e.diffusion.lateR == e.diffusion.lateR
    decreases |xs|
  {
    if |xs| == 0 then Run(e, yVec, [], [])
    else
      Advance(TailRun(e, yVec, xs[..|xs| - 1], lv, m), xs[|xs| - 1], lv, m)
  }

  /** One pass appended to a run. */
  function Advance(r: Run, x: Sample, lv: Levels, m: Math): (q: Run)
    requires Ready(r.e, r.yVec, m)
    ensures Ready(q.e, q.yVec, m)
    ensures |q.wetL| == |r.wetL| + 1 && |q.wetR| == |r.wetR| + 1
    ensures q.e.(diffusion := r.e.diffusion, tank := r.e.tank, lfos := r.e.lfos, duck := r.e.duck) == r.e
    ensures q.e.tank.cfg == r.e.tank.cfg
    ensures !On(r.e.target.duckEnable) ==> q.e.duck == r.e.duck
    ensures !On(r.e.target.lateDiffEnable) ==>
              q.e.diffusion.lateL == r.e.diffusion.lateL && q.e.diffusion.lateR == r.e.diffusion.lateR
  {
    var o := TailSample(r.e, r.yVec, x, lv, m);
    Run(o.e, o.yVec, r.wetL + [o.wet.l], r.wetR + [o.wet.r])
  }

  // ---------------------------------------------------------------------------------------
  // processBlock
  // ---------------------------------------------------------------------------------------

  /** The per-sample inputs of the tail loop. */
  function Samples(pre: Block, er: Block, inL: seq<real>, inR: seq<real>): (xs: seq<Sample>)
    requires |pre.l| == |pre.r| == |er.l| == |er.r| == |inL| == |inR|
    ensures |xs| == |inL|
  {
    seq(|inL|, i requires 0 <= i < |inL| =>
      Sample(Stereo(pre.l[i], pre.r[i]), Stereo(er.l[i], er.r[i]), Stereo(inL[i], inR[i])))
  }

  /** The wet block that reaches the mix: the pre-delayed input through the reflections, the
      tail loop and the output stage. */
  function Wet(e: Engine, inL: seq<real>, inR: seq<real>, er: (seq<real>, seq<real>) -> Block,
               outStage: (seq<real>, seq<real>) -> Block, m: Math): (w: Block)
    requires Ready(e, Delay.Zeros(Tank.MaxLines), m) && |inL| == |inR|
    requires KeepsLength(er) && KeepsLength(outStage)
    ensures |w.l| == |inL| && |w.r| == |inL|
  {
    var delay := PredelayTap(e.target.predelayMs, e.sr);
    var pre := Block(PredelayReads(e.preL, inL, delay), PredelayReads(e.preR, inR, delay));
    var erb := er(pre.l, pre.r);
    var run := TailRun(e, Delay.Zeros(Tank.MaxLines), Samples(pre, erb, inL, inR),
                       LevelsOf(e.target, m.dbToLin), m);
    outStage(run.wetL, run.wetR)
  }

  /** The tail loop: it reaches the state and the wet samples of the reference `TailRun`. */
  method Tail(e: Engine, xs: seq<Sample>, lv: Levels, m: Math) returns (r: Run)
    requires Ready(e, Delay.Zeros(Tank.MaxLines), m)
    ensures r == TailRun(e, Delay.Zeros(Tank.MaxLines), xs, lv, m)
  {
    r := Run(e, Delay.Zeros(Tank.MaxLines), [], []);
    var i := 0;
    while i < |xs|
      invariant 0 <= i <= |xs|
      invariant r == TailRun(e, Delay.Zeros(Tank.MaxLines), xs[..i], lv, m)
    {
      TailRunSnoc(e, Delay.Zeros(Tank.MaxLines), xs, i, lv, m);
      r := Advance(r, xs[i], lv, m);
      i := i + 1;
    }
    assert xs[..|xs|] == xs;
  }

  /** One more sample of the block is one more pass. */
  lemma TailRunSnoc(e: Engine, yVec: seq<real>, xs: seq<Sample>, i: int, lv: Levels, m: Math)
    requires Ready(e, yVec, m) && 0 <= i < |xs|
    ensures TailRun(e, yVec, xs[..i + 1], lv, m) == Advance(TailRun(e, yVec, xs[..i], lv, m), xs[i], lv, m)
  {
    assert xs[..i + 1][..i] == xs[..i];
  }

  /** The mix loop for one channel: each output sample is the clamped crossfade of its dry
      input and its wet sample; at mix 0 the output is the input, at mix 1 the wet block. */
  method Mix(dry: seq<real>, wet: seq<real>, mix: real) returns (out: seq<real>)
    requires |wet| == |dry|
    ensures |out| == |dry|
    ensures forall k :: 0 <= k < |dry| ==> out[k] == MixSample(dry[k], wet[k], mix)
    ensures mix <= 0.0 ==> out == dry
    ensures mix >= 1.0 ==> out == wet
  {
    out := [];
    var i := 0;
    while i < |dry|
      invariant 0 <= i <= |dry| && |out| == i
      invariant forall k :: 0 <= k < i ==> out[k] == MixSample(dry[k], wet[k], mix)
    {
      out := out + [MixSample(dry[i], wet[i], mix)];
      i := i + 1;
    }
  }

  /** `processBlock(inL, inR, outL, outR, n)`. Before `prepare` nothing happens: the state and
      the output buffers are left as they were. Afterwards the block size grows to `n` if
      needed, the pre-delay lines hold the block, and every output sample is the clamped mix
      of its dry input and the wet block; at mix 0 the output is the input, at mix 1 the wet
      block. */
  method ProcessBlock(e: Engine, inL: seq<real>, inR: seq<real>, outL: seq<real>, outR: seq<real>,
                      er: (seq<real>, seq<real>) -> Block, outStage: (seq<real>, seq<real>) -> Block, m: Math)
    returns (f: Engine, oL: seq<real>, oR: seq<real>)
    requires Valid(e) && |inL| == |inR|
    requires m.tanh(DriveGain(e.tank.cfg.drive)) > 0.0
    requires KeepsLength(er) && KeepsLength(outStage)
    ensures Valid(f)
    ensures !e.prepared ==> f == e && oL == outL && oR == outR
    ensures e.prepared ==> f.prepared && f.sr == e.sr && f.target == e.target && f.modeCfg == e.modeCfg
    ensures e.prepared ==> f.block == (if |inL| > e.block then |inL| else e.block)
    ensures e.prepared ==> f.preL == Delay.PushAll(e.preL, inL) && f.preR == Delay.PushAll(e.preR, inR)
    ensures e.prepared ==> f.tank.cfg == e.tank.cfg
    ensures e.prepared ==> |oL| == |inL| && |oR| == |inL|
    ensures e.prepared ==>
              var w := Wet(e, inL, inR, er, outStage, m);
              forall i :: 0 <= i < |inL| ==>
                oL[i] == MixSample(inL[i], w.l[i], e.target.mix) &&
                oR[i] == MixSample(inR[i], w.r[i], e.target.mix)
    ensures e.prepared && e.target.mix <= 0.0 ==> oL == inL && oR == inR
    ensures e.prepared && e.target.mix >= 1.0 ==>
              oL == Wet(e, inL, inR, er, outStage, m).l && oR == Wet(e, inL, inR, er, outStage, m).r
  {
    if !e.prepared {
      return e, outL, outR;
    }
    var run, preL, preR, w := WetPath(e, inL, inR, er, outStage, m);
    oL := Mix(inL, w.l, e.target.mix);
    oR := Mix(inR, w.r, e.target.mix);
    f := run.e.(block := if |inL| > e.block then |inL| else e.block, preL := preL, preR := preR);
  }

  /** The wet path of `processBlock`: the pre-delay loops, the reflections, the tail loop
      and the output stage. */
  method WetPath(e: Engine, inL: seq<real>, inR: seq<real>, er: (seq<real>, seq<real>) -> Block,
                 outStage: (seq<real>, seq<real>) -> Block, m: Math)
    returns (run: Run, preL: Delay.DelayLine, preR: Delay.DelayLine, w: Block)
    requires Ready(e, Delay.Zeros(Tank.MaxLines), m) && |inL| == |inR|
    requires KeepsLength(er) && KeepsLength(outStage)
    ensures w == Wet(e, inL, inR, er, outStage, m)
    ensures preL == Delay.PushAll(e.preL, inL) && preR == Delay.PushAll(e.preR, inR)
    ensures Ready(run.e, run.yVec, m)
    ensures run.e.(diffusion := e.diffusion, tank := e.tank, lfos := e.lfos, duck := e.duck) == e
    ensures run.e.tank.cfg == e.tank.cfg
  {
    var delay := PredelayTap(e.target.predelayMs, e.sr);
    var pL, pR;
    preL, pL := Predelay(e.preL, inL, delay);
    preR, pR := Predelay(e.preR, inR, delay);
    var erb := er(pL, pR);
    run := Tail(e, Samples(Block(pL, pR), erb, inL, inR), LevelsOf(e.target, m.dbToLin), m);
    w := outStage(run.wetL, run.wetR);
  }
}

=== FILE: lfo.dfy ===
/** The `MultiLFO` modulation bank of src/dsp/common/Dsp.h: one sine oscillator per line with
    rates spread over [0.85, 1.15] of the base rate and phases spread over the circle. `sin` is
    a parameter of the model. */
module MultiLfo {
  import opened Dsp

  const TwoPi: real := 2.0 * Pi

  datatype MultiLFO = MultiLFO(count: int, sr: real, phase: seq<real>, rateMul: seq<real>)

  predicate Valid(m: MultiLFO)
  {
    m.count >= 1 && |m.phase| == m.count && |m.rateMul| == m.count && m.sr > 0.0
  }

  /** `t = i / (count - 1)` (0 for a single oscillator): the position of line `i` in the bank. */
  function Spread(i: int, count: int): (t: real)
    requires 0 <= i < count
    ensures 0.0 <= t <= 1.0
    ensures i == 0 ==> t == 0.0
    ensures count > 1 && i == count - 1 ==> t == 1.0
  {
    if count == 1 then 0.0 else i as real / (count - 1) as real
  }

  /** Later lines never get a smaller spread. */
  lemma SpreadMonotone(i: int, j: int, count: int)
    requires 0 <= i <= j < count
    ensures Spread(i, count) <= Spread(j, count)
  {
    if count > 1 {
      var c := (count - 1) as real;
      assert j as real / c - i as real / c == (j - i) as real / c;
    }
  }

  /** The rate multiplier `0.85 + 0.30 * t` of one line. */
  function RateMul(i: int, count: int): (r: real)
    requires 0 <= i < count
    ensures 0.85 <= r <= 1.15
  {
    0.85 + 0.30 * Spread(i, count)
  }

  /** The start phase `2*pi*(t + 0.13)` of one line. */
  function StartPhase(i: int, count: int): (p: real)
    requires 0 <= i < count
    ensures 0.0 < p < 2.0 * TwoPi
  {
    TwoPi * (Spread(i, count) + 0.13)
  }

  /** The shared body of `init(n, sr)` once the sample rate is chosen: `max(1, n)` oscillators. */
  function InitWithRate(n: int, sr: real): (m: MultiLFO)
    ensures m.count >= 1 && (n >= 1 ==> m.count == n) && m.sr == sr
    ensures |m.phase| == m.count && |m.rateMul| == m.count
    ensures forall i :: 0 <= i < m.count ==> m.rateMul[i] == RateMul(i, m.count)
    ensures forall i :: 0 <= i < m.count ==> m.phase[i] == StartPhase(i, m.count)
  {
    var count := if n < 1 then 1 else n;
    MultiLFO(count, sr, seq(count, i requires 0 <= i < count => StartPhase(i, count)),
             seq(count, i requires 0 <= i < count => RateMul(i, count)))
  }

  /** `init(n, sampleRate)` of the canonical header: a sample rate of at most 1 becomes 48000. */
  function Init(n: int, sampleRate: real): (m: MultiLFO)
    ensures Valid(m) && InRange(m)
    ensures m.sr == (if sampleRate <= 1.0 then 48000.0 else sampleRate)
    ensures m == InitWithRate(n, m.sr)
  {
    InitWithRate(n, if sampleRate <= 1.0 then 48000.0 else sampleRate)
  }

  /** Rate multipliers in [0.85, 1.15], nondecreasing along the bank, first one 0.85 and
      (for more than one line) last one 1.15. */
  lemma InitRates(n: int, sr: real, i: int, j: int)
    requires var m := InitWithRate(n, sr); 0 <= i <= j < m.count
    ensures var m := InitWithRate(n, sr);
            0.85 <= m.rateMul[i] <= m.rateMul[j] <= 1.15 &&
            m.rateMul[0] == 0.85 && (m.count > 1 ==> m.rateMul[m.count - 1] == 1.15)
  {
    var m := InitWithRate(n, sr);
    SpreadMonotone(i, j, m.count);
  }

  /** Every phase lies in [0, 4*pi): the start phases reach up to `2*pi*1.13`. */
  predicate InRange(m: MultiLFO)
  {
    forall i :: 0 <= i < |m.phase| ==> 0.0 <= m.phase[i] < 2.0 * TwoPi
  }

  /** `i = max(0, min(i, count - 1))`. */
  function ClampLine(i: int, count: int): (c: int)
    requires count >= 1
    ensures 0 <= c < count
    ensures 0 <= i < count ==> c == i
    ensures i < 0 ==> c == 0
    ensures i >= count ==> c == count - 1
  {
    ClampInt(i, 0, count - 1)
  }

  /** The phase increment `2*pi*hz/sr` for the rate `hz = baseRateHz * rateMul[i]`. */
  function Increment(m: MultiLFO, i: int, baseRateHz: real): real
    requires Valid(m) && 0 <= i < m.count
  {
    TwoPi * (baseRateHz * m.rateMul[i]) / m.sr
  }

  /** `phase += inc; if (phase >= 2*pi) phase -= 2*pi;` */
  function Wrap(p: real, inc: real): (q: real)
    ensures 0.0 <= p && 0.0 <= inc ==> 0.0 <= q
    ensures p + inc < TwoPi ==> q == p + inc
    ensures p + inc >= TwoPi ==> q == p + inc - TwoPi
  {
    if p + inc >= TwoPi then p + inc - TwoPi else p + inc
  }

  /** `process(i, baseRateHz)`: the clamped line's oscillator returns `sin(phase)` and advances;
      every other line keeps its phase and the bank's rates are unchanged. */
  function Process(m: MultiLFO, i: int, baseRateHz: real, sin: real -> real): (s: Step<MultiLFO>)
    requires Valid(m)
    ensures Valid(s.state) && s.state.count == m.count && s.state.rateMul == m.rateMul
    ensures s.state.sr == m.sr
    ensures var c := ClampLine(i, m.count);
            s.out == sin(m.phase[c]) &&
            s.state.phase == m.phase[c := Wrap(m.phase[c], Increment(m, c, baseRateHz))]
    ensures (forall t :: -1.0 <= sin(t) <= 1.0) ==> -1.0 <= s.out <= 1.0
  {
    var c := ClampLine(i, m.count);
    var p := Wrap(m.phase[c], Increment(m, c, baseRateHz));
    Step(m.(phase := m.phase[c := p]), sin(m.phase[c]))
  }

  /** While every increment lies in [0, 2*pi), i.e. `0 <= baseRateHz * rateMul < sr`, the
      wrap keeps each phase in [0, 4*pi), and a phase already below `2*pi` stays below it. */
  lemma WrapKeepsRange(p: real, inc: real)
    requires 0.0 <= p < 2.0 * TwoPi && 0.0 <= inc < TwoPi
    ensures 0.0 <= Wrap(p, inc) < 2.0 * TwoPi
    ensures p < TwoPi ==> Wrap(p, inc) < TwoPi
  {
  }

  /** A bank whose phases lie in [0, 4*pi) keeps them there under `process` for any
      non-negative base rate below the sample rate over 1.15. */
  lemma ProcessKeepsRange(m: MultiLFO, i: int, baseRateHz: real, sin: real -> real)
    requires Valid(m) && InRange(m)
    requires forall k :: 0 <= k < m.count ==> 0.0 <= m.rateMul[k] <= 1.15
    requires 0.0 <= baseRateHz && 1.15 * baseRateHz < m.sr
    ensures InRange(Process(m, i, baseRateHz, sin).state)
  {
    var c := ClampLine(i, m.count);
    var inc := Increment(m, c, baseRateHz);
    var hz := baseRateHz * m.rateMul[c];
    assert 0.0 <= hz < m.sr by {
      MulNonneg(baseRateHz, m.rateMul[c]);
      MulNonneg(baseRateHz, 1.15 - m.rateMul[c]);
    }
    assert inc == (TwoPi * hz) / m.sr;
    assert 0.0 <= inc < TwoPi by {
      MulNonneg(TwoPi, hz);
      assert TwoPi * hz < TwoPi * m.sr by {
        MulNonneg(TwoPi, m.sr - hz);
        assert TwoPi * (m.sr - hz) > 0.0 by {
          MulPos(TwoPi, m.sr - hz);
        }
      }
      DivBelow(TwoPi * hz, m.sr, TwoPi);
    }
    WrapKeepsRange(m.phase[c], inc);
  }

  lemma MulPos(x: real, y: real)
    requires x > 0.0 && y > 0.0
    ensures x * y > 0.0
  {
  }

  /** `a < b*c` with `c > 0` gives `a / c < b`. */
  lemma DivBelow(a: real, c: real, b: real)
    requires c > 0.0 && 0.0 <= a < b * c
    ensures 0.0 <= a / c < b
  {
    assert (a / c) * c == a;
    if a / c >= b {
      MulNonneg(a / c - b, c);
    }
  }
}

=== FILE: matrices.dfy ===
/** The feedback mixing matrices of the tail (src/dsp/tail/Matrices.h, Matrices.cpp): a
    Householder reflection about the all-ones vector and a scaled in-place fast Walsh-Hadamard
    transform, both acting on the first `lines` of a fixed 16-slot vector. */
module Matrices {
  import opened Dsp
  import opened Sums

  /** `kMaxLines`: the fixed size of the vector every mix acts on. */
  const MaxLines: int := 16

  /** The literal `1/sqrt(8)` the source uses for eight lines. */
  const InvSqrt8: real := 0.3535533905932738

  /** `lines = max(1, min(lines, kMaxLines))`, the first statement of both mixes. */
  function ClampLines(lines: int): (n: int)
    ensures 1 <= n <= MaxLines
    ensures 1 <= lines <= MaxLines ==> n == lines
    ensures lines < 1 ==> n == 1
    ensures lines > MaxLines ==> n == MaxLines
  {
    ClampInt(lines, 1, MaxLines)
  }

  // ---------------------------------------------------------------------------------------
  // Householder reflection
  // ---------------------------------------------------------------------------------------

  /** The mean of the first `n` entries. */
  function Mean(v: seq<real>, n: int): real
    requires 1 <= n <= |v|
  {
    Sum(v, 0, n) / n as real
  }

  /** `householderMix(v, lines)`: every active entry drops by twice the mean of the active
      entries; entries at index `lines` and above are left alone. */
  function HouseholderMix(v: seq<real>, lines: int): (w: seq<real>)
    requires |v| == MaxLines
    ensures |w| == MaxLines
    ensures forall k :: 0 <= k < ClampLines(lines) ==> w[k] == v[k] - 2.0 * Mean(v, ClampLines(lines))
    ensures forall k :: ClampLines(lines) <= k < MaxLines ==> w[k] == v[k]
  {
    var n := ClampLines(lines);
    var m := Mean(v, n);
    seq(MaxLines, k requires 0 <= k < MaxLines => if k < n then v[k] - 2.0 * m else v[k])
  }

  /** `m` is the mean of the first `n` entries: `n * m` is their sum. */
  predicate IsMean(v: seq<real>, n: int, m: real)
    requires 1 <= n <= |v|
  {
    n as real * m == Sum(v, 0, n)
  }

  lemma MeanIsMean(v: seq<real>, n: int)
    requires 1 <= n <= |v|
    ensures IsMean(v, n, Mean(v, n))
  {
  }

  /** The mean is determined by its defining product. */
  lemma IsMeanUnique(v: seq<real>, n: int, m: real)
    requires 1 <= n <= |v| && IsMean(v, n, m)
    ensures Mean(v, n) == m
  {
  }

  /** The reflection is orthogonal: the energy of the active entries is preserved, for every
      line count. */
  lemma HouseholderPreservesEnergy(v: seq<real>, lines: int)
    requires |v| == MaxLines
    ensures var n := ClampLines(lines);
            Energy(HouseholderMix(v, lines), 0, n) == Energy(v, 0, n)
  {
    MeanIsMean(v, ClampLines(lines));
    ReflectEnergy(v, HouseholderMix(v, lines), ClampLines(lines), Mean(v, ClampLines(lines)));
  }

  /** Subtracting twice the mean from every entry of a prefix keeps its energy. */
  lemma ReflectEnergy(v: seq<real>, w: seq<real>, n: int, m: real)
    requires 1 <= n <= |v| && n <= |w|
    requires IsMean(v, n, m)
    requires forall k :: 0 <= k < n ==> w[k] == v[k] - 2.0 * m
    ensures Energy(w, 0, n) == Energy(v, 0, n)
  {
    ShiftEnergy(v, w, 2.0 * m, n);
    calc {
      2.0 * (2.0 * m) * Sum(v, 0, n);
      4.0 * m * (n as real * m);
      n as real * (4.0 * (m * m));
      n as real * Sq(2.0 * m);
    }
  }

  /** Subtracting twice the mean negates the mean. */
  lemma ReflectMean(v: seq<real>, w: seq<real>, n: int, m: real)
    requires 1 <= n <= |v| && n <= |w|
    requires IsMean(v, n, m)
    requires forall k :: 0 <= k < n ==> w[k] == v[k] - 2.0 * m
    ensures IsMean(w, n, -m)
  {
    ShiftSum(v, w, 2.0 * m, n);
  }

  /** The reflection negates the mean of the active entries. */
  lemma HouseholderNegatesMean(v: seq<real>, lines: int)
    requires |v| == MaxLines
    ensures var n := ClampLines(lines);
            Mean(HouseholderMix(v, lines), n) == -Mean(v, n)
  {
    MeanIsMean(v, ClampLines(lines));
    ReflectMean(v, HouseholderMix(v, lines), ClampLines(lines), Mean(v, ClampLines(lines)));
    IsMeanUnique(HouseholderMix(v, lines), ClampLines(lines), -Mean(v, ClampLines(lines)));
  }

  /** The reflection is an involution: mixing twice gives back the input. */
  lemma HouseholderInvolution(v: seq<real>, lines: int)
    requires |v| == MaxLines
    ensures HouseholderMix(HouseholderMix(v, lines), lines) == v
  {
    var n := ClampLines(lines);
    var w := HouseholderMix(v, lines);
    HouseholderNegatesMean(v, lines);
    var u := HouseholderMix(w, lines);
    forall k | 0 <= k < MaxLines
      ensures u[k] == v[k]
    {
    }
  }

  /** The in-place loops of `householderMix`: one pass for the sum, one for the update. */
  method HouseholderInPlace(v: seq<real>, lines: int) returns (w: seq<real>)
    requires |v| == MaxLines
    ensures w == HouseholderMix(v, lines)
  {
    var n := ClampLines(lines);
    var sum := 0.0;
    var i := 0;
    while i < n
      invariant 0 <= i <= n
      invariant sum == Sum(v, 0, i)
    {
      sum := sum + v[i];
      i := i + 1;
    }
    var mean := sum / n as real;
    w := v;
    i := 0;
    while i < n
      invariant 0 <= i <= n && |w| == MaxLines
      invariant forall k :: 0 <= k < i ==> w[k] == v[k] - 2.0 * mean
      invariant forall k :: i <= k < MaxLines ==> w[k] == v[k]
    {
      w := w[i := w[i] - 2.0 * mean];
      i := i + 1;
    }
  }

  // ---------------------------------------------------------------------------------------
  // Fast Walsh-Hadamard transform
  // ---------------------------------------------------------------------------------------

  /** Bitwise and of two non-negative integers, one bit at a time from the bottom. */
  function BitAnd(a: nat, b: nat): nat
  {
    if a == 0 || b == 0 then 0
    else 2 * BitAnd(a / 2, b / 2) + (if a % 2 == 1 && b % 2 == 1 then 1 else 0)
  }

  /** `isPowerOfTwo(x)`: `x > 0 && (x & (x - 1)) == 0`. Both operands of the `&` are
      non-negative once `x > 0`, so the two's-complement and is the and of the magnitudes. */
  function IsPowerOfTwo(x: int): bool
  {
    x > 0 && BitAnd(x, x - 1) == 0
  }

  /** The powers of two a clamped line count can take. */
  predicate PowerOfTwoLines(n: int)
  {
    n == 1 || n == 2 || n == 4 || n == 8 || n == 16
  }

  /** On the clamped range the bit test recognises exactly 1, 2, 4, 8 and 16. */
  lemma IsPowerOfTwoExact(n: int)
    requires 1 <= n <= MaxLines
    ensures IsPowerOfTwo(n) <==> PowerOfTwoLines(n)
  {
    assert IsPowerOfTwo(1) && IsPowerOfTwo(2) && IsPowerOfTwo(4);
    assert IsPowerOfTwo(8) && IsPowerOfTwo(16);
    assert !IsPowerOfTwo(3) && !IsPowerOfTwo(5) && !IsPowerOfTwo(6) && !IsPowerOfTwo(7);
    assert !IsPowerOfTwo(9) && !IsPowerOfTwo(10) && !IsPowerOfTwo(11) && !IsPowerOfTwo(12);
    assert !IsPowerOfTwo(13) && !IsPowerOfTwo(14) && !IsPowerOfTwo(15);
  }

  /** The half-block sizes `step` the transform's outer loop runs through. */
  predicate StepOk(step: int)
  {
    step == 1 || step == 2 || step == 4 || step == 8
  }

  /** A block start `i` aligned to `2*step` below 16 leaves room for the whole block. */
  lemma AlignedRoom(i: int, step: int)
    requires StepOk(step) && 0 <= i < MaxLines && i % (2 * step) == 0
    ensures i + 2 * step <= MaxLines && (i + 2 * step) % (2 * step) == 0
  {
  }

  /** The innermost loop after `j` iterations on the block starting at `i`: the first `j`
      butterflies `(a, b) -> (a + b, a - b)` are done. */
  function PartialButterfly(v: seq<real>, i: int, step: int, j: int): (w: seq<real>)
    requires |v| == MaxLines && 1 <= step && 0 <= i && i + 2 * step <= MaxLines
    requires 0 <= j <= step
    ensures |w| == MaxLines
  {
    seq(MaxLines, k requires 0 <= k < MaxLines =>
      if i <= k < i + j then v[k] + v[k + step]
      else if i + step <= k < i + step + j then v[k - step] - v[k]
      else v[k])
  }

  /** All `step` butterflies of one block `[i, i + 2*step)`. */
  function Butterfly(v: seq<real>, i: int, step: int): (w: seq<real>)
    requires |v| == MaxLines && 1 <= step && 0 <= i && i + 2 * step <= MaxLines
    ensures |w| == MaxLines
    ensures forall k :: 0 <= k < MaxLines && !(i <= k < i + 2 * step) ==> w[k] == v[k]
  {
    PartialButterfly(v, i, step, step)
  }

  /** The middle loop from block `i` on: `for (; i < lines; i += 2*step)`. */
  function Blocks(v: seq<real>, i: int, step: int, lines: int): (w: seq<real>)
    requires |v| == MaxLines && StepOk(step) && 0 <= i <= MaxLines && i % (2 * step) == 0
    requires 1 <= lines <= MaxLines
    ensures |w| == MaxLines
    decreases MaxLines - i
  {
    if i >= lines then v
    else
      AlignedRoom(i, step);
      Blocks(Butterfly(v, i, step), i + 2 * step, step, lines)
  }

  /** One block, then the blocks after it. */
  lemma BlocksStep(v: seq<real>, i: int, step: int, lines: int)
    requires |v| == MaxLines && StepOk(step) && 0 <= i < lines <= MaxLines && i % (2 * step) == 0
    ensures i + 2 * step <= MaxLines && (i + 2 * step) % (2 * step) == 0
    ensures Blocks(v, i, step, lines) == Blocks(Butterfly(v, i, step), i + 2 * step, step, lines)
  {
    AlignedRoom(i, step);
  }

  /** One pass of the outer loop: all blocks of size `2*step` that start below `lines`. */
  function Stage(v: seq<real>, step: int, lines: int): (w: seq<real>)
    requires |v| == MaxLines && StepOk(step) && 1 <= lines <= MaxLines
    ensures |w| == MaxLines
  {
    Blocks(v, 0, step, lines)
  }

  /** The whole unscaled transform from half-block size `step` on: `step` doubles while it is
      below `lines`. */
  function Transform(v: seq<real>, step: int, lines: int): (w: seq<real>)
    requires |v| == MaxLines && 1 <= lines <= MaxLines && (StepOk(step) || step == 16)
    ensures |w| == MaxLines
    decreases MaxLines - step
  {
    if step >= lines then v else Transform(Stage(v, step, lines), 2 * step, lines)
  }

  /** `v[i] *= scale` for the first `n` entries. */
  function ScaleHead(v: seq<real>, n: int, scale: real): (w: seq<real>)
    requires |v| == MaxLines && 0 <= n <= MaxLines
    ensures |w| == MaxLines
    ensures forall k :: 0 <= k < n ==> w[k] == scale * v[k]
    ensures forall k :: n <= k < MaxLines ==> w[k] == v[k]
  {
    seq(MaxLines, k requires 0 <= k < MaxLines => if k < n then scale * v[k] else v[k])
  }

  /** The normalisation of the canonical source: the literal `1/sqrt(8)` for 8 lines, 0.25
      for 16, and `1/sqrt(lines)` (the parameter `rsqrt`) otherwise. */
  function HadamardScale(n: int, rsqrt: real -> real): real
  {
    if n == 8 then InvSqrt8 else if n == 16 then 0.25 else rsqrt(n as real)
  }

  /** `hadamardMix(v, lines)` of src/dsp/tail: a line count that is not a power of two falls
      back to the Householder reflection; otherwise the transform is applied and the active
      entries are scaled. */
  function HadamardMix(v: seq<real>, lines: int, rsqrt: real -> real): (w: seq<real>)
    requires |v| == MaxLines
    ensures |w| == MaxLines
    ensures !PowerOfTwoLines(ClampLines(lines)) ==> w == HouseholderMix(v, lines)
  {
    var n := ClampLines(lines);
    IsPowerOfTwoExact(n);
    if !IsPowerOfTwo(n) then HouseholderMix(v, n)
    else ScaleHead(Transform(v, 1, n), n, HadamardScale(n, rsqrt))
  }

  /** `MatrixType`: `Hadamard = 0`, `Householder = 1`. */
  datatype MatrixType = Hadamard | Householder
  {
    function Code(): (c: int)
      ensures c == 0 || c == 1
    {
      match this
      case Hadamard => 0
      case Householder => 1
    }
  }

  lemma MatrixTypeCodes(t: MatrixType, u: MatrixType)
    ensures t.Code() == u.Code() <==> t == u
    ensures t == Hadamard <==> t.Code() == 0
  {
  }

  /** `mix(v, lines, type)`: the Hadamard type selects `hadamardMix`, any other the reflection. */
  function Mix(v: seq<real>, lines: int, t: MatrixType, rsqrt: real -> real): (w: seq<real>)
    requires |v| == MaxLines
    ensures t == Hadamard ==> w == HadamardMix(v, lines, rsqrt)
    ensures t != Hadamard ==> w == HouseholderMix(v, lines)
  {
    if t == Hadamard then HadamardMix(v, lines, rsqrt) else HouseholderMix(v, lines)
  }

  // ---------------------------------------------------------------------------------------
  // Transform lemmas
  // ---------------------------------------------------------------------------------------

  /** Pair sums of a block: `sum over t < j of v[i+t]^2 + v[i+step+t]^2`. */
  function PairEnergy(v: seq<real>, i: int, step: int, j: int): real
    requires |v| == MaxLines && 1 <= step && 0 <= i && i + 2 * step <= MaxLines
    requires 0 <= j <= step
  {
    if j == 0 then 0.0 else PairEnergy(v, i, step, j - 1) + Sq(v[i + j - 1]) + Sq(v[i + step + j - 1])
  }

  lemma {:induction false} PairEnergySplit(v: seq<real>, i: int, step: int, j: int)
    requires |v| == MaxLines && 1 <= step && 0 <= i && i + 2 * step <= MaxLines
    requires 0 <= j <= step
    ensures PairEnergy(v, i, step, j) == Energy(v, i, i + j) + Energy(v, i + step, i + step + j)
  {
    if j > 0 {
      PairEnergySplit(v, i, step, j - 1);
    }
  }

  /** `(a + b)^2 + (a - b)^2 = 2a^2 + 2b^2`. */
  lemma ButterflyArithmetic(a: real, b: real)
    ensures Sq(a + b) + Sq(a - b) == 2.0 * (Sq(a) + Sq(b))
  {
  }

  lemma {:induction false} PairEnergyDoubles(v: seq<real>, i: int, step: int, j: int)
    requires |v| == MaxLines && 1 <= step && 0 <= i && i + 2 * step <= MaxLines
    requires 0 <= j <= step
    ensures PairEnergy(Butterfly(v, i, step), i, step, j) == 2.0 * PairEnergy(v, i, step, j)
  {
    if j > 0 {
      PairEnergyDoubles(v, i, step, j - 1);
      var w := Butterfly(v, i, step);
      var a := v[i + j - 1];
      var b := v[i + step + j - 1];
      ButterflyPair(v, i, step, j - 1);
      ButterflyArithmetic(a, b);
      DoubledStep(PairEnergy(w, i, step, j - 1), PairEnergy(v, i, step, j - 1), Sq(a + b), Sq(a - b), Sq(a), Sq(b));
    }
  }

  /** Butterfly `j` of the block at `i` holds the sum and the difference of its inputs. */
  lemma ButterflyPair(v: seq<real>, i: int, step: int, j: int)
    requires |v| == MaxLines && 1 <= step && 0 <= i && i + 2 * step <= MaxLines
    requires 0 <= j < step
    ensures Butterfly(v, i, step)[i + j] == v[i + j] + v[i + step + j]
    ensures Butterfly(v, i, step)[i + step + j] == v[i + j] - v[i + step + j]
  {
  }

  lemma DoubledStep(pw: real, pv: real, x: real, y: real, a2: real, b2: real)
    requires pw == 2.0 * pv && x + y == 2.0 * (a2 + b2)
    ensures pw + x + y == 2.0 * (pv + a2 + b2)
  {
  }

  /** One block of butterflies doubles the energy of the block. */
  lemma ButterflyEnergy(v: seq<real>, i: int, step: int)
    requires |v| == MaxLines && 1 <= step && 0 <= i && i + 2 * step <= MaxLines
    ensures Energy(Butterfly(v, i, step), i, i + 2 * step) == 2.0 * Energy(v, i, i + 2 * step)
  {
    var w := Butterfly(v, i, step);
    PairEnergySplit(v, i, step, step);
    PairEnergySplit(w, i, step, step);
    PairEnergyDoubles(v, i, step, step);
    SplitSum(v, i, i + step, i + 2 * step);
    SplitSum(w, i, i + step, i + 2 * step);
  }

  /** When `lines` is a multiple of the block size, the blocks from `i` on stay inside
      `[i, lines)` and double its energy. */
  lemma {:induction false} BlocksEnergy(v: seq<real>, i: int, step: int, lines: int)
    requires |v| == MaxLines && StepOk(step) && 0 <= i <= lines && i % (2 * step) == 0
    requires 1 <= lines <= MaxLines && lines % (2 * step) == 0
    ensures var w := Blocks(v, i, step, lines);
            Energy(w, i, lines) == 2.0 * Energy(v, i, lines) &&
            forall k :: 0 <= k < MaxLines && !(i <= k < lines) ==> w[k] == v[k]
    decreases MaxLines - i
  {
    BlocksKeep(v, i, step, lines);
    if i < lines {
      AlignedRoom(i, step);
      AlignedWithin(i, step, lines);
      var m := i + 2 * step;
      var b := Butterfly(v, i, step);
      var w := Blocks(b, m, step, lines);
      BlocksEnergy(b, m, step, lines);
      BlocksStep(v, i, step, lines);
      ButterflyEnergy(v, i, step);
      SplitSum(w, i, m, lines);
      SplitSum(v, i, m, lines);
      SumsAgree(w, b, i, m);
      SumsAgree(b, v, m, lines);
      DoubledHalves(Energy(w, i, m), Energy(w, m, lines), Energy(v, i, m), Energy(v, m, lines),
                    Energy(b, i, m), Energy(b, m, lines));
    }
  }

  /** The blocks from `i` on leave every entry outside `[i, lines)` alone. */
  lemma {:induction false} BlocksKeep(v: seq<real>, i: int, step: int, lines: int)
    requires |v| == MaxLines && StepOk(step) && 0 <= i <= lines && i % (2 * step) == 0
    requires 1 <= lines <= MaxLines && lines % (2 * step) == 0
    ensures forall k :: 0 <= k < MaxLines && !(i <= k < lines) ==> Blocks(v, i, step, lines)[k] == v[k]
    decreases MaxLines - i
  {
    if i < lines {
      AlignedRoom(i, step);
      AlignedWithin(i, step, lines);
      BlocksKeep(Butterfly(v, i, step), i + 2 * step, step, lines);
    }
  }

  lemma DoubledHalves(w1: real, w2: real, v1: real, v2: real, b1: real, b2: real)
    requires w1 == b1 && b1 == 2.0 * v1 && w2 == 2.0 * b2 && b2 == v2
    ensures w1 + w2 == 2.0 * (v1 + v2)
  {
  }

  lemma AlignedWithin(i: int, step: int, lines: int)
    requires StepOk(step) && 0 <= i < lines <= MaxLines
    requires i % (2 * step) == 0 && lines % (2 * step) == 0
    ensures i + 2 * step <= lines
  {
  }

  /** The gain of the transform from half-block size `step` on: a factor 2 for each doubling
      of `step` still below `lines`. */
  function Gain(step: int, lines: int): real
  {
    if step >= lines then 1.0
    else if 2 * step >= lines then 2.0
    else if 4 * step >= lines then 4.0
    else if 8 * step >= lines then 8.0
    else 16.0
  }

  /** One more stage doubles the gain. */
  lemma GainStep(step: int, lines: int)
    requires PowerOfTwoLines(lines) && StepOk(step) && step < lines
    ensures Gain(step, lines) == 2.0 * Gain(2 * step, lines)
  {
  }

  /** The whole transform has gain `lines`. */
  lemma GainIsLines(lines: int)
    requires PowerOfTwoLines(lines)
    ensures Gain(1, lines) == lines as real
  {
  }

  /** A stage below a power-of-two line count works on whole blocks inside `[0, lines)`. */
  lemma StageFits(step: int, lines: int)
    requires PowerOfTwoLines(lines) && StepOk(step) && step < lines
    ensures lines % (2 * step) == 0 && 2 * step <= lines
    ensures StepOk(2 * step) || 2 * step == 16
  {
  }

  /** For a power-of-two line count the transform from half-block size `step` multiplies the
      energy of the active entries by its gain. */
  lemma {:induction false} TransformEnergy(v: seq<real>, step: int, lines: int)
    requires |v| == MaxLines && PowerOfTwoLines(lines) && (StepOk(step) || step == 16)
    requires step <= lines
    ensures Scales(v, Transform(v, step, lines), 0, lines, Gain(step, lines))
    decreases MaxLines - step
  {
    if step < lines {
      StageFits(step, lines);
      var s := Stage(v, step, lines);
      BlocksEnergy(v, 0, step, lines);
      TransformEnergy(s, 2 * step, lines);
      GainStep(step, lines);
      assert Scales(v, s, 0, lines, 2.0);
      var t := Transform(s, 2 * step, lines);
      assert t == Transform(v, step, lines);
      ScalesChain(v, s, t, 0, lines, 2.0, Gain(2 * step, lines));
      assert Times(Gain(2 * step, lines), 2.0) == Gain(step, lines);
    }
  }

  /** The transform leaves every entry at index `lines` and above unchanged. */
  lemma {:induction false} TransformKeepsTail(v: seq<real>, step: int, lines: int)
    requires |v| == MaxLines && PowerOfTwoLines(lines) && (StepOk(step) || step == 16)
    requires step <= lines
    ensures forall k :: lines <= k < MaxLines ==> Transform(v, step, lines)[k] == v[k]
    decreases MaxLines - step
  {
    if step < lines {
      StageFits(step, lines);
      BlocksEnergy(v, 0, step, lines);
      TransformKeepsTail(Stage(v, step, lines), 2 * step, lines);
    }
  }

  /** Scaling the first `n` entries by `c` multiplies the energy factor by `c^2`. */
  lemma ScaleAfter(v: seq<real>, t: seq<real>, n: int, g: real, c: real)
    requires |v| == MaxLines && |t| == MaxLines && 0 <= n <= MaxLines
    requires Scales(v, t, 0, n, g)
    ensures Scales(v, ScaleHead(t, n, c), 0, n, Times(Sq(c), g))
  {
    ScaleSums(t, ScaleHead(t, n, c), c, 0, n);
    ScalesChain(v, t, ScaleHead(t, n, c), 0, n, g, Sq(c));
  }

  /** The scaled transform of `n` lines multiplies energy by `scale^2 * n`. */
  lemma HadamardEnergy(v: seq<real>, n: int, rsqrt: real -> real)
    requires |v| == MaxLines && PowerOfTwoLines(n)
    ensures Scales(v, HadamardMix(v, n, rsqrt), 0, n, Times(Sq(HadamardScale(n, rsqrt)), n as real))
  {
    IsPowerOfTwoExact(n);
    TransformEnergy(v, 1, n);
    GainIsLines(n);
    assert ClampLines(n) == n && IsPowerOfTwo(n);
    assert HadamardMix(v, n, rsqrt) == ScaleHead(Transform(v, 1, n), n, HadamardScale(n, rsqrt));
    ScaleAfter(v, Transform(v, 1, n), n, n as real, HadamardScale(n, rsqrt));
  }

  /** With 16 lines the transform scaled by 0.25 preserves energy exactly. */
  lemma HadamardPreservesEnergy16(v: seq<real>, rsqrt: real -> real)
    requires |v| == MaxLines
    ensures Energy(HadamardMix(v, 16, rsqrt), 0, 16) == Energy(v, 0, 16)
  {
    HadamardEnergy(v, 16, rsqrt);
    assert Times(Sq(HadamardScale(16, rsqrt)), 16.0) == 1.0;
  }

  /** With 8 lines the energy is multiplied by `InvSqrt8^2 * 8`, which the literal keeps within
      1e-15 of 1. */
  lemma HadamardEnergy8(v: seq<real>, rsqrt: real -> real)
    requires |v| == MaxLines
    ensures Scales(v, HadamardMix(v, 8, rsqrt), 0, 8, Times(Sq(InvSqrt8), 8.0))
    ensures -0.000000000000001 < Times(Sq(InvSqrt8), 8.0) - 1.0 < 0.000000000000001
  {
    HadamardEnergy(v, 8, rsqrt);
    assert HadamardScale(8, rsqrt) == InvSqrt8;
  }

  /** With 1, 2 or 4 lines the energy is preserved whenever `rsqrt(n)^2 * n = 1`. */
  lemma HadamardPreservesEnergySmall(v: seq<real>, n: int, rsqrt: real -> real)
    requires |v| == MaxLines && (n == 1 || n == 2 || n == 4)
    requires Sq(rsqrt(n as real)) * n as real == 1.0
    ensures Energy(HadamardMix(v, n, rsqrt), 0, n) == Energy(v, 0, n)
  {
    assert Times(Sq(HadamardScale(n, rsqrt)), n as real) == 1.0;
    HadamardEnergy(v, n, rsqrt);
  }

  /** Both mixes map silence to silence: a vector of zeros mixes to zeros. */
  lemma MixSilence(v: seq<real>, lines: int, t: MatrixType, rsqrt: real -> real)
    requires |v| == MaxLines && forall k :: 0 <= k < MaxLines ==> v[k] == 0.0
    ensures forall k :: 0 <= k < MaxLines ==> Mix(v, lines, t, rsqrt)[k] == 0.0
  {
    var n := ClampLines(lines);
    IsPowerOfTwoExact(n);
    if t == Hadamard && PowerOfTwoLines(n) {
      MixKeepsTail(v, lines, t, rsqrt);
      HadamardSilence(v, n, rsqrt);
      assert Mix(v, lines, t, rsqrt) == HadamardMix(v, n, rsqrt);
    } else {
      HouseholderSilence(v, lines);
    }
  }

  /** The reflection of silence: the mean is zero, so nothing moves. */
  lemma HouseholderSilence(v: seq<real>, lines: int)
    requires |v| == MaxLines && forall k :: 0 <= k < MaxLines ==> v[k] == 0.0
    ensures forall k :: 0 <= k < MaxLines ==> HouseholderMix(v, lines)[k] == 0.0
  {
    SilentSlice(v, 0, ClampLines(lines));
    assert Mean(v, ClampLines(lines)) == 0.0;
  }

  /** The scaled transform of silence has no energy on the active lines, so every active
      entry is zero. */
  lemma HadamardSilence(v: seq<real>, n: int, rsqrt: real -> real)
    requires |v| == MaxLines && PowerOfTwoLines(n)
    requires forall k :: 0 <= k < MaxLines ==> v[k] == 0.0
    ensures forall k :: 0 <= k < n ==> HadamardMix(v, n, rsqrt)[k] == 0.0
  {
    var w := HadamardMix(v, n, rsqrt);
    SilentSlice(v, 0, n);
    HadamardEnergy(v, n, rsqrt);
    ScalesSilence(v, w, 0, n, Times(Sq(HadamardScale(n, rsqrt)), n as real));
    SilentSlice(w, 0, n);
  }

  /** Neither mix touches an entry at index `lines` (clamped) or above. */
  lemma MixKeepsTail(v: seq<real>, lines: int, t: MatrixType, rsqrt: real -> real)
    requires |v| == MaxLines
    ensures forall k :: ClampLines(lines) <= k < MaxLines ==> Mix(v, lines, t, rsqrt)[k] == v[k]
  {
    var n := ClampLines(lines);
    IsPowerOfTwoExact(n);
    if t == Hadamard && PowerOfTwoLines(n) {
      TransformKeepsTail(v, 1, n);
    }
  }

  // ---------------------------------------------------------------------------------------
  // The loops of hadamardMix
  // ---------------------------------------------------------------------------------------

  /** The middle and inner loops for one `step`, in place on a copy of the vector. Every
      access `i + j + step` stays below 16. */
  method StageInPlace(v: seq<real>, step: int, lines: int) returns (w: seq<real>)
    requires |v| == MaxLines && StepOk(step) && 1 <= lines <= MaxLines
    ensures w == Stage(v, step, lines)
  {
    w := v;
    var i := 0;
    while i < lines
      invariant 0 <= i <= MaxLines && i % (2 * step) == 0 && |w| == MaxLines
      invariant Blocks(w, i, step, lines) == Stage(v, step, lines)
      decreases MaxLines - i
    {
      BlocksStep(w, i, step, lines);
      w := ButterflyInPlace(w, i, step);
      i := i + 2 * step;
    }
  }

  /** The innermost loop `for (j = 0; j < step; ++j)` on the block starting at `i`. */
  method ButterflyInPlace(v: seq<real>, i: int, step: int) returns (w: seq<real>)
    requires |v| == MaxLines && 1 <= step && 0 <= i && i + 2 * step <= MaxLines
    ensures w == Butterfly(v, i, step)
  {
    w := v;
    var j := 0;
    while j < step
      invariant 0 <= j <= step && |w| == MaxLines
      invariant w == PartialButterfly(v, i, step, j)
    {
      var a := w[i + j];
      var b := w[i + j + step];
      PartialButterflyStep(v, i, step, j);
      w := w[i + j := a + b][i + j + step := a - b];
      j := j + 1;
    }
  }

  /** One more butterfly: entries `i + j` and `i + j + step` are still the inputs' and become
      their sum and difference. */
  lemma PartialButterflyStep(v: seq<real>, i: int, step: int, j: int)
    requires |v| == MaxLines && 1 <= step && 0 <= i && i + 2 * step <= MaxLines
    requires 0 <= j < step
    ensures var w := PartialButterfly(v, i, step, j);
            w[i + j] == v[i + j] && w[i + j + step] == v[i + j + step] &&
            w[i + j := v[i + j] + v[i + j + step]][i + j + step := v[i + j] - v[i + j + step]]
              == PartialButterfly(v, i, step, j + 1)
  {
  }

  /** The outer loop `for (step = 1; step < lines; step <<= 1)`. */
  method TransformInPlace(v: seq<real>, lines: int) returns (w: seq<real>)
    requires |v| == MaxLines && 1 <= lines <= MaxLines
    ensures w == Transform(v, 1, lines)
  {
    w := v;
    var step := 1;
    while step < lines
      invariant StepOk(step) || step == 16
      invariant |w| == MaxLines
      invariant Transform(w, step, lines) == Transform(v, 1, lines)
      decreases MaxLines - step
    {
      w := StageInPlace(w, step, lines);
      step := 2 * step;
    }
  }

  /** `hadamardMix` as the source runs it: the fallback test, the transform loops and the
      scaling loop. */
  method HadamardInPlace(v: seq<real>, lines: int, rsqrt: real -> real) returns (w: seq<real>)
    requires |v| == MaxLines
    ensures w == HadamardMix(v, lines, rsqrt)
  {
    var n := ClampLines(lines);
    IsPowerOfTwoExact(n);
    if !IsPowerOfTwo(n) {
      w := HouseholderInPlace(v, n);
      return;
    }
    w := TransformInPlace(v, n);
    w := ScaleInPlace(w, n, HadamardScale(n, rsqrt));
  }

  /** The last loop of `hadamardMix`: `v[i] *= scale` for the active entries. */
  method ScaleInPlace(v: seq<real>, n: int, scale: real) returns (w: seq<real>)
    requires |v| == MaxLines && 0 <= n <= MaxLines
    ensures w == ScaleHead(v, n, scale)
  {
    w := v;
    var i := 0;
    while i < n
      invariant 0 <= i <= n && w == ScaleHead(v, i, scale)
    {
      w := w[i := w[i] * scale];
      assert forall k :: 0 <= k < MaxLines ==> w[k] == ScaleHead(v, i + 1, scale)[k];
      i := i + 1;
    }
  }
}

=== FILE: matrices_legacy.dfy ===
/** The earlier revision of the mixing matrices (Source/ReverbCore/Matrices.cpp). Its Householder
    reflection is the current one; its Hadamard mix runs the fast Walsh-Hadamard transform for
    every line count, with no power-of-two fallback, and always scales by `1/sqrt(lines)`. */
module MatricesLegacy {
  import opened Sums
  import Matrices

  /** Legacy `hadamardMix`: the transform loops for any clamped line count, then
      `v[i] *= 1/sqrt(lines)` for the first `lines` entries. */
  function HadamardMix(v: seq<real>, lines: int, rsqrt: real -> real): (w: seq<real>)
    requires |v| == Matrices.MaxLines
    ensures |w| == Matrices.MaxLines
  {
    var n := Matrices.ClampLines(lines);
    Matrices.ScaleHead(Matrices.Transform(v, 1, n), n, rsqrt(n as real))
  }

  /** Legacy `householderMix`: the same sum, mean and update as the current source. */
  function HouseholderMix(v: seq<real>, lines: int): (w: seq<real>)
    requires |v| == Matrices.MaxLines
    ensures |w| == Matrices.MaxLines
    ensures w == Matrices.HouseholderMix(v, lines)
  {
    var n := Matrices.ClampLines(lines);
    var m := Matrices.Mean(v, n);
    seq(Matrices.MaxLines, k requires 0 <= k < Matrices.MaxLines =>
      if k < n then v[k] - 2.0 * m else v[k])
  }

  /** The legacy reflection keeps the energy of the active entries and undoes itself. */
  lemma HouseholderOrthogonal(v: seq<real>, lines: int)
    requires |v| == Matrices.MaxLines
    ensures var n := Matrices.ClampLines(lines);
            Energy(HouseholderMix(v, lines), 0, n) == Energy(v, 0, n)
    ensures HouseholderMix(HouseholderMix(v, lines), lines) == v
  {
    Matrices.HouseholderPreservesEnergy(v, lines);
    Matrices.HouseholderInvolution(v, lines);
  }

  /** For a power-of-two line count the legacy mix is the current one, given that `rsqrt`
      rounds to the literals the current source writes for 8 and 16 lines. */
  lemma HadamardAgrees(v: seq<real>, lines: int, rsqrt: real -> real)
    requires |v| == Matrices.MaxLines
    requires Matrices.PowerOfTwoLines(Matrices.ClampLines(lines))
    requires rsqrt(8.0) == Matrices.InvSqrt8 && rsqrt(16.0) == 0.25
    ensures HadamardMix(v, lines, rsqrt) == Matrices.HadamardMix(v, lines, rsqrt)
  {
    var n := Matrices.ClampLines(lines);
    Matrices.IsPowerOfTwoExact(n);
    assert Matrices.HadamardScale(n, rsqrt) == rsqrt(n as real);
  }

  /** The legacy loops: the transform of the current source without the fallback test, then
      the scaling loop with `1/sqrt(lines)`. */
  method HadamardInPlace(v: seq<real>, lines: int, rsqrt: real -> real) returns (w: seq<real>)
    requires |v| == Matrices.MaxLines
    ensures w == HadamardMix(v, lines, rsqrt)
  {
    var n := Matrices.ClampLines(lines);
    w := Matrices.TransformInPlace(v, n);
    w := Matrices.ScaleInPlace(w, n, rsqrt(n as real));
  }

  /** The unit impulse on line 0. */
  const Impulse: seq<real> := [1.0, 0.0, 0.0, 0.0, 0.0, 0.0, 0.0, 0.0,
                               0.0, 0.0, 0.0, 0.0, 0.0, 0.0, 0.0, 0.0]

  /** The unscaled transform with six lines carries an impulse on line 0 to lines 6 and 7:
      `step = 1` pairs lines 0 and 1, `step = 2` pairs 0, 1 with 2, 3 (and 4, 5 with 6, 7), and
      `step = 4` pairs 2, 3 with 6, 7. */
  lemma SixLinesTransform()
    ensures Matrices.Transform(Impulse, 1, 6)[6] == 1.0
    ensures Matrices.Transform(Impulse, 1, 6)[7] == 1.0
  {
    var s1 := Matrices.Stage(Impulse, 1, 6);
    SixLinesStage1();
    var s2 := Matrices.Stage(s1, 2, 6);
    SixLinesStage2(s1);
    SixLinesStage4(s2);
    assert Matrices.Transform(Impulse, 1, 6) == Matrices.Stage(s2, 4, 6);
  }

  lemma SixLinesStage1()
    ensures Matrices.Stage(Impulse, 1, 6)[..8] == [1.0, 1.0, 0.0, 0.0, 0.0, 0.0, 0.0, 0.0]
  {
  }

  lemma SixLinesStage2(s1: seq<real>)
    requires |s1| == Matrices.MaxLines
    requires s1[..8] == [1.0, 1.0, 0.0, 0.0, 0.0, 0.0, 0.0, 0.0]
    ensures Matrices.Stage(s1, 2, 6)[..8] == [1.0, 1.0, 1.0, 1.0, 0.0, 0.0, 0.0, 0.0]
  {
    var b0 := Matrices.Butterfly(s1, 0, 2);
    assert b0[..8] == [1.0, 1.0, 1.0, 1.0, 0.0, 0.0, 0.0, 0.0];
    assert Matrices.Stage(s1, 2, 6) == Matrices.Butterfly(b0, 4, 2);
  }

  lemma SixLinesStage4(s2: seq<real>)
    requires |s2| == Matrices.MaxLines
    requires s2[..8] == [1.0, 1.0, 1.0, 1.0, 0.0, 0.0, 0.0, 0.0]
    ensures Matrices.Stage(s2, 4, 6)[6] == 1.0 && Matrices.Stage(s2, 4, 6)[7] == 1.0
  {
    assert Matrices.Stage(s2, 4, 6) == Matrices.Butterfly(s2, 0, 4);
  }

  /** With six lines the legacy mix writes past the active lines: an impulse on line 0 leaves
      lines 6 and 7 at 1 (the scaling loop stops at line 5). The current source falls back to
      the reflection for six lines and leaves them at 0. */
  lemma SixLinesWritesTail(rsqrt: real -> real)
    ensures HadamardMix(Impulse, 6, rsqrt)[6] == 1.0
    ensures HadamardMix(Impulse, 6, rsqrt)[7] == 1.0
    ensures Matrices.Mix(Impulse, 6, Matrices.Hadamard, rsqrt)[6] == 0.0
    ensures Matrices.Mix(Impulse, 6, Matrices.Hadamard, rsqrt)[7] == 0.0
  {
    SixLinesTransform();
    Matrices.MixKeepsTail(Impulse, 6, Matrices.Hadamard, rsqrt);
  }
}

=== FILE: mode_presets.dfy ===
/** The mode recipes (src/dsp/modes/ModePresets.cpp): every mode maps to a tank topology, a
    diffusion setup, per-line modulation maps, optional feature flags and suggested UI
    defaults. */
module ModePresets {
  import opened Dsp
  import opened Modes

  /** The optional DSP blocks a mode switches on. */
  datatype Features = Features(
    usePitchBlock: bool, useGranularBlock: bool, useMagneticBlock: bool,
    useSingularity: bool, useSpringModel: bool, useBlossomEnv: bool)

  const NoFeatures: Features := Features(false, false, false, false, false, false)

  /** How many blocks are switched on. */
  function FlagCount(f: Features): (k: nat)
    ensures k <= 6
    ensures k == 0 <==> f == NoFeatures
  {
    (if f.usePitchBlock then 1 else 0) + (if f.useGranularBlock then 1 else 0)
      + (if f.useMagneticBlock then 1 else 0) + (if f.useSingularity then 1 else 0)
      + (if f.useSpringModel then 1 else 0) + (if f.useBlossomEnv then 1 else 0)
  }

  /** `TankConfig`: the topology part of a recipe. */
  datatype TankConfig = TankConfig(
    delayLines: int, delayScale: real, useHouseholder: bool,
    inputDiffStages: int, inputDiffG: real,
    lateDiffMinG: real, lateDiffMaxG: real,
    modDepthMs: real, modRateHz: real,
    decayLowMul: real, decayMidMul: real, decayHighMul: real,
    tapPattern: int, tapPatternLate: int,
    modDepthMul: seq<real>, modRateMul: seq<real>)

  /** `ModeConfig`: a whole recipe. */
  datatype ModeConfig = ModeConfig(
    mode: Mode, tank: TankConfig, features: Features,
    defaultMix: real, defaultDecay: real, defaultDamping: real, defaultPreDelay: real,
    defaultERLevel: real, defaultERSize: real)

  // ---------------------------------------------------------------------------------------
  // Modulation maps
  // ---------------------------------------------------------------------------------------

  /** The number of per-line multipliers in a map. */
  const MapSize: int := 16

  /** A `fillModMap_*` helper: line `i` gets `depthLo + depthSpan*t` and `rateLo + rateSpan*t`
      with `t = i/15`. */
  datatype Spread = Spread(depthLo: real, depthSpan: real, rateLo: real, rateSpan: real)

  const DefaultSpread: Spread := Spread(0.85, 0.30, 0.80, 0.40)
  const PlateSpread: Spread := Spread(0.92, 0.16, 0.90, 0.20)
  const SkySpread: Spread := Spread(0.75, 0.50, 0.70, 0.60)
  const VintageSpread: Spread := Spread(0.85, 0.25, 0.60, 0.30)

  /** `t = (16 == 1) ? 0 : i/15`, the position of line `i` along the spread. */
  function Position(i: int): (t: real)
    requires 0 <= i < MapSize
    ensures 0.0 <= t <= 1.0
    ensures i == 0 ==> t == 0.0
    ensures i == MapSize - 1 ==> t == 1.0
  {
    if MapSize == 1 then 0.0 else i as real / (MapSize - 1) as real
  }

  /** `lo + span*t` at line `i`. */
  function Ramp(lo: real, span: real, i: int): real
    requires 0 <= i < MapSize
  {
    lo + span * Position(i)
  }

  /** The ramp starts at `lo`, ends at `lo + span`, never leaves that range and never falls
      when `span` is not negative. */
  lemma RampShape(lo: real, span: real, i: int, j: int)
    requires 0 <= i <= j < MapSize
    requires span >= 0.0
    ensures Ramp(lo, span, 0) == lo && Ramp(lo, span, MapSize - 1) == lo + span
    ensures lo <= Ramp(lo, span, i) <= lo + span
    ensures Ramp(lo, span, i) <= Ramp(lo, span, j)
  {
    var ti, tj := Position(i), Position(j);
    assert ti <= tj;
    MulNonneg(span, ti);
    MulNonneg(span, tj - ti);
    MulNonneg(span, 1.0 - ti);
    assert span * tj - span * ti == span * (tj - ti);
    assert span - span * ti == span * (1.0 - ti);
  }

  datatype ModMaps = ModMaps(depth: seq<real>, rate: seq<real>)

  /** The depth and rate multipliers a spread writes. */
  function FillModMap(sp: Spread): (m: ModMaps)
    ensures |m.depth| == MapSize && |m.rate| == MapSize
    ensures m.depth[0] == sp.depthLo && m.rate[0] == sp.rateLo
  {
    ModMaps(seq(MapSize, i requires 0 <= i < MapSize => Ramp(sp.depthLo, sp.depthSpan, i)),
            seq(MapSize, i requires 0 <= i < MapSize => Ramp(sp.rateLo, sp.rateSpan, i)))
  }

  /** The loop of `fillModMap_*`, writing one line per iteration; it produces the maps of
      `FillModMap`. */
  method FillModMapLoop(sp: Spread) returns (depth: seq<real>, rate: seq<real>)
    ensures ModMaps(depth, rate) == FillModMap(sp)
  {
    depth, rate := [], [];
    var i := 0;
    while i < MapSize
      invariant 0 <= i <= MapSize
      invariant |depth| == i && |rate| == i
      invariant forall k :: 0 <= k < i ==> depth[k] == Ramp(sp.depthLo, sp.depthSpan, k)
      invariant forall k :: 0 <= k < i ==> rate[k] == Ramp(sp.rateLo, sp.rateSpan, k)
    {
      var t := if MapSize == 1 then 0.0 else i as real / 15.0;
      assert t == Position(i);
      var dm, rm := sp.depthLo + sp.depthSpan * t, sp.rateLo + sp.rateSpan * t;
      assert dm == Ramp(sp.depthLo, sp.depthSpan, i) && rm == Ramp(sp.rateLo, sp.rateSpan, i);
      depth := depth + [dm];
      rate := rate + [rm];
      i := i + 1;
    }
    var m := FillModMap(sp);
    assert depth == m.depth;
    assert rate == m.rate;
  }

  /** A sequence that never falls. */
  predicate Nondecreasing(s: seq<real>)
  {
    forall i, j :: 0 <= i <= j < |s| ==> s[i] <= s[j]
  }

  /** Every entry of `s` lies in `[lo, hi]`. */
  predicate Within(s: seq<real>, lo: real, hi: real)
  {
    forall i :: 0 <= i < |s| ==> lo <= s[i] <= hi
  }

  /** A map with non-negative spans is nondecreasing along the lines and runs exactly from
      `lo` to `lo + span`. */
  lemma {:induction false} FillModMapShape(sp: Spread)
    requires sp.depthSpan >= 0.0 && sp.rateSpan >= 0.0
    ensures Nondecreasing(FillModMap(sp).depth) && Nondecreasing(FillModMap(sp).rate)
    ensures Within(FillModMap(sp).depth, sp.depthLo, sp.depthLo + sp.depthSpan)
    ensures Within(FillModMap(sp).rate, sp.rateLo, sp.rateLo + sp.rateSpan)
    ensures FillModMap(sp).depth[MapSize - 1] == sp.depthLo + sp.depthSpan
    ensures FillModMap(sp).rate[MapSize - 1] == sp.rateLo + sp.rateSpan
  {
    var m := FillModMap(sp);
    forall i, j | 0 <= i <= j < MapSize
      ensures m.depth[i] <= m.depth[j] && m.rate[i] <= m.rate[j]
      ensures sp.depthLo <= m.depth[i] <= sp.depthLo + sp.depthSpan
      ensures sp.rateLo <= m.rate[i] <= sp.rateLo + sp.rateSpan
    {
      RampShape(sp.depthLo, sp.depthSpan, i, j);
      RampShape(sp.rateLo, sp.rateSpan, i, j);
    }
    RampShape(sp.depthLo, sp.depthSpan, 0, 0);
    RampShape(sp.rateLo, sp.rateSpan, 0, 0);
  }

  // ---------------------------------------------------------------------------------------
  // getModePreset
  // ---------------------------------------------------------------------------------------

  /** `maxDiffStages`: the clamp applied to every recipe's stage count. */
  const MaxDiffStages: int := 8

  /** The recipe every mode starts from. */
  function Defaults(m: Mode): (c: ModeConfig)
    ensures c.mode == m && c.features == NoFeatures
    ensures c.tank.delayLines == 16 && c.tank.useHouseholder
  {
    var maps := FillModMap(DefaultSpread);
    ModeConfig(m,
      TankConfig(16, 1.0, true, 6, 0.72, 0.45, 0.72, 6.0, 0.25, 1.05, 1.00, 0.90, 0, 1,
                 maps.depth, maps.rate),
      NoFeatures, 0.35, 0.92, 9000.0, 20.0, 0.30, 0.55)
  }

  /** Install the maps of a spread. */
  function WithMaps(t: TankConfig, sp: Spread): TankConfig
  {
    t.(modDepthMul := FillModMap(sp).depth, modRateMul := FillModMap(sp).rate)
  }

  /** The switch of `getModePreset`: the per-mode overrides of the defaults. */
  function Recipe(m: Mode): ModeConfig
  {
    var d := Defaults(m);
    var t := d.tank;
    var f := d.features;
    match m
    case Room =>
      d.(tank := t.(delayScale := 0.78, useHouseholder := true, inputDiffStages := 5,
                    inputDiffG := 0.70, modDepthMs := 4.5, modRateHz := 0.35,
                    decayLowMul := 1.02, decayHighMul := 0.92),
         defaultPreDelay := 10.0, defaultDecay := 0.86, defaultDamping := 11000.0,
         defaultERLevel := 0.35, defaultERSize := 0.45)
    case Hall =>
      d.(tank := WithMaps(t.(delayScale := 1.15, useHouseholder := true, inputDiffStages := 6,
                             inputDiffG := 0.68, lateDiffMinG := 0.48, lateDiffMaxG := 0.74,
                             modDepthMs := 4.5, modRateHz := 0.18, decayLowMul := 1.12,
                             decayMidMul := 1.00, decayHighMul := 0.86), DefaultSpread),
         defaultPreDelay := 25.0, defaultDecay := 0.93, defaultDamping := 9000.0,
         defaultERLevel := 0.24, defaultERSize := 0.70)
    case Cathedral =>
      d.(tank := t.(delayScale := 1.35, useHouseholder := true, inputDiffStages := 7,
                    inputDiffG := 0.75, modDepthMs := 7.5, modRateHz := 0.18,
                    decayLowMul := 1.12, decayHighMul := 0.82),
         defaultPreDelay := 35.0, defaultDecay := 0.95, defaultDamping := 7500.0,
         defaultERLevel := 0.22, defaultERSize := 0.75)
    case Plate =>
      d.(tank := WithMaps(t.(delayScale := 0.95, useHouseholder := false, inputDiffStages := 7,
                             inputDiffG := 0.77, modDepthMs := 5.0, modRateHz := 0.30,
                             decayLowMul := 1.00, decayHighMul := 0.93), PlateSpread),
         defaultPreDelay := 5.0, defaultDecay := 0.90, defaultDamping := 12000.0,
         defaultERLevel := 0.20, defaultERSize := 0.40)
    case Spring =>
      d.(features := f.(useSpringModel := true),
         tank := t.(delayScale := 0.80, useHouseholder := true, inputDiffStages := 4,
                    inputDiffG := 0.66, modDepthMs := 2.5, modRateHz := 0.45,
                    decayLowMul := 0.98, decayHighMul := 0.95),
         defaultPreDelay := 0.0, defaultDecay := 0.80, defaultDamping := 14000.0,
         defaultERLevel := 0.15, defaultERSize := 0.35)
    case Vintage =>
      d.(tank := WithMaps(t.(delayScale := 1.05, useHouseholder := true, inputDiffStages := 6,
                             inputDiffG := 0.72, modDepthMs := 6.0, modRateHz := 0.16,
                             decayLowMul := 1.06, decayHighMul := 0.86), VintageSpread),
         defaultPreDelay := 18.0, defaultDecay := 0.90, defaultDamping := 8200.0,
         defaultERLevel := 0.26, defaultERSize := 0.55)
    case Sky =>
      d.(tank := WithMaps(t.(delayScale := 1.20, useHouseholder := true, inputDiffStages := 8,
                             inputDiffG := 0.78, modDepthMs := 8.0, modRateHz := 0.14,
                             decayLowMul := 1.10, decayHighMul := 0.84), SkySpread),
         defaultPreDelay := 28.0, defaultDecay := 0.95, defaultDamping := 9000.0,
         defaultERLevel := 0.18, defaultERSize := 0.65)
    case Blossom =>
      d.(features := f.(useBlossomEnv := true),
         tank := t.(delayScale := 1.12, useHouseholder := true, inputDiffStages := 7,
                    inputDiffG := 0.76, modDepthMs := 7.0, modRateHz := 0.18,
                    decayLowMul := 1.10, decayHighMul := 0.86),
         defaultPreDelay := 20.0, defaultDecay := 0.94, defaultDamping := 9000.0,
         defaultERLevel := 0.20, defaultERSize := 0.60)
    case Shimmer =>
      d.(features := f.(usePitchBlock := true),
         tank := WithMaps(t.(delayScale := 1.25, useHouseholder := true, inputDiffStages := 8,
                             inputDiffG := 0.78, modDepthMs := 7.5, modRateHz := 0.14,
                             decayLowMul := 1.06, decayHighMul := 0.82), SkySpread),
         defaultPreDelay := 30.0, defaultDecay := 0.95, defaultDamping := 8500.0,
         defaultERLevel := 0.16, defaultERSize := 0.62)
    case Magnetic =>
      d.(features := f.(useMagneticBlock := true),
         tank := t.(delayScale := 1.00, useHouseholder := true, inputDiffStages := 6,
                    inputDiffG := 0.72, modDepthMs := 5.5, modRateHz := 0.22,
                    decayLowMul := 1.04, decayHighMul := 0.88),
         defaultPreDelay := 10.0, defaultDecay := 0.90, defaultDamping := 10000.0,
         defaultERLevel := 0.18, defaultERSize := 0.55)
    case Granular =>
      d.(features := f.(useGranularBlock := true),
         tank := t.(delayScale := 1.10, useHouseholder := true, inputDiffStages := 7,
                    inputDiffG := 0.75, modDepthMs := 8.0, modRateHz := 0.16),
         defaultPreDelay := 10.0, defaultDecay := 0.92, defaultDamping := 10000.0)
    case Singularity =>
      d.(features := f.(useSingularity := true),
         tank := WithMaps(t.(delayScale := 1.45, useHouseholder := true, inputDiffStages := 8,
                             inputDiffG := 0.79, modDepthMs := 9.0, modRateHz := 0.12,
                             decayLowMul := 1.15, decayHighMul := 0.78), SkySpread),
         defaultPreDelay := 30.0, defaultDecay := 0.96, defaultDamping := 8200.0)
    case MicroCosmic =>
      d.(features := f.(useGranularBlock := true),
         tank := WithMaps(t.(delayScale := 1.20, useHouseholder := true, inputDiffStages := 7,
                             inputDiffG := 0.76, modDepthMs := 8.5, modRateHz := 0.14),
                          SkySpread),
         defaultPreDelay := 12.0, defaultDecay := 0.94, defaultDamping := 9500.0)
    case Count => d
    case Unknown(_) => d
  }

  /** `getModePreset`: the recipe with its stage count clamped to `[0, 8]`. */
  function GetModePreset(m: Mode): (c: ModeConfig)
    ensures c.mode == m
    ensures 0 <= c.tank.inputDiffStages <= MaxDiffStages
    ensures c.tank.delayLines == 16 && c.tank.tapPattern == 0 && c.tank.tapPatternLate == 1
    ensures c.tank.useHouseholder <==> m != Plate
    ensures c.tank.decayMidMul == 1.0
    ensures |c.tank.modDepthMul| == MapSize && |c.tank.modRateMul| == MapSize
  {
    var r := Recipe(m);
    r.(tank := r.tank.(inputDiffStages := ClampInt(r.tank.inputDiffStages, 0, MaxDiffStages)))
  }

  // ---------------------------------------------------------------------------------------
  // Properties of the table
  // ---------------------------------------------------------------------------------------

  /** The modes that switch on an optional block. */
  predicate HasBlock(m: Mode)
  {
    m == Spring || m == Blossom || m == Shimmer || m == Magnetic || m == Granular
      || m == Singularity || m == MicroCosmic
  }

  /** Each block belongs to one mode (the granular block to Granular and MicroCosmic), a mode
      switches on at most one block, and the modes with a block are Spring, every atmospheric
      mode but Sky and every experimental mode. */
  lemma PresetFeatures(m: Mode)
    ensures var f := GetModePreset(m).features;
            && (f.useSpringModel <==> m == Spring)
            && (f.useBlossomEnv <==> m == Blossom)
            && (f.usePitchBlock <==> m == Shimmer)
            && (f.useMagneticBlock <==> m == Magnetic)
            && (f.useSingularity <==> m == Singularity)
            && (f.useGranularBlock <==> m == Granular || m == MicroCosmic)
    ensures FlagCount(GetModePreset(m).features) == (if HasBlock(m) then 1 else 0)
    ensures HasBlock(m) <==> m == Spring || (IsAtmospheric(m) && m != Sky) || IsExperimental(m)
  {
  }

  /** `Count` and values that name no mode fall through the switch and get the defaults. */
  lemma OutOfRangeGetsDefaults(m: Mode)
    requires !(m in Named)
    ensures GetModePreset(m) == Defaults(m)
  {
  }

  /** The clamp at the end of `getModePreset` never changes a recipe: every stage count in
      the table is already in `[0, 8]`. */
  lemma StageClampIsIdentity(m: Mode)
    ensures GetModePreset(m) == Recipe(m)
  {
  }

  /** The spread whose maps a mode ends up with, by family: Plate and Vintage have their own,
      the Sky family (Sky, Shimmer, Singularity, MicroCosmic) shares Sky's, and everything else
      keeps the default spread. */
  function SpreadOf(m: Mode): Spread
  {
    if m == Plate then PlateSpread
    else if m == Vintage then VintageSpread
    else if m == Sky || m == Shimmer || m == Singularity || m == MicroCosmic then SkySpread
    else DefaultSpread
  }

  /** Every mode's maps are those of its family's spread. */
  lemma PresetSpread(m: Mode)
    ensures GetModePreset(m).tank.modDepthMul == FillModMap(SpreadOf(m)).depth
    ensures GetModePreset(m).tank.modRateMul == FillModMap(SpreadOf(m)).rate
  {
    match m
    case Room => assert SpreadOf(m) == DefaultSpread;
    case Hall => assert SpreadOf(m) == DefaultSpread;
    case Cathedral => assert SpreadOf(m) == DefaultSpread;
    case Plate => assert SpreadOf(m) == PlateSpread;
    case Spring => assert SpreadOf(m) == DefaultSpread;
    case Vintage => assert SpreadOf(m) == VintageSpread;
    case Sky => assert SpreadOf(m) == SkySpread;
    case Blossom => assert SpreadOf(m) == DefaultSpread;
    case Shimmer => assert SpreadOf(m) == SkySpread;
    case Magnetic => assert SpreadOf(m) == DefaultSpread;
    case Granular => assert SpreadOf(m) == DefaultSpread;
    case Singularity => assert SpreadOf(m) == SkySpread;
    case MicroCosmic => assert SpreadOf(m) == SkySpread;
    case Count => assert SpreadOf(m) == DefaultSpread;
    case Unknown(_) => assert SpreadOf(m) == DefaultSpread;
  }

  /** Widening the range of a `Within`. */
  lemma Widen(s: seq<real>, lo: real, hi: real, lo2: real, hi2: real)
    requires Within(s, lo, hi) && lo2 <= lo && hi <= hi2
    ensures Within(s, lo2, hi2)
  {
  }

  /** The four spreads rise, and lie within `[0.75, 1.25]` for depth and `[0.60, 1.30]` for
      rate. */
  lemma SpreadBounds(m: Mode)
    ensures var sp := SpreadOf(m);
            && sp.depthSpan >= 0.0 && sp.rateSpan >= 0.0
            && 0.75 <= sp.depthLo && sp.depthLo + sp.depthSpan <= 1.25
            && 0.60 <= sp.rateLo && sp.rateLo + sp.rateSpan <= 1.30
  {
  }

  /** Every mode's maps hold 16 multipliers, rise along the lines, and stay within
      `[0.75, 1.25]` for depth and `[0.60, 1.30]` for rate. */
  lemma {:induction false} PresetModMaps(m: Mode)
    ensures var t := GetModePreset(m).tank;
            |t.modDepthMul| == MapSize && |t.modRateMul| == MapSize
            && Nondecreasing(t.modDepthMul) && Nondecreasing(t.modRateMul)
            && Within(t.modDepthMul, 0.75, 1.25) && Within(t.modRateMul, 0.60, 1.30)
  {
    var sp := SpreadOf(m);
    SpreadBounds(m);
    FillModMapShape(sp);
    var maps := FillModMap(sp);
    Widen(maps.depth, sp.depthLo, sp.depthLo + sp.depthSpan, 0.75, 1.25);
    Widen(maps.rate, sp.rateLo, sp.rateLo + sp.rateSpan, 0.60, 1.30);
    PresetSpread(m);
  }

  /** The voicing every recipe keeps to: highs decay faster than mids, the late diffusion
      range is ordered, the delay scale lies in `[0.78, 1.45]`, and the suggested decay, mix
      and pre-delay are inside the ranges the engine clamps them to. */
  lemma PresetVoicing(m: Mode)
    ensures var c := GetModePreset(m);
            && c.tank.decayHighMul < c.tank.decayMidMul
            && 0.45 <= c.tank.lateDiffMinG <= c.tank.lateDiffMaxG <= 0.74
            && 0.66 <= c.tank.inputDiffG <= 0.79
            && 0.78 <= c.tank.delayScale <= 1.45
            && 0.0 < c.defaultDecay < 0.9995
            && 0.0 < c.defaultMix < 1.0
            && 0.0 <= c.defaultPreDelay <= 200.0
  {
  }
}

=== FILE: modes.dfy ===
/** The mode list of the platform (src/dsp/modes/Modes.h): thirteen modes in three
    categories, a `Count` sentinel, the display names and the category predicates. A mode is a
    recipe for the shared reverb core, not an engine of its own. */
module Modes {

  /** `enum class Mode : int`. The C++ enum can hold any `int`; a value that names no
      enumerator is `Unknown(value)`. */
  datatype Mode =
    | Room | Hall | Cathedral | Plate | Spring | Vintage
    | Sky | Blossom | Shimmer | Magnetic
    | Granular | Singularity | MicroCosmic
    | Count
    | Unknown(value: int)

  /** The underlying value of `Count`, one past the last mode. */
  const CountValue: int := 13

  /** `Unknown` only ever carries a value outside the enumerators. */
  predicate WellFormed(m: Mode)
  {
    m.Unknown? ==> m.value < 0 || m.value > CountValue
  }

  /** The thirteen modes in declaration order. */
  const Named: seq<Mode> :=
    [Room, Hall, Cathedral, Plate, Spring, Vintage, Sky, Blossom, Shimmer, Magnetic,
     Granular, Singularity, MicroCosmic]

  /** The `int` behind a mode: enumerators count up from `Room = 0` in declaration order. */
  function Value(m: Mode): (v: int)
    ensures m in Named ==> 0 <= v < CountValue
    ensures WellFormed(m) && !(m in Named) && !m.Count? ==> v < 0 || v > CountValue
  {
    match m
    case Room => 0
    case Hall => 1
    case Cathedral => 2
    case Plate => 3
    case Spring => 4
    case Vintage => 5
    case Sky => 6
    case Blossom => 7
    case Shimmer => 8
    case Magnetic => 9
    case Granular => 10
    case Singularity => 11
    case MicroCosmic => 12
    case Count => 13
    case Unknown(v) => v
  }

  /** The mode an `int` converts to (`static_cast<Mode>(v)`). */
  function OfValue(v: int): (m: Mode)
    ensures WellFormed(m)
    ensures 0 <= v < CountValue <==> m in Named
    ensures v == CountValue <==> m.Count?
  {
    if v == 0 then Room
    else if v == 1 then Hall
    else if v == 2 then Cathedral
    else if v == 3 then Plate
    else if v == 4 then Spring
    else if v == 5 then Vintage
    else if v == 6 then Sky
    else if v == 7 then Blossom
    else if v == 8 then Shimmer
    else if v == 9 then Magnetic
    else if v == 10 then Granular
    else if v == 11 then Singularity
    else if v == 12 then MicroCosmic
    else if v == 13 then Count
    else Unknown(v)
  }

  /** Converting to `int` and back is the identity in both directions, and the position of a
      mode in `Named` is its value. */
  lemma ValueRoundTrip(m: Mode, v: int)
    ensures WellFormed(m) ==> OfValue(Value(m)) == m
    ensures Value(OfValue(v)) == v
    ensures 0 <= v < CountValue ==> Named[v] == OfValue(v) && Value(Named[v]) == v
  {
  }

  /** The declaration order: `Room = 0`, ..., `MicroCosmic = 12`, `Count = 13`. */
  lemma {:induction false} DeclarationOrder()
    ensures |Named| == CountValue == Value(Count)
    ensures forall i :: 0 <= i < |Named| ==> Value(Named[i]) == i
    ensures forall i, j :: 0 <= i < j < |Named| ==> Named[i] != Named[j]
  {
    forall i | 0 <= i < |Named|
      ensures Value(Named[i]) == i
    {
      ValueRoundTrip(Named[i], i);
    }
    forall i, j | 0 <= i < j < |Named|
      ensures Named[i] != Named[j]
    {
      assert Value(Named[i]) == i && Value(Named[j]) == j;
    }
  }

  /** `modeToString`: the enumerator's own name, "Count" for the sentinel and "Unknown" for
      any other value. */
  function Name(m: Mode): (s: string)
    ensures s == "Unknown" <==> m.Unknown?
    ensures |s| > 0
  {
    match m
    case Room => "Room"
    case Hall => "Hall"
    case Cathedral => "Cathedral"
    case Plate => "Plate"
    case Spring => "Spring"
    case Vintage => "Vintage"
    case Sky => "Sky"
    case Blossom => "Blossom"
    case Shimmer => "Shimmer"
    case Magnetic => "Magnetic"
    case Granular => "Granular"
    case Singularity => "Singularity"
    case MicroCosmic => "MicroCosmic"
    case Count => "Count"
    case Unknown(_) => "Unknown"
  }

  /** Different enumerators have different names, so a name identifies its mode. */
  lemma NamesDistinct(a: Mode, b: Mode)
    requires !a.Unknown? && !b.Unknown?
    ensures Name(a) == Name(b) <==> a == b
  {
  }

  /** `isStaple`: the bread-and-butter spaces. */
  predicate IsStaple(m: Mode)
  {
    m == Room || m == Hall || m == Cathedral || m == Plate || m == Spring || m == Vintage
  }

  /** `isAtmospheric`: the signature spaces. */
  predicate IsAtmospheric(m: Mode)
  {
    m == Sky || m == Blossom || m == Shimmer || m == Magnetic
  }

  /** `isExperimental`: the special engines. */
  predicate IsExperimental(m: Mode)
  {
    m == Granular || m == Singularity || m == MicroCosmic
  }

  /** How many of the three category predicates hold. */
  function Categories(m: Mode): (k: nat)
    ensures k <= 3
  {
    (if IsStaple(m) then 1 else 0) + (if IsAtmospheric(m) then 1 else 0)
      + (if IsExperimental(m) then 1 else 0)
  }

  /** Every mode lies in exactly one category; `Count` and unknown values lie in none. */
  lemma Partition(m: Mode)
    ensures m in Named <==> Categories(m) == 1
    ensures !(m in Named) <==> Categories(m) == 0
  {
    NamedEnumerators(m);
  }

  /** The categories are consecutive runs of the enumeration: values 0 to 5, 6 to 9 and
      10 to 12. */
  lemma CategoriesAreRuns(m: Mode)
    requires WellFormed(m)
    ensures IsStaple(m) <==> 0 <= Value(m) <= 5
    ensures IsAtmospheric(m) <==> 6 <= Value(m) <= 9
    ensures IsExperimental(m) <==> 10 <= Value(m) <= 12
  {
  }

  /** The modes of each category. */
  function Staples(): set<Mode> { set m | m in Named && IsStaple(m) }
  function Atmospherics(): set<Mode> { set m | m in Named && IsAtmospheric(m) }
  function Experimentals(): set<Mode> { set m | m in Named && IsExperimental(m) }

  /** `Named` lists every enumerator but the sentinel. */
  lemma NamedEnumerators(m: Mode)
    ensures m in Named <==> !m.Count? && !m.Unknown?
  {
    match m
    case Count =>
    case Unknown(_) =>
    case _ =>
      assert Named[Value(m)] == m;
  }

  /** The staples are the first six modes. */
  lemma StapleMembers()
    ensures Staples() == {Room, Hall, Cathedral, Plate, Spring, Vintage}
    ensures |Staples()| == 6
  {
    StapleSet();
    StapleCount();
  }

  lemma StapleSet()
    ensures Staples() == {Room, Hall, Cathedral, Plate, Spring, Vintage}
  {
    forall m
      ensures m in Staples() <==> m in {Room, Hall, Cathedral, Plate, Spring, Vintage}
    {
      NamedEnumerators(m);
    }
  }

  lemma StapleCount()
    ensures |{Room, Hall, Cathedral, Plate, Spring, Vintage}| == 6
  {
    var s3 := {Room, Hall, Cathedral};
    assert {Room, Hall, Cathedral, Plate, Spring, Vintage} == s3 + {Plate} + {Spring} + {Vintage};
    assert |s3 + {Plate}| == 4;
    assert |s3 + {Plate} + {Spring}| == 5;
  }

  /** The atmospheric modes are the next four. */
  lemma AtmosphericMembers()
    ensures Atmospherics() == {Sky, Blossom, Shimmer, Magnetic}
    ensures |Atmospherics()| == 4
  {
    AtmosphericSet();
  }

  lemma AtmosphericSet()
    ensures Atmospherics() == {Sky, Blossom, Shimmer, Magnetic}
  {
    forall m
      ensures m in Atmospherics() <==> m in {Sky, Blossom, Shimmer, Magnetic}
    {
      NamedEnumerators(m);
    }
  }

  /** The experimental modes are the last three. */
  lemma ExperimentalMembers()
    ensures Experimentals() == {Granular, Singularity, MicroCosmic}
    ensures |Experimentals()| == 3
  {
    ExperimentalSet();
  }

  lemma ExperimentalSet()
    ensures Experimentals() == {Granular, Singularity, MicroCosmic}
  {
    forall m
      ensures m in Experimentals() <==> m in {Granular, Singularity, MicroCosmic}
    {
      NamedEnumerators(m);
    }
  }

  /** The three categories are disjoint and together make up every mode. */
  lemma CategoriesCover()
    ensures Staples() !! Atmospherics() && Staples() !! Experimentals()
    ensures Atmospherics() !! Experimentals()
    ensures forall m :: m in Named <==> m in Staples() + Atmospherics() + Experimentals()
  {
    forall m
      ensures m in Named <==> m in Staples() + Atmospherics() + Experimentals()
    {
      Partition(m);
    }
  }
}

=== FILE: noise.dfy ===
/** The `SmoothNoise` jitter source of src/dsp/common/Dsp.h: a 32-bit linear congruential
    generator whose bipolar draws are held for a period and smoothed by a one-pole filter. */
module Noise {
  import opened Dsp

  /** 2^32: every `uint32_t` operation of the generator is reduced modulo this. */
  const U32: int := 0x1_0000_0000

  const LcgMul: int := 1664525
  const LcgAdd: int := 1013904223

  /** 2^23: the float bit-cast keeps the top 23 bits of the state as mantissa. */
  const Mantissa: int := 0x80_0000

  datatype SmoothNoise = SmoothNoise(
    sr: real,
    rng: int,
    y: real,
    target: real,
    rateHz: real,
    samplesToNext: int,
    a: real)

  /** The member defaults of the struct. */
  function Default(): (n: SmoothNoise)
    ensures Valid(n) && n.samplesToNext == 1 && n.y == 0.0 && n.target == 0.0
  {
    SmoothNoise(48000.0, 0x1234_5678, 0.0, 0.0, 0.5, 1, 0.0)
  }

  /** The generator word is a `uint32_t`, and `rateHz` is never 0 (default 0.5, clamped by
      `setRateHz`), so the reload period `sr / rateHz` is always defined. */
  predicate Valid(n: SmoothNoise)
  {
    0 <= n.rng < U32 && n.rateHz > 0.0
  }

  /** `setSampleRate`: a rate of at most 1 Hz is replaced by 48000; nothing else changes. */
  function SetSampleRate(n: SmoothNoise, sampleRate: real): (m: SmoothNoise)
    ensures m.sr > 1.0 && m == n.(sr := m.sr)
    ensures sampleRate > 1.0 ==> m.sr == sampleRate
    ensures sampleRate <= 1.0 ==> m.sr == 48000.0
  {
    n.(sr := if sampleRate <= 1.0 then 48000.0 else sampleRate)
  }

  /** `seed(s)`: a zero seed is replaced by 1 so the generator never sticks at 0. */
  function Seed(n: SmoothNoise, s: int): (m: SmoothNoise)
    requires 0 <= s < U32
    ensures m.rng != 0 && 0 <= m.rng < U32
    ensures s != 0 ==> m.rng == s
    ensures m == n.(rng := m.rng)
  {
    n.(rng := if s == 0 then 1 else s)
  }

  /** One LCG step `rng := 1664525*rng + 1013904223` in `uint32_t` arithmetic. */
  function LcgStep(rng: int): (r: int)
    requires 0 <= rng < U32
    ensures 0 <= r < U32
    ensures (LcgMul * rng + LcgAdd - r) % U32 == 0
  {
    var v := LcgMul * rng + LcgAdd;
    assert v - v % U32 == U32 * (v / U32);
    v % U32
  }

  /** The bit-cast `(rng >> 9) | 0x3F800000` read as a float is `1 + (rng >> 9)/2^23`;
      subtracting 1 and mapping to bipolar gives `2*(rng >> 9)/2^23 - 1`. */
  function Bipolar(rng: int): (r: real)
    requires 0 <= rng < U32
    ensures -1.0 <= r < 1.0
    ensures rng < U32 / 2 ==> r < 0.0
    ensures U32 / 2 <= rng ==> r >= 0.0
  {
    var top := rng / 512;
    assert 0 <= top < Mantissa;
    2.0 * (top as real / Mantissa as real) - 1.0
  }

  /** `nextRandBipolar`: advance the generator, then draw from the new word. */
  function NextRandBipolar(n: SmoothNoise): (s: Step<SmoothNoise>)
    requires Valid(n)
    ensures Valid(s.state)
    ensures s.state == n.(rng := LcgStep(n.rng))
    ensures s.out == Bipolar(s.state.rng) && -1.0 <= s.out < 1.0
  {
    var rng := LcgStep(n.rng);
    Step(n.(rng := rng), Bipolar(rng))
  }

  /** `max(1, int(sr / rateHz))`: the hold period of one random target, in samples. */
  function Period(sr: real, rateHz: real): (p: int)
    requires rateHz > 0.0
    ensures p >= 1
    ensures sr / rateHz >= 1.0 ==> p as real <= sr / rateHz < p as real + 1.0
  {
    var q := Trunc(sr / rateHz);
    if 1 < q then q else 1
  }

  /** `setRateHz`: the rate is clamped to [0.01, 20] Hz and the countdown restarts. */
  function SetRateHz(n: SmoothNoise, hz: real): (m: SmoothNoise)
    ensures Valid(n) ==> Valid(m)
    ensures 0.01 <= m.rateHz <= 20.0
    ensures m.samplesToNext >= 1
    ensures m == n.(rateHz := m.rateHz, samplesToNext := m.samplesToNext)
  {
    var r := Clamp(hz, 0.01, 20.0);
    n.(rateHz := r, samplesToNext := Period(n.sr, r))
  }

  /** `clear()`: output, target and countdown are reset; the generator word is untouched. */
  function ClearNoise(n: SmoothNoise): (m: SmoothNoise)
    ensures m.rng == n.rng && m.rateHz == n.rateHz && m.a == n.a && m.sr == n.sr
    ensures m.y == 0.0 && m.target == 0.0 && m.samplesToNext == 1
  {
    n.(y := 0.0, target := 0.0, samplesToNext := 1)
  }

  /** The countdown/reload part of `process()`, shared by both copies of the header. */
  function Advance(n: SmoothNoise): (m: SmoothNoise)
    requires Valid(n)
    ensures Valid(m) && m.y == n.y && m.a == n.a && m.rateHz == n.rateHz && m.sr == n.sr
    ensures n.samplesToNext - 1 <= 0 ==>
              m.rng == LcgStep(n.rng) && m.target == Bipolar(m.rng) && m.samplesToNext >= 1
    ensures n.samplesToNext - 1 > 0 ==>
              m.rng == n.rng && m.target == n.target && m.samplesToNext == n.samplesToNext - 1
  {
    var c := n.(samplesToNext := n.samplesToNext - 1);
    if c.samplesToNext <= 0 then
      var draw := NextRandBipolar(c);
      draw.state.(target := draw.out, samplesToNext := Period(c.sr, c.rateHz))
    else
      c
  }

  /** The smoothing step `a*y + (1-a)*target` shared by both copies of the header. */
  function Smooth(a: real, y: real, target: real): (r: real)
    ensures 0.0 <= a <= 1.0 ==> Between(r, y, target)
  {
    ConvexBetween(y, target, a);
    a * y + (1.0 - a) * target
  }

  /** `process()` of the canonical header: advance, smooth towards the target, scrub
      denormals, and clamp the returned sample to [-1, 1]. */
  function Process(n: SmoothNoise): (s: Step<SmoothNoise>)
    requires Valid(n)
    ensures Valid(s.state)
    ensures -1.0 <= s.out <= 1.0
    ensures s.state.rng == Advance(n).rng && s.state.target == Advance(n).target
    ensures s.state.samplesToNext == Advance(n).samplesToNext
    ensures n.samplesToNext <= 1 ==> s.state.samplesToNext >= 1
    ensures 0.0 <= n.a <= 1.0 && -1.0 <= n.y <= 1.0 && -1.0 <= n.target <= 1.0 ==>
              s.out == s.state.y
  {
    var m := Advance(n);
    var y := KillDenorm(Smooth(m.a, m.y, m.target));
    Step(m.(y := y), Clamp(y, -1.0, 1.0))
  }

  /** The smoothed state stays inside [-1, 1] for ever once it starts there, so the clamp
      on the output of `process()` never changes the value. */
  lemma {:induction false} ProcessKeepsRange(n: SmoothNoise, k: nat)
    requires Valid(n) && 0.0 <= n.a <= 1.0 && -1.0 <= n.y <= 1.0 && -1.0 <= n.target <= 1.0
    ensures var m := Iterate(n, k);
            Valid(m) && -1.0 <= m.y <= 1.0 && -1.0 <= m.target <= 1.0 && m.a == n.a
  {
    if k > 0 {
      ProcessKeepsRange(n, k - 1);
      var m := Iterate(n, k - 1);
      var s := Process(m);
      var adv := Advance(m);
      ConvexBetween(adv.y, adv.target, adv.a);
    }
  }

  /** `k` successive calls of `process()`. */
  function Iterate(n: SmoothNoise, k: nat): (m: SmoothNoise)
    requires Valid(n)
    ensures Valid(m) && m.a == n.a && m.rateHz == n.rateHz
  {
    if k == 0 then n else Process(Iterate(n, k - 1)).state
  }
}

=== FILE: spinner.dfy ===
/** `StereoSpinner::rotate` (identical in both copies of the primitives header): a plane
    rotation of the stereo pair by an angle, with `cos` and `sin` as parameters. */
module Spinner {

  datatype Pair = Pair(l: real, r: real)

  /** Squared length of the stereo vector. */
  function Energy(p: Pair): real
  {
    p.l * p.l + p.r * p.r
  }

  /** `newL = c*L - s*R`, `newR = s*L + c*R` with `c = cos(angle)`, `s = sin(angle)`. */
  function Rotate(p: Pair, angle: real, cos: real -> real, sin: real -> real): (q: Pair)
    ensures angle == 0.0 && cos(0.0) == 1.0 && sin(0.0) == 0.0 ==> q == p
  {
    var c := cos(angle);
    var s := sin(angle);
    Pair(c * p.l - s * p.r, s * p.l + c * p.r)
  }

  /** Rotation by a unit vector `(c, s)` keeps `L^2 + R^2`. */
  lemma RotatePreservesEnergy(p: Pair, angle: real, cos: real -> real, sin: real -> real)
    requires cos(angle) * cos(angle) + sin(angle) * sin(angle) == 1.0
    ensures Energy(Rotate(p, angle, cos, sin)) == Energy(p)
  {
    var c := cos(angle);
    var s := sin(angle);
    var q := Rotate(p, angle, cos, sin);
    assert q.l * q.l == c * c * (p.l * p.l) - 2.0 * c * s * (p.l * p.r) + s * s * (p.r * p.r);
    assert q.r * q.r == s * s * (p.l * p.l) + 2.0 * c * s * (p.l * p.r) + c * c * (p.r * p.r);
    assert Energy(q) == (c * c + s * s) * (p.l * p.l) + (c * c + s * s) * (p.r * p.r);
  }

  /** Rotating by `-angle` undoes a rotation by `angle` for an even `cos` and an odd `sin`
      on the unit circle. */
  lemma RotateInverse(p: Pair, angle: real, cos: real -> real, sin: real -> real)
    requires cos(angle) * cos(angle) + sin(angle) * sin(angle) == 1.0
    requires cos(-angle) == cos(angle) && sin(-angle) == -sin(angle)
    ensures Rotate(Rotate(p, angle, cos, sin), -angle, cos, sin) == p
  {
    var c := cos(angle);
    var s := sin(angle);
    var q := Rotate(p, angle, cos, sin);
    var b := Rotate(q, -angle, cos, sin);
    assert b.l == c * q.l + s * q.r;
    assert c * q.l + s * q.r == (c * c + s * s) * p.l;
    assert b.r == -s * q.l + c * q.r;
    assert -s * q.l + c * q.r == (c * c + s * s) * p.r;
  }
}

=== FILE: sums.dfy ===
/** Finite sums over slices of a vector of line outputs: the plain sum used by the
    Householder mean and the sum of squares ("energy") used by the mixing-matrix lemmas. */
module Sums {

  function Sq(x: real): real
  {
    x * x
  }

  /** `v[lo] + ... + v[hi-1]`. */
  function Sum(v: seq<real>, lo: int, hi: int): real
    requires 0 <= lo <= hi <= |v|
    decreases hi - lo
  {
    if lo == hi then 0.0 else Sum(v, lo, hi - 1) + v[hi - 1]
  }

  /** `v[lo]^2 + ... + v[hi-1]^2`. */
  function Energy(v: seq<real>, lo: int, hi: int): (e: real)
    requires 0 <= lo <= hi <= |v|
    decreases hi - lo
  {
    if lo == hi then 0.0 else Energy(v, lo, hi - 1) + Sq(v[hi - 1])
  }

  /** A slice sum splits at any midpoint. */
  lemma {:induction false} SplitSum(v: seq<real>, lo: int, mid: int, hi: int)
    requires 0 <= lo <= mid <= hi <= |v|
    ensures Sum(v, lo, hi) == Sum(v, lo, mid) + Sum(v, mid, hi)
    ensures Energy(v, lo, hi) == Energy(v, lo, mid) + Energy(v, mid, hi)
    decreases hi - mid
  {
    if mid < hi {
      SplitSum(v, lo, mid, hi - 1);
    }
  }

  /** Sums only look at the slice they cover. */
  lemma {:induction false} SumsAgree(v: seq<real>, w: seq<real>, lo: int, hi: int)
    requires 0 <= lo <= hi <= |v| && hi <= |w|
    requires forall k :: lo <= k < hi ==> v[k] == w[k]
    ensures Sum(v, lo, hi) == Sum(w, lo, hi)
    ensures Energy(v, lo, hi) == Energy(w, lo, hi)
    decreases hi - lo
  {
    if lo < hi {
      SumsAgree(v, w, lo, hi - 1);
    }
  }

  /** Energy is never negative, and a slice has no energy exactly when every entry in it is
      zero; an all-zero slice also sums to zero. */
  lemma {:induction false} SilentSlice(v: seq<real>, lo: int, hi: int)
    requires 0 <= lo <= hi <= |v|
    ensures Energy(v, lo, hi) >= 0.0
    ensures Energy(v, lo, hi) == 0.0 <==> forall k :: lo <= k < hi ==> v[k] == 0.0
    ensures (forall k :: lo <= k < hi ==> v[k] == 0.0) ==> Sum(v, lo, hi) == 0.0
    decreases hi - lo
  {
    if lo < hi {
      SilentSlice(v, lo, hi - 1);
      SqZero(v[hi - 1]);
    }
  }

  /** A square is non-negative and vanishes only at zero. */
  lemma SqZero(x: real)
    ensures Sq(x) >= 0.0
    ensures Sq(x) == 0.0 <==> x == 0.0
  {
    if x < 0.0 {
      calc {
        Sq(x);
      ==
        (-x) * (-x);
      >
        0.0;
      }
    } else if x > 0.0 {
      calc {
        Sq(x);
      ==
        x * x;
      >
        0.0;
      }
    }
  }

  /** The energy of `w[lo..hi)` is `f` times that of `v[lo..hi)`. */
  predicate Scales(v: seq<real>, w: seq<real>, lo: int, hi: int, f: real)
    requires 0 <= lo <= hi <= |v| && hi <= |w|
  {
    Energy(w, lo, hi) == f * Energy(v, lo, hi)
  }

  /** A map that scales energy sends a slice with no energy to one with no energy. */
  lemma ScalesSilence(v: seq<real>, w: seq<real>, lo: int, hi: int, f: real)
    requires 0 <= lo <= hi <= |v| && hi <= |w|
    requires Scales(v, w, lo, hi, f) && Energy(v, lo, hi) == 0.0
    ensures Energy(w, lo, hi) == 0.0
  {
  }

  /** The product `a * b` as a function, so that equal factors give equal products without
      arithmetic. */
  function Times(a: real, b: real): real
  {
    a * b
  }

  /** `b^k`, built from `Times`. */
  function Power(b: real, k: nat): real
  {
    if k == 0 then 1.0 else Times(b, Power(b, k - 1))
  }

  lemma TimesAssoc(a: real, b: real, c: real)
    ensures Times(a, Times(b, c)) == Times(Times(a, b), c)
  {
  }

  /** Scaling every entry of a slice by `s` scales its sum by `s` and its energy by `s^2`. */
  lemma {:induction false} ScaleSums(v: seq<real>, w: seq<real>, s: real, lo: int, hi: int)
    requires 0 <= lo <= hi <= |v| && hi <= |w|
    requires forall k :: lo <= k < hi ==> w[k] == s * v[k]
    ensures Sum(w, lo, hi) == s * Sum(v, lo, hi)
    ensures Scales(v, w, lo, hi, Sq(s))
    decreases hi - lo
  {
    if lo < hi {
      ScaleSums(v, w, s, lo, hi - 1);
      var x := v[hi - 1];
      SqMul(s, x);
      Distrib(s, Sum(v, lo, hi - 1), x);
      Distrib(Sq(s), Energy(v, lo, hi - 1), Sq(x));
    }
  }

  /** Energy factors multiply along a chain of maps. */
  lemma ScalesChain(u: seq<real>, v: seq<real>, w: seq<real>, lo: int, hi: int, f: real, g: real)
    requires 0 <= lo <= hi <= |u| && hi <= |v| && hi <= |w|
    requires Scales(u, v, lo, hi, f) && Scales(v, w, lo, hi, g)
    ensures Scales(u, w, lo, hi, Times(g, f))
  {
  }

  /** Shifting every entry of a prefix by `-c` lowers its sum by `n*c`. */
  lemma {:induction false} ShiftSum(v: seq<real>, w: seq<real>, c: real, n: int)
    requires 0 <= n <= |v| && n <= |w|
    requires forall k :: 0 <= k < n ==> w[k] == v[k] - c
    ensures Sum(w, 0, n) == Sum(v, 0, n) - n as real * c
  {
    if n > 0 {
      ShiftSum(v, w, c, n - 1);
      Distrib(c, (n - 1) as real, 1.0);
    }
  }

  /** Shifting every entry of a prefix by `-c` changes its energy by `-2c*sum + n*c^2`. */
  lemma {:induction false} ShiftEnergy(v: seq<real>, w: seq<real>, c: real, n: int)
    requires 0 <= n <= |v| && n <= |w|
    requires forall k :: 0 <= k < n ==> w[k] == v[k] - c
    ensures Energy(w, 0, n) == Energy(v, 0, n) - 2.0 * c * Sum(v, 0, n) + n as real * Sq(c)
  {
    if n > 0 {
      ShiftEnergy(v, w, c, n - 1);
      var x := v[n - 1];
      var s := Sum(v, 0, n - 1);
      var e := Energy(v, 0, n - 1);
      assert w[n - 1] == x - c;
      ShiftStep(e, s, (n - 1) as real, x, c, Energy(w, 0, n - 1));
      assert Sum(v, 0, n) == s + x;
      assert 2.0 * c * Sum(v, 0, n) == 2.0 * c * (s + x);
      assert n as real * Sq(c) == ((n - 1) as real + 1.0) * Sq(c);
    }
  }

  /** The arithmetic of one induction step of `ShiftEnergy`. */
  lemma ShiftStep(e: real, s: real, m: real, x: real, c: real, ew: real)
    requires ew == e - 2.0 * c * s + m * Sq(c)
    ensures ew + Sq(x - c) == (e + Sq(x)) - 2.0 * c * (s + x) + (m + 1.0) * Sq(c)
  {
    SqDiff(x, c);
    Distrib(2.0 * c, s, x);
    Distrib(Sq(c), m, 1.0);
  }

  lemma SqMul(s: real, x: real)
    ensures Sq(s * x) == Sq(s) * Sq(x)
  {
    calc {
      Sq(s * x);
      (s * x) * (s * x);
      s * (x * (s * x));
      s * ((x * s) * x);
      s * ((s * x) * x);
      s * (s * (x * x));
      (s * s) * (x * x);
    }
  }

  lemma SqDiff(x: real, c: real)
    ensures Sq(x - c) == Sq(x) - 2.0 * c * x + Sq(c)
  {
    calc {
      Sq(x - c);
      (x - c) * (x - c);
      x * (x - c) - c * (x - c);
      x * x - x * c - (c * x - c * c);
    }
  }

  lemma Distrib(a: real, b: real, c: real)
    ensures a * b + a * c == a * (b + c)
    ensures b * a + c * a == (b + c) * a
  {
  }
}

=== FILE: tank.dfy ===
/** The late reverb tank of src/dsp/tail/Tank.cpp: up to 16 modulated delay lines read with
    cubic interpolation, mixed by a Hadamard or Householder matrix, and written back through
    a high-pass, a damping low-pass, a three-band decay and a soft saturator.
    `exp`, `sin`, `tanh` and `1/sqrt` are passed in as function values. */
module Tank {
  import opened Dsp
  import Delay
  import Noise
  import MultiLfo
  import Matrices
  import Sums

  /** `kMaxLines`, the size of every per-line array (the same 16 as the matrices'). */
  const MaxLines: int := 16

  datatype Config = Config(
    lines: int,
    matrix: Matrices.MatrixType,
    delaySamp: seq<real>,
    fbHpHz: real,
    dampHz: real,
    xoverLoHz: real,
    xoverHiHz: real,
    decayLowMul: real,
    decayMidMul: real,
    decayHighMul: real,
    drive: real,
    satMix: real,
    modDepthSamples: real,
    modRateHz: real,
    modDepthMul: seq<real>,
    modRateMul: seq<real>,
    jitterEnable: real,
    jitterAmount: real,
    jitterRateHz: real,
    jitterSmoothMs: real,
    dynEnable: real,
    dynAmount: real,
    dynMinHz: real,
    dynMaxHz: real,
    dynSensitivity: real,
    dynAtkMs: real,
    dynRelMs: real)

  /** The three per-line arrays of the configuration hold `kMaxLines` entries. */
  predicate Shaped(c: Config)
  {
    |c.delaySamp| == MaxLines && |c.modDepthMul| == MaxLines && |c.modRateMul| == MaxLines
  }

  /** The member initialisers of `Config`: 16 lines, Householder, decay multipliers
      1.08/1.00/0.90, drive 1.2, saturation mix 0.25, no modulation depth, zeroed arrays. */
  function DefaultConfig(): (c: Config)
    ensures Shaped(c) && c.lines == MaxLines && c.matrix == Matrices.Householder
    ensures c.decayLowMul == 1.08 && c.decayMidMul == 1.00 && c.decayHighMul == 0.90
    ensures c.drive == 1.2 && c.satMix == 0.25 && c.modDepthSamples == 0.0
  {
    Config(16, Matrices.Householder, Delay.Zeros(MaxLines), 30.0, 9000.0, 250.0, 3500.0,
           1.08, 1.00, 0.90, 1.2, 0.25, 0.0, 0.25, Delay.Zeros(MaxLines), Delay.Zeros(MaxLines),
           1.0, 0.35, 0.35, 80.0, 1.0, 0.65, 3500.0, 12000.0, 3.0, 12.0, 280.0)
  }

  /** The per-line state: the delay line, its feedback filters, its band-split filters and its
      jitter source (the source keeps each in its own array). */
  datatype Line = Line(
    delay: Delay.DelayLine,
    hp: OnePole,
    lp: OnePole,
    xLo: OnePole,
    xHi: OnePole,
    jitter: Noise.SmoothNoise)

  predicate LineValid(s: Line)
  {
    Delay.Valid(s.delay) && Noise.Valid(s.jitter) && s.jitter.sr > 0.0
  }

  predicate AllValid(ls: seq<Line>)
  {
    forall i :: 0 <= i < |ls| ==> LineValid(ls[i])
  }

  function DefaultLine(): (s: Line)
    ensures LineValid(s)
  {
    Line(Delay.DelayLine([], 0), OnePole(0.0, 0.0), OnePole(0.0, 0.0), OnePole(0.0, 0.0),
         OnePole(0.0, 0.0), Noise.Default())
  }

  datatype Tank = Tank(
    sr: real,
    inited: bool,
    cfg: Config,
    line: seq<Line>,
    env: Envelope,
    envSr: real,
    env01: real,
    dynDampHz: real,
    lastY: seq<real>,
    seed: int)

  /** Sixteen valid lines, a stored line count in [1, 16] (the default 16 or a clamped one),
      positive rates, and `env01` in [0, 1]. */
  predicate Valid(t: Tank)
  {
    t.sr > 0.0 && t.envSr > 0.0 && Shaped(t.cfg) && 1 <= t.cfg.lines <= MaxLines &&
    |t.line| == MaxLines && AllValid(t.line) && |t.lastY| == MaxLines &&
    0.0 <= t.env01 <= 1.0
  }

  /** A default-constructed `Tank`: rate 48000, the default configuration, no buffers, and
      `inited = false`. */
  function Default(): (t: Tank)
    ensures Valid(t) && !t.inited && t.cfg == DefaultConfig()
  {
    Tank(48000.0, false, DefaultConfig(), seq(MaxLines, _ => DefaultLine()),
         Envelope(0.0, 0.0, 0.0), 48000.0, 0.0, 9000.0, Delay.Zeros(MaxLines), 0x1234_5678)
  }

  /** `getConfig()` and `getEnv01()`. */
  function GetConfig(t: Tank): Config
  {
    t.cfg
  }

  function GetEnv01(t: Tank): (e: real)
    requires Valid(t)
    ensures 0.0 <= e <= 1.0
  {
    t.env01
  }

  // ---------------------------------------------------------------------------------------
  // Smoothing coefficients
  // ---------------------------------------------------------------------------------------

  /** `exp(-1 / (max(ms, 0.1) * 0.001 * sr))`, the time-constant coefficient shared by
      `SmoothNoise::setSmoothMs` and `EnvelopeFollower::setAttackReleaseMs`. */
  function Coefficient(ms: real, sr: real, exp: real -> real): (a: real)
    requires sr > 0.0
    ensures (forall x :: x < 0.0 ==> 0.0 < exp(x) < 1.0) ==> 0.0 < a < 1.0
  {
    var sec := Max(ms, 0.1) * 0.001;
    assert sec * sr > 0.0;
    exp(-1.0 / (sec * sr))
  }

  function SetSmoothMs(n: Noise.SmoothNoise, ms: real, exp: real -> real): (m: Noise.SmoothNoise)
    requires n.sr > 0.0
    ensures m == n.(a := m.a)
  {
    n.(a := Coefficient(ms, n.sr, exp))
  }

  function SetAttackRelease(e: Envelope, atkMs: real, relMs: real, sr: real, exp: real -> real): (f: Envelope)
    requires sr > 0.0
    ensures f.env == e.env
  {
    e.(aAtk := Coefficient(atkMs, sr, exp), aRel := Coefficient(relMs, sr, exp))
  }

  // ---------------------------------------------------------------------------------------
  // Lifecycle
  // ---------------------------------------------------------------------------------------

  /** One line of `clear()`: zeroed delay and cursor, filter states at 0, jitter reset. */
  function ClearLine(s: Line): (r: Line)
    requires LineValid(s)
    ensures LineValid(r)
    ensures Delay.AllZero(r.delay.buf) && r.delay.w == 0 && |r.delay.buf| == |s.delay.buf|
    ensures r.hp.z == 0.0 && r.lp.z == 0.0 && r.xLo.z == 0.0 && r.xHi.z == 0.0
    ensures r.hp.a == s.hp.a && r.lp.a == s.lp.a && r.xLo.a == s.xLo.a && r.xHi.a == s.xHi.a
    ensures r.jitter == Noise.ClearNoise(s.jitter)
  {
    Line(Delay.Clear(s.delay), ClearPole(s.hp), ClearPole(s.lp), ClearPole(s.xLo),
         ClearPole(s.xHi), Noise.ClearNoise(s.jitter))
  }

  /** `clear()`: every line flushed, the envelope and `env01` at 0, the dynamic cutoff back at
      the static one; configuration, rate and `inited` are kept. */
  function Clear(t: Tank): (u: Tank)
    requires Valid(t)
    ensures Valid(u) && u.env01 == 0.0 && u.env.env == 0.0 && u.dynDampHz == t.cfg.dampHz
    ensures forall i :: 0 <= i < MaxLines ==>
              Delay.AllZero(u.line[i].delay.buf) && u.line[i].delay.w == 0 && u.lastY[i] == 0.0 &&
              |u.line[i].delay.buf| == |t.line[i].delay.buf|
    ensures u.(line := t.line, lastY := t.lastY, env := t.env, env01 := t.env01, dynDampHz := t.dynDampHz) == t
  {
    t.(line := seq(MaxLines, i requires 0 <= i < MaxLines => ClearLine(t.line[i])),
       lastY := Delay.Zeros(MaxLines), env := ClearEnvelope(t.env), env01 := 0.0,
       dynDampHz := t.cfg.dampHz)
  }

  /** The jitter seed of line `i`: `seed + 0x9E3779B9 * (i + 1)` in `uint32_t` arithmetic. */
  function JitterSeed(seed: int, i: int): (s: int)
    ensures 0 <= s < Noise.U32
  {
    (seed + 0x9E37_79B9 * (i + 1)) % Noise.U32
  }

  /** One line of `init`: a zeroed delay of `m` samples, cleared filters, and a jitter source
      at rate `sr`, seeded per line, at 0.35 Hz with 80 ms smoothing. */
  function InitLine(s: Line, m: int, sr: real, seed: int, i: int, exp: real -> real): (r: Line)
    requires LineValid(s) && m >= 4
    ensures LineValid(r) && |r.delay.buf| == m && Delay.AllZero(r.delay.buf) && r.delay.w == 0
    ensures r.jitter.rng != 0 && (JitterSeed(seed, i) != 0 ==> r.jitter.rng == JitterSeed(seed, i))
  {
    var j0 := Noise.SetSampleRate(s.jitter, sr);
    var j1 := Noise.SetRateHz(Noise.Seed(j0, JitterSeed(seed, i)), 0.35);
    Line(Delay.Init(m), ClearPole(s.hp), ClearPole(s.lp), ClearPole(s.xLo), ClearPole(s.xHi),
         SetSmoothMs(j1, 80.0, exp))
  }

  /** `init(sampleRate, maxDelaySamples, seed)`: a zero seed becomes 1, every line gets
      `max(8, maxDelaySamples)` zeroed slots, the follower is set to 12/280 ms, and the tank is
      marked initialised and cleared. The stored configuration is not reapplied. */
  function Init(t: Tank, sampleRate: real, maxDelaySamples: int, seed: int, exp: real -> real): (u: Tank)
    requires Valid(t) && sampleRate > 0.0 && 0 <= seed < Noise.U32
    ensures Valid(u) && u.inited && u.sr == sampleRate && u.cfg == t.cfg && u.env01 == 0.0
    ensures u.seed == (if seed == 0 then 1 else seed)
    ensures forall i :: 0 <= i < MaxLines ==>
              |u.line[i].delay.buf| == (if maxDelaySamples < 8 then 8 else maxDelaySamples) &&
              Delay.AllZero(u.line[i].delay.buf) && u.line[i].delay.w == 0 && u.line[i].jitter.rng != 0
  {
    var s := if seed == 0 then 1 else seed;
    var m := if maxDelaySamples < 8 then 8 else maxDelaySamples;
    var envSr := if sampleRate <= 1.0 then 48000.0 else sampleRate;
    var lines := seq(MaxLines, i requires 0 <= i < MaxLines => InitLine(t.line[i], m, sampleRate, s, i, exp));
    var env := ClearEnvelope(SetAttackRelease(t.env, 12.0, 280.0, envSr, exp));
    Clear(t.(sr := sampleRate, seed := s, line := lines, lastY := Delay.Zeros(MaxLines),
             envSr := envSr, env := env, env01 := 0.0, inited := true))
  }

  /** One line of `setConfig`: the four filter cutoffs and the jitter rate and smoothing;
      the delay line and every filter state are kept. */
  function Retune(s: Line, c: Config, sr: real, exp: real -> real): (r: Line)
    requires LineValid(s) && sr > 0.0
    ensures LineValid(r) && r.delay == s.delay
    ensures r.hp.z == s.hp.z && r.lp.z == s.lp.z && r.xLo.z == s.xLo.z && r.xHi.z == s.xHi.z
    ensures r.jitter.rng == s.jitter.rng
  {
    var j := Noise.SetRateHz(s.jitter, c.jitterRateHz);
    s.(hp := SetCutoff(s.hp, c.fbHpHz, sr, exp), lp := SetCutoff(s.lp, c.dampHz, sr, exp),
       xLo := SetCutoff(s.xLo, c.xoverLoHz, sr, exp), xHi := SetCutoff(s.xHi, c.xoverHiHz, sr, exp),
       jitter := SetSmoothMs(j, c.jitterSmoothMs, exp))
  }

  /** `setConfig(c)`: stores `c` with the line count clamped to [1, 16], retunes the lines
      below that count only, and resets the follower's time constants. */
  function SetConfig(t: Tank, c: Config, exp: real -> real): (u: Tank)
    requires Valid(t) && Shaped(c)
    ensures Valid(u) && u.cfg == c.(lines := Matrices.ClampLines(c.lines))
    ensures forall i :: u.cfg.lines <= i < MaxLines ==> u.line[i] == t.line[i]
    ensures forall i :: 0 <= i < MaxLines ==> u.line[i].delay == t.line[i].delay
    ensures u.env.env == t.env.env
    ensures u.(cfg := t.cfg, line := t.line, env := t.env) == t
  {
    var cc := c.(lines := Matrices.ClampLines(c.lines));
    t.(cfg := cc,
       line := seq(MaxLines, i requires 0 <= i < MaxLines =>
                 if i < cc.lines then Retune(t.line[i], cc, t.sr, exp) else t.line[i]),
       env := SetAttackRelease(t.env, cc.dynAtkMs, cc.dynRelMs, t.envSr, exp))
  }

  /** `getConfig` returns what `setConfig` stored, with the line count clamped; storing a
      configuration twice is storing it once. */
  lemma ConfigRoundTrip(t: Tank, c: Config, exp: real -> real)
    requires Valid(t) && Shaped(c)
    ensures GetConfig(SetConfig(t, c, exp)) == c.(lines := Matrices.ClampLines(c.lines))
    ensures 1 <= c.lines <= MaxLines ==> GetConfig(SetConfig(t, c, exp)) == c
    ensures GetConfig(SetConfig(SetConfig(t, c, exp), c, exp)) == GetConfig(SetConfig(t, c, exp))
  {
  }

  // ---------------------------------------------------------------------------------------
  // Dynamic damping
  // ---------------------------------------------------------------------------------------

  /** `dynMaxHz + (dynMinHz - dynMaxHz) * e` with `e = clamp(env01 * dynSensitivity, 0, 1)`:
      quiet tails aim at `dynMaxHz`, loud ones at `dynMinHz`. */
  function DynamicTarget(c: Config, env01: real): (hz: real)
    ensures Between(hz, c.dynMinHz, c.dynMaxHz)
    ensures env01 * c.dynSensitivity <= 0.0 ==> hz == c.dynMaxHz
    ensures env01 * c.dynSensitivity >= 1.0 ==> hz == c.dynMinHz
  {
    var e := Clamp(env01 * c.dynSensitivity, 0.0, 1.0);
    ConvexBetween(c.dynMinHz, c.dynMaxHz, e);
    assert c.dynMaxHz + (c.dynMinHz - c.dynMaxHz) * e == e * c.dynMinHz + (1.0 - e) * c.dynMaxHz;
    c.dynMaxHz + (c.dynMinHz - c.dynMaxHz) * e
  }

  /** `computeDynamicDampingHz`: the static cutoff crossfaded towards the dynamic target by
      `dynAmount` clamped to [0, 1]. */
  function DynamicDampingHz(c: Config, staticHz: real, env01: real): (hz: real)
    ensures Between(hz, staticHz, DynamicTarget(c, env01))
    ensures c.dynAmount <= 0.0 ==> hz == staticHz
    ensures c.dynAmount >= 1.0 ==> hz == DynamicTarget(c, env01)
  {
    Crossfade(staticHz, DynamicTarget(c, env01), Clamp(c.dynAmount, 0.0, 1.0))
  }

  // ---------------------------------------------------------------------------------------
  // processSample, step 1: modulated reads
  // ---------------------------------------------------------------------------------------

  /** The configuration fields the read loop uses. */
  datatype ReadParams = ReadParams(
    delaySamp: seq<real>,
    modDepthSamples: real,
    modRateHz: real,
    modDepthMul: seq<real>,
    modRateMul: seq<real>,
    jitterEnable: real,
    jitterAmount: real)

  function ReadParamsOf(c: Config): (p: ReadParams)
    requires Shaped(c)
    ensures |p.delaySamp| == MaxLines && |p.modDepthMul| == MaxLines && |p.modRateMul| == MaxLines
  {
    ReadParams(c.delaySamp, c.modDepthSamples, c.modRateHz, c.modDepthMul, c.modRateMul,
               c.jitterEnable, c.jitterAmount)
  }

  predicate ParamsShaped(p: ReadParams)
  {
    |p.delaySamp| == MaxLines && |p.modDepthMul| == MaxLines && |p.modRateMul| == MaxLines
  }

  /** `modDepthSamples * (lfo * depthMul[i] + jitterEnable * jitterAmount * jit)`. */
  function Modulation(p: ReadParams, i: int, lfo: real, jit: real): (m: real)
    requires ParamsShaped(p) && 0 <= i < MaxLines
    ensures p.modDepthSamples == 0.0 ==> m == 0.0
  {
    p.modDepthSamples * (lfo * p.modDepthMul[i] + p.jitterEnable * p.jitterAmount * jit)
  }

  /** The jitter draw: `process()` when `jitterEnable > 0.0001`, else 0 with the source
      untouched. */
  function Jitter(p: ReadParams, n: Noise.SmoothNoise): (s: Step<Noise.SmoothNoise>)
    requires Noise.Valid(n)
    ensures Noise.Valid(s.state) && s.state.sr == n.sr && -1.0 <= s.out <= 1.0
    ensures p.jitterEnable <= 0.0001 ==> s == Step(n, 0.0)
  {
    if p.jitterEnable > 0.0001 then Noise.Process(n) else Step(n, 0.0)
  }

  datatype Reads = Reads(y: seq<real>, line: seq<Line>, bank: MultiLfo.MultiLFO, peak: real)

  predicate Silent(ls: seq<Line>)
  {
    forall i :: 0 <= i < |ls| ==> Delay.AllZero(ls[i].delay.buf)
  }

  /** The delay of line `i` for the given LFO and jitter draws. */
  function ReadDelay(p: ReadParams, i: int, lfo: real, jit: real): real
    requires ParamsShaped(p) && 0 <= i < MaxLines
  {
    p.delaySamp[i] + Modulation(p, i, lfo, jit)
  }

  /** The read loop over lines `0..k-1`: each draws its LFO value (the bank clamps the line
      index) and its jitter, reads its delay line at `delaySamp[i] + mod`, and records the
      read; `peak` is the largest magnitude read. Lines from `k` on are not read (`y` is 0). */
  function ReadLines(p: ReadParams, ls: seq<Line>, bank: MultiLfo.MultiLFO, k: int, sin: real -> real): (r: Reads)
    requires ParamsShaped(p) && |ls| == MaxLines && AllValid(ls) && MultiLfo.Valid(bank) && 0 <= k <= MaxLines
    ensures |r.y| == MaxLines && |r.line| == MaxLines && AllValid(r.line) && MultiLfo.Valid(r.bank)
    ensures forall i :: 0 <= i < MaxLines ==> r.line[i] == ls[i].(jitter := r.line[i].jitter)
    ensures forall i :: k <= i < MaxLines ==> r.y[i] == 0.0 && r.line[i] == ls[i]
    ensures r.peak >= 0.0 && forall i :: 0 <= i < k ==> Abs(r.y[i]) <= r.peak
    decreases k
  {
    if k == 0 then Reads(Delay.Zeros(MaxLines), ls, bank, 0.0)
    else
      var r := ReadLines(p, ls, bank, k - 1, sin);
      var i := k - 1;
      var lfo := MultiLfo.Process(r.bank, i, p.modRateHz * p.modRateMul[i], sin);
      var jit := Jitter(p, r.line[i].jitter);
      var yi := Delay.ReadFracCubic(ls[i].delay, ReadDelay(p, i, lfo.out, jit.out));
      Reads(r.y[i := yi], r.line[i := r.line[i].(jitter := jit.state)], lfo.state, Max(r.peak, Abs(yi)))
  }

  /** With no modulation depth every line is read at exactly its configured delay, whatever
      the LFO and jitter draws. */
  lemma {:induction false} ReadsUnmodulated(p: ReadParams, ls: seq<Line>, bank: MultiLfo.MultiLFO, k: int,
                                            sin: real -> real)
    requires ParamsShaped(p) && |ls| == MaxLines && AllValid(ls) && MultiLfo.Valid(bank) && 0 <= k <= MaxLines
    requires p.modDepthSamples == 0.0
    ensures forall i :: 0 <= i < k ==>
              ReadLines(p, ls, bank, k, sin).y[i] == Delay.ReadFracCubic(ls[i].delay, p.delaySamp[i])
  {
    if k > 0 {
      ReadsUnmodulated(p, ls, bank, k - 1, sin);
      var r := ReadLines(p, ls, bank, k - 1, sin);
      var lfo := MultiLfo.Process(r.bank, k - 1, p.modRateHz * p.modRateMul[k - 1], sin);
      var jit := Jitter(p, r.line[k - 1].jitter);
      assert ReadDelay(p, k - 1, lfo.out, jit.out) == p.delaySamp[k - 1];
    }
  }

  /** All-zero delay lines read 0 on every line, whatever the LFO and jitter draws. */
  lemma {:induction false} ReadsSilence(p: ReadParams, ls: seq<Line>, bank: MultiLfo.MultiLFO, k: int,
                                        sin: real -> real)
    requires ParamsShaped(p) && |ls| == MaxLines && AllValid(ls) && MultiLfo.Valid(bank) && 0 <= k <= MaxLines
    requires Silent(ls)
    ensures forall i :: 0 <= i < MaxLines ==> ReadLines(p, ls, bank, k, sin).y[i] == 0.0
  {
    if k > 0 {
      ReadsSilence(p, ls, bank, k - 1, sin);
      assert Delay.AllZero(ls[k - 1].delay.buf);
    }
  }

  // ---------------------------------------------------------------------------------------
  // processSample, step 4: filtered, band-weighted, saturated write-back
  // ---------------------------------------------------------------------------------------

  datatype Gains = Gains(low: real, mid: real, high: real)

  /** `clampf(baseDecay * mul, 0, 0.9997)`: a band gain is never 1 or more. */
  function BandGain(decay: real, mul: real): (g: real)
    ensures 0.0 <= g <= 0.9997
    ensures 0.0 <= decay * mul <= 0.9997 ==> g == decay * mul
  {
    Clamp(decay * mul, 0.0, 0.9997)
  }

  /** The three band gains from `baseDecay` clamped to [0, 0.9995]: every one lies in
      [0, 0.9997], below 1, for any decay and any multipliers. */
  function DecayGains(c: Config, baseDecay: real): (g: Gains)
    ensures 0.0 <= g.low <= 0.9997 && 0.0 <= g.mid <= 0.9997 && 0.0 <= g.high <= 0.9997
    ensures baseDecay <= 0.0 ==> g == Gains(0.0, 0.0, 0.0)
  {
    var d := Clamp(baseDecay, 0.0, 0.9995);
    Gains(BandGain(d, c.decayLowMul), BandGain(d, c.decayMidMul), BandGain(d, c.decayHighMul))
  }

  datatype Bands = Bands(low: real, mid: real, high: real)

  /** `mid = lowMid - low`, `high = fb - lowMid`: the three bands add back to the input. */
  function Split(fb: real, low: real, lowMid: real): (b: Bands)
    ensures b.low + b.mid + b.high == fb
    ensures b.low == low && b.low + b.mid == lowMid
  {
    Bands(low, lowMid - low, fb - lowMid)
  }

  /** `low*decLow + mid*decMid + high*decHigh`: with equal gains `d` it is `d` times the sum of
      the bands. */
  function Colour(b: Bands, g: Gains): (y: real)
    ensures g.low == g.mid == g.high ==> y == Sums.Times(g.low, b.low + b.mid + b.high)
  {
    b.low * g.low + b.mid * g.mid + b.high * g.high
  }

  datatype Filtered = Filtered(line: Line, sample: real, bands: Bands)

  /** The filter part of one write-back step: the damping low-pass is retuned to `dampHz`,
      the mixed sample runs through HP then LP, and the result is split by the two crossover
      low-passes. Only the four filters change. */
  function FilterLine(s: Line, fb: real, dampHz: real, sr: real, exp: real -> real): (f: Filtered)
    requires LineValid(s) && sr > 0.0
    ensures f.line == s.(hp := f.line.hp, lp := f.line.lp, xLo := f.line.xLo, xHi := f.line.xHi)
    ensures f.sample == LowPass(SetCutoff(s.lp, dampHz, sr, exp), HighPass(s.hp, fb).out).out
    ensures f.bands.low + f.bands.mid + f.bands.high == f.sample
  {
    var hp := HighPass(s.hp, fb);
    var lp := LowPass(SetCutoff(s.lp, dampHz, sr, exp), hp.out);
    var lo := LowPass(s.xLo, lp.out);
    var lm := LowPass(s.xHi, lp.out);
    Filtered(s.(hp := hp.state, lp := lp.state, xLo := lo.state, xHi := lm.state), lp.out, Split(lp.out, lo.out, lm.out))
  }

  /** Filters at rest fed 0 produce 0 in every band. */
  lemma FilterLineAtRest(s: Line, dampHz: real, sr: real, exp: real -> real)
    requires LineValid(s) && sr > 0.0
    requires s.hp.z == 0.0 && s.lp.z == 0.0 && s.xLo.z == 0.0 && s.xHi.z == 0.0
    ensures FilterLine(s, 0.0, dampHz, sr, exp).bands == Bands(0.0, 0.0, 0.0)
  {
    var hp := HighPass(s.hp, 0.0);
    assert hp.out == 0.0;
    var lp := LowPass(SetCutoff(s.lp, dampHz, sr, exp), hp.out);
    assert lp.out == 0.0;
    assert LowPass(s.xLo, lp.out).out == 0.0 && LowPass(s.xHi, lp.out).out == 0.0;
  }

  /** `fbFinal`: the band-weighted sample crossfaded with its saturated copy by `satMix`. With
      `satMix = 0` it is the weighted sample itself, so equal gains `d` give `d` times the
      filtered sample. */
  function FeedbackSample(b: Bands, g: Gains, c: Config, tanh: real -> real): (y: real)
    requires tanh(DriveGain(c.drive)) > 0.0
    ensures c.satMix == 0.0 ==> y == Colour(b, g)
    ensures c.satMix == 0.0 && g.low == g.mid == g.high ==> y == Sums.Times(g.low, b.low + b.mid + b.high)
    ensures b == Bands(0.0, 0.0, 0.0) && tanh(0.0) == 0.0 ==> y == 0.0
  {
    var coloured := Colour(b, g);
    Crossfade(coloured, SoftSat(coloured, c.drive, tanh), c.satMix)
  }

  datatype Fed = Fed(line: Line, x: real)

  /** One line of the write-back loop: the filtered, weighted and saturated sample plus the
      injection share is pushed into the delay line. */
  function FeedLine(s: Line, fb: real, dampHz: real, g: Gains, c: Config, share: real, sr: real,
                    exp: real -> real, tanh: real -> real): (f: Fed)
    requires LineValid(s) && sr > 0.0 && tanh(DriveGain(c.drive)) > 0.0
    ensures LineValid(f.line) && f.line.jitter == s.jitter
    ensures f.line.delay == Delay.Push(s.delay, f.x)
  {
    var filtered := FilterLine(s, fb, dampHz, sr, exp);
    var x := share + FeedbackSample(filtered.bands, g, c, tanh);
    Fed(filtered.line.(delay := Delay.Push(s.delay, x)), x)
  }

  /** With equal band gains `d` and no saturation a line writes its injection share plus `d`
      times its filtered sample. */
  lemma FeedLineUniformGain(s: Line, fb: real, dampHz: real, d: real, c: Config, share: real, sr: real,
                            exp: real -> real, tanh: real -> real)
    requires LineValid(s) && sr > 0.0 && tanh(DriveGain(c.drive)) > 0.0 && c.satMix == 0.0
    ensures FeedLine(s, fb, dampHz, Gains(d, d, d), c, share, sr, exp, tanh).x
            == share + Sums.Times(d, FilterLine(s, fb, dampHz, sr, exp).sample)
  {
    var f := FilterLine(s, fb, dampHz, sr, exp);
    assert FeedbackSample(f.bands, Gains(d, d, d), c, tanh) == Sums.Times(d, f.sample);
  }

  /** A line whose filters are at rest, fed a zero sample, writes exactly its injection share
      (for a `tanh` with `tanh(0) = 0`). */
  lemma FeedLineAtRest(s: Line, dampHz: real, g: Gains, c: Config, share: real, sr: real,
                       exp: real -> real, tanh: real -> real)
    requires LineValid(s) && sr > 0.0 && tanh(DriveGain(c.drive)) > 0.0 && tanh(0.0) == 0.0
    requires s.hp.z == 0.0 && s.lp.z == 0.0 && s.xLo.z == 0.0 && s.xHi.z == 0.0
    ensures FeedLine(s, 0.0, dampHz, g, c, share, sr, exp, tanh).x == share
  {
    FilterLineAtRest(s, dampHz, sr, exp);
  }

  /** `inj / N`, the injection share of each active line. */
  function InjectionShare(inj: real, n: int): real
    requires n >= 1
  {
    inj / n as real
  }

  /** The `N` shares add up to the injection. */
  lemma InjectionSpread(inj: real, n: int)
    requires n >= 1
    ensures Sums.Sum(seq(n, _ => InjectionShare(inj, n)), 0, n) == inj
  {
    var v := seq(n, _ => InjectionShare(inj, n));
    ConstantSum(v, InjectionShare(inj, n), n);
    assert Sums.Times(n as real, InjectionShare(inj, n)) == inj;
  }

  lemma {:induction false} ConstantSum(v: seq<real>, x: real, k: int)
    requires 0 <= k <= |v| && forall i :: 0 <= i < |v| ==> v[i] == x
    ensures Sums.Sum(v, 0, k) == Sums.Times(k as real, x)
  {
    if k > 0 {
      ConstantSum(v, x, k - 1);
      assert Sums.Sum(v, 0, k) == Sums.Sum(v, 0, k - 1) + v[k - 1];
    }
  }

  // ---------------------------------------------------------------------------------------
  // processSample
  // ---------------------------------------------------------------------------------------

  datatype Output = Output(tank: Tank, bank: MultiLfo.MultiLFO, yOut: seq<real>)

  /** The effective damping cutoff: dynamic when `dynEnable > 0.0001`, else the static one. */
  function DampingHz(c: Config, env01: real): (hz: real)
    ensures c.dynEnable <= 0.0001 ==> hz == c.dampHz
    ensures Between(hz, c.dampHz, DynamicTarget(c, env01))
  {
    if c.dynEnable > 0.0001 then DynamicDampingHz(c, c.dampHz, env01) else c.dampHz
  }

  /** The write-back loop: lines below `n` are fed their mixed sample, the rest are kept. */
  function WriteBack(ls: seq<Line>, m: seq<real>, n: int, dampHz: real, g: Gains, c: Config, share: real,
                     sr: real, exp: real -> real, tanh: real -> real): (r: seq<Line>)
    requires |ls| == MaxLines && AllValid(ls) && |m| == MaxLines && 0 <= n <= MaxLines
    requires sr > 0.0 && tanh(DriveGain(c.drive)) > 0.0
    ensures |r| == MaxLines && AllValid(r)
    ensures forall i :: n <= i < MaxLines ==> r[i] == ls[i]
    ensures forall i :: 0 <= i < n ==> r[i] == FeedLine(ls[i], m[i], dampHz, g, c, share, sr, exp, tanh).line
  {
    seq(MaxLines, i requires 0 <= i < MaxLines =>
      if i < n then FeedLine(ls[i], m[i], dampHz, g, c, share, sr, exp, tanh).line else ls[i])
  }

  /** The first `n` entries of `head`, the rest of `tail`. */
  function Splice(head: seq<real>, tail: seq<real>, n: int): (r: seq<real>)
    requires |head| == MaxLines && |tail| == MaxLines && 0 <= n <= MaxLines
    ensures |r| == MaxLines
    ensures forall i :: 0 <= i < n ==> r[i] == head[i]
    ensures forall i :: n <= i < MaxLines ==> r[i] == tail[i]
  {
    head[..n] + tail[n..]
  }

  /** `processSample(inj, baseDecay, lfoBank, yOut)`. Before `init` it zero-fills `yOut` and
      changes nothing else. Otherwise, with `N` the stored line count: reads lines `0..N-1`
      into `yOut` (the raw reads, before any mixing), updates the envelope, mixes a copy of
      the reads, and writes lines `0..N-1` back; lines from `N` on and their `yOut` entries
      are left alone. */
  function ProcessSample(t: Tank, inj: real, baseDecay: real, bank: MultiLfo.MultiLFO, yOut: seq<real>,
                         sin: real -> real, exp: real -> real, tanh: real -> real, rsqrt: real -> real): (o: Output)
    requires Valid(t) && MultiLfo.Valid(bank) && |yOut| == MaxLines
    requires tanh(DriveGain(t.cfg.drive)) > 0.0
    ensures Valid(o.tank) && MultiLfo.Valid(o.bank) && |o.yOut| == MaxLines
    ensures !t.inited ==> o == Output(t, bank, Delay.Zeros(MaxLines))
    ensures o.tank.cfg == t.cfg && o.tank.sr == t.sr && o.tank.inited == t.inited
    ensures t.inited ==> forall i :: t.cfg.lines <= i < MaxLines ==>
              o.yOut[i] == yOut[i] && o.tank.line[i] == t.line[i]
  {
    if !t.inited then Output(t, bank, Delay.Zeros(MaxLines))
    else
      var n := t.cfg.lines;
      var r := ReadLines(ReadParamsOf(t.cfg), t.line, bank, n, sin);
      var f := Follow(t.env, r.peak);
      var env01 := Clamp(f.out * 2.0, 0.0, 1.0);
      var m := Matrices.Mix(r.y, n, t.cfg.matrix, rsqrt);
      var lines := WriteBack(r.line, m, n, DampingHz(t.cfg, env01), DecayGains(t.cfg, baseDecay), t.cfg,
                             InjectionShare(inj, n), t.sr, exp, tanh);
      Output(t.(line := lines, env := f.state, env01 := env01, lastY := Splice(r.y, t.lastY, n)),
             r.bank, Splice(r.y, yOut, n))
  }

  /** The reads returned in `yOut` are the raw delay-line outputs: the matrix type does not
      reach them. */
  lemma OutputIgnoresMatrix(t: Tank, inj: real, baseDecay: real, bank: MultiLfo.MultiLFO, yOut: seq<real>,
                            sin: real -> real, exp: real -> real, tanh: real -> real, rsqrt: real -> real,
                            mt: Matrices.MatrixType)
    requires Valid(t) && MultiLfo.Valid(bank) && |yOut| == MaxLines
    requires tanh(DriveGain(t.cfg.drive)) > 0.0
    ensures ProcessSample(t.(cfg := t.cfg.(matrix := mt)), inj, baseDecay, bank, yOut, sin, exp, tanh, rsqrt).yOut
            == ProcessSample(t, inj, baseDecay, bank, yOut, sin, exp, tanh, rsqrt).yOut
  {
    if t.inited {
      assert ReadParamsOf(t.cfg.(matrix := mt)) == ReadParamsOf(t.cfg);
    }
  }

  /** With no modulation depth (the default) each active line is read at exactly its
      configured delay. */
  lemma UnmodulatedReads(t: Tank, inj: real, baseDecay: real, bank: MultiLfo.MultiLFO, yOut: seq<real>,
                         sin: real -> real, exp: real -> real, tanh: real -> real, rsqrt: real -> real)
    requires Valid(t) && MultiLfo.Valid(bank) && |yOut| == MaxLines
    requires tanh(DriveGain(t.cfg.drive)) > 0.0 && t.inited && t.cfg.modDepthSamples == 0.0
    ensures var o := ProcessSample(t, inj, baseDecay, bank, yOut, sin, exp, tanh, rsqrt);
            forall i :: 0 <= i < t.cfg.lines ==>
              o.yOut[i] == Delay.ReadFracCubic(t.line[i].delay, t.cfg.delaySamp[i])
  {
    ReadsUnmodulated(ReadParamsOf(t.cfg), t.line, bank, t.cfg.lines, sin);
  }

  /** After `clear()` the next sample reads silence on every active line, whatever the LFO
      bank, the jitter state, the injection or the decay. */
  lemma ClearedTankReadsSilence(t: Tank, inj: real, baseDecay: real, bank: MultiLfo.MultiLFO, yOut: seq<real>,
                                sin: real -> real, exp: real -> real, tanh: real -> real, rsqrt: real -> real)
    requires Valid(t) && MultiLfo.Valid(bank) && |yOut| == MaxLines
    requires tanh(DriveGain(t.cfg.drive)) > 0.0
    ensures var o := ProcessSample(Clear(t), inj, baseDecay, bank, yOut, sin, exp, tanh, rsqrt);
            forall i :: 0 <= i < t.cfg.lines ==> o.yOut[i] == 0.0
  {
    var u := Clear(t);
    assert Silent(u.line);
    if u.inited {
      ReadsSilence(ReadParamsOf(u.cfg), u.line, bank, u.cfg.lines, sin);
    }
  }

  /** The first `n` lines have their feedback filters at rest. */
  predicate FiltersAtRest(ls: seq<Line>, n: int)
    requires 0 <= n <= |ls|
  {
    forall i :: 0 <= i < n ==> ls[i].hp.z == 0.0 && ls[i].lp.z == 0.0 && ls[i].xLo.z == 0.0 && ls[i].xHi.z == 0.0
  }

  /** Lines whose filters are at rest, fed silence from the matrix, each write exactly the
      injection share (for a `tanh` with `tanh(0) = 0`). */
  lemma WriteBackAtRest(ls: seq<Line>, m: seq<real>, n: int, dampHz: real, g: Gains, c: Config, share: real,
                        sr: real, exp: real -> real, tanh: real -> real)
    requires |ls| == MaxLines && AllValid(ls) && |m| == MaxLines && 0 <= n <= MaxLines
    requires sr > 0.0 && tanh(DriveGain(c.drive)) > 0.0 && tanh(0.0) == 0.0
    requires forall i :: 0 <= i < n ==> m[i] == 0.0
    requires FiltersAtRest(ls, n)
    ensures forall i :: 0 <= i < n ==>
              WriteBack(ls, m, n, dampHz, g, c, share, sr, exp, tanh)[i].delay == Delay.Push(ls[i].delay, share)
  {
    forall i | 0 <= i < n
      ensures WriteBack(ls, m, n, dampHz, g, c, share, sr, exp, tanh)[i].delay == Delay.Push(ls[i].delay, share)
    {
      FeedLineAtRest(ls[i], dampHz, g, c, share, sr, exp, tanh);
    }
  }

  /** Reading silent lines whose filters are at rest yields zeros and leaves the delays and
      the filters as they were. */
  lemma ReadsAtRest(p: ReadParams, ls: seq<Line>, bank: MultiLfo.MultiLFO, k: int, sin: real -> real)
    requires ParamsShaped(p) && |ls| == MaxLines && AllValid(ls) && MultiLfo.Valid(bank) && 0 <= k <= MaxLines
    requires Silent(ls) && FiltersAtRest(ls, MaxLines)
    ensures var r := ReadLines(p, ls, bank, k, sin);
            (forall i :: 0 <= i < MaxLines ==> r.y[i] == 0.0 && r.line[i].delay == ls[i].delay) &&
            FiltersAtRest(r.line, MaxLines)
  {
    var r := ReadLines(p, ls, bank, k, sin);
    ReadsSilence(p, ls, bank, k, sin);
    forall i | 0 <= i < MaxLines
      ensures r.line[i].delay == ls[i].delay
      ensures r.line[i].hp.z == 0.0 && r.line[i].lp.z == 0.0 && r.line[i].xLo.z == 0.0 && r.line[i].xHi.z == 0.0
    {
      assert r.line[i] == ls[i].(jitter := r.line[i].jitter);
    }
  }

  /** A tank with silent lines and filters at rest writes exactly `inj / N` into every active
      line on its next sample: the reads are silent, either matrix mixes silence to silence,
      and filters at rest colour a zero sample to zero (for a `tanh` with `tanh(0) = 0`). */
  lemma QuietStepWritesInjection(t: Tank, inj: real, baseDecay: real, bank: MultiLfo.MultiLFO, yOut: seq<real>,
                                 sin: real -> real, exp: real -> real, tanh: real -> real, rsqrt: real -> real)
    requires Valid(t) && MultiLfo.Valid(bank) && |yOut| == MaxLines
    requires tanh(DriveGain(t.cfg.drive)) > 0.0 && tanh(0.0) == 0.0
    requires t.inited && Silent(t.line) && FiltersAtRest(t.line, MaxLines)
    ensures var o := ProcessSample(t, inj, baseDecay, bank, yOut, sin, exp, tanh, rsqrt);
            forall i :: 0 <= i < t.cfg.lines ==>
              o.tank.line[i].delay == Delay.Push(t.line[i].delay, InjectionShare(inj, t.cfg.lines))
  {
    var n := t.cfg.lines;
    var r := ReadLines(ReadParamsOf(t.cfg), t.line, bank, n, sin);
    var m := Matrices.Mix(r.y, n, t.cfg.matrix, rsqrt);
    var env01 := Clamp(Follow(t.env, r.peak).out * 2.0, 0.0, 1.0);
    var lines := WriteBack(r.line, m, n, DampingHz(t.cfg, env01), DecayGains(t.cfg, baseDecay), t.cfg,
                           InjectionShare(inj, n), t.sr, exp, tanh);
    assert ProcessSample(t, inj, baseDecay, bank, yOut, sin, exp, tanh, rsqrt).tank.line == lines;
    QuietWriteBack(t, r, m, lines, n, DampingHz(t.cfg, env01), DecayGains(t.cfg, baseDecay), InjectionShare(inj, n),
                   bank, sin, exp, tanh, rsqrt);
  }

  /** The write side of `QuietStepWritesInjection`, for the reads, mix and write-back the step
      computes. */
  lemma QuietWriteBack(t: Tank, r: Reads, m: seq<real>, lines: seq<Line>, n: int, dampHz: real, g: Gains,
                       share: real, bank: MultiLfo.MultiLFO, sin: real -> real, exp: real -> real,
                       tanh: real -> real, rsqrt: real -> real)
    requires Valid(t) && MultiLfo.Valid(bank) && n == t.cfg.lines
    requires tanh(DriveGain(t.cfg.drive)) > 0.0 && tanh(0.0) == 0.0
    requires Silent(t.line) && FiltersAtRest(t.line, MaxLines)
    requires r == ReadLines(ReadParamsOf(t.cfg), t.line, bank, n, sin)
    requires m == Matrices.Mix(r.y, n, t.cfg.matrix, rsqrt)
    requires lines == WriteBack(r.line, m, n, dampHz, g, t.cfg, share, t.sr, exp, tanh)
    ensures forall i :: 0 <= i < n ==> lines[i].delay == Delay.Push(t.line[i].delay, share)
  {
    ReadsAtRest(ReadParamsOf(t.cfg), t.line, bank, n, sin);
    Matrices.MixSilence(r.y, n, t.cfg.matrix, rsqrt);
    WriteBackAtRest(r.line, m, n, dampHz, g, t.cfg, share, t.sr, exp, tanh);
  }

  /** After `clear()` the first sample of an initialised tank writes exactly `inj / N` into
      every active line. */
  lemma ClearedTankWritesInjection(t: Tank, inj: real, baseDecay: real, bank: MultiLfo.MultiLFO, yOut: seq<real>,
                                   sin: real -> real, exp: real -> real, tanh: real -> real, rsqrt: real -> real)
    requires Valid(t) && MultiLfo.Valid(bank) && |yOut| == MaxLines
    requires tanh(DriveGain(t.cfg.drive)) > 0.0 && tanh(0.0) == 0.0
    ensures var o := ProcessSample(Clear(t), inj, baseDecay, bank, yOut, sin, exp, tanh, rsqrt);
            t.inited ==> forall i :: 0 <= i < t.cfg.lines ==>
              o.tank.line[i].delay == Delay.Push(Clear(t).line[i].delay, InjectionShare(inj, t.cfg.lines))
  {
    var u := Clear(t);
    if u.inited {
      forall i | 0 <= i < MaxLines
        ensures u.line[i].hp.z == 0.0 && u.line[i].lp.z == 0.0 && u.line[i].xLo.z == 0.0 && u.line[i].xHi.z == 0.0
      {
        assert u.line[i] == ClearLine(t.line[i]);
      }
      assert Silent(u.line);
      QuietStepWritesInjection(u, inj, baseDecay, bank, yOut, sin, exp, tanh, rsqrt);
    }
  }

  /** A default-constructed tank outputs silence and keeps its state. */
  lemma FreshTankIsSilent(inj: real, baseDecay: real, bank: MultiLfo.MultiLFO, yOut: seq<real>,
                          sin: real -> real, exp: real -> real, tanh: real -> real, rsqrt: real -> real)
    requires MultiLfo.Valid(bank) && |yOut| == MaxLines && tanh(DriveGain(1.2)) > 0.0
    ensures ProcessSample(Default(), inj, baseDecay, bank, yOut, sin, exp, tanh, rsqrt)
            == Output(Default(), bank, Delay.Zeros(MaxLines))
  {
  }
}

=== FILE: tap_patterns.dfy ===
/** The output tap patterns of the tank (src/dsp/tail/TapPatterns.cpp/.h): each pattern folds
    the 16 line outputs into a stereo pair as a signed, tap-count-normalised sum, and
    `renderMorphingPattern` blends two patterns linearly. */
module TapPatterns {
  import opened Dsp
  import Sums
  import Matrices

  /** The stereo pair `(wetL, wetR)`. */
  datatype Wet = Wet(l: real, r: real)
  {
    /** Both channels multiplied by `c`. */
    function Scale(c: real): Wet
    {
      Wet(Sums.Times(c, l), Sums.Times(c, r))
    }
  }

  /** C's `i / n` for `n > 0`, truncated toward zero. */
  function CQuot(i: int, n: int): int
    requires n > 0
    decreases if i >= 0 then i else -i
  {
    if -n < i < n then 0
    else if i >= n then CQuot(i - n, n) + 1
    else CQuot(i + n, n) - 1
  }

  /** C's `i % n` for `n > 0`: the quotient truncates toward zero, so a nonzero remainder
      takes the sign of `i`. */
  function CRem(i: int, n: int): (r: int)
    requires n > 0
    ensures -n < r < n
    ensures i >= 0 ==> r >= 0
    ensures i <= 0 ==> r <= 0
    decreases if i >= 0 then i else -i
  {
    if -n < i < n then i
    else if i >= n then CRem(i - n, n)
    else CRem(i + n, n)
  }

  /** The division identity of C: `(i / n) * n + i % n == i`. */
  lemma {:induction false} CQuotRem(i: int, n: int)
    requires n > 0
    ensures CQuot(i, n) * n + CRem(i, n) == i
    decreases if i >= 0 then i else -i
  {
    if -n < i < n {
    } else if i >= n {
      CQuotRem(i - n, n);
      assert (CQuot(i - n, n) + 1) * n == CQuot(i - n, n) * n + n;
    } else {
      CQuotRem(i + n, n);
      assert (CQuot(i + n, n) - 1) * n == CQuot(i + n, n) * n - n;
    }
  }

  /** The steps of `wrapIndex(i, n)`: 0 for `n <= 0`; otherwise `i %= n` with C's remainder,
      then `n` is added to a negative remainder. */
  function WrapSteps(i: int, n: int): (r: int)
    ensures n <= 0 ==> r == 0
    ensures n > 0 ==> 0 <= r < n
  {
    if n <= 0 then 0
    else
      var r := CRem(i, n);
      if r < 0 then r + n else r
  }

  /** `wrapIndex(i, n)` as the residue it computes: 0 for `n <= 0`, else the Euclidean
      residue of `i` modulo `n` (`WrapIndexSteps`). */
  function WrapIndex(i: int, n: int): (r: int)
    ensures n <= 0 ==> r == 0
    ensures n > 0 ==> 0 <= r < n
  {
    if n <= 0 then 0 else i % n
  }

  lemma {:induction false} MulAtLeast(a: int, n: int)
    requires a >= 1 && n > 0
    ensures a * n >= n
  {
    if a > 1 {
      MulAtLeast(a - 1, n);
      assert a * n == (a - 1) * n + n;
    }
  }

  /** The Euclidean residue is the only `r` in `[0, n)` with `i = q*n + r`. */
  lemma ModUnique(i: int, n: int, q: int, r: int)
    requires n > 0 && 0 <= r < n && i == q * n + r
    ensures i % n == r
  {
    var k := q - i / n;
    assert k * n == i % n - r;
    if k >= 1 {
      MulAtLeast(k, n);
      assert false;
    } else if k <= -1 {
      MulAtLeast(-k, n);
      assert false;
    }
  }

  /** The steps of the source compute the residue: the C remainder, shifted by `n` when
      negative, is `i` modulo `n`. */
  lemma WrapIndexSteps(i: int, n: int)
    ensures WrapSteps(i, n) == WrapIndex(i, n)
  {
    if n <= 0 {
      return;
    }
    CQuotRem(i, n);
    var q := CQuot(i, n);
    if CRem(i, n) < 0 {
      assert i == (q - 1) * n + (CRem(i, n) + n);
      ModUnique(i, n, q - 1, CRem(i, n) + n);
    } else {
      ModUnique(i, n, q, CRem(i, n));
    }
  }

  /** The pattern selector: `pid = patternId % 4` with C's remainder, plus 4 when
      negative. */
  function PatternId(p: int): (pid: int)
    ensures 0 <= pid < 4
    ensures pid == p % 4
  {
    var r := if p >= 0 then p % 4 else -((-p) % 4);
    if r < 0 then r + 4 else r
  }

  const TapsL0: seq<int> := [0, 2, 5, 7, 9, 12, 14]
  const TapsR0: seq<int> := [1, 3, 4, 6, 10, 13, 15]
  const Taps1: seq<int> := [0, 3, 5, 8, 11, 13]
  const TapsL2: seq<int> := [2, 6, 9, 12]
  const TapsR2: seq<int> := [1, 7, 10, 15]

  /** `s * x` for tap `t` of a sequence whose signs alternate: `s = (t & 1) ? -1 : 1` when
      `plusFirst`, the opposite sequence `s = (t & 1) ? 1 : -1` otherwise. */
  function Signed(t: int, plusFirst: bool, x: real): real
  {
    if (t % 2 == 1) == plusFirst then -x else x
  }

  /** Every index lies in `[0, n)`. */
  predicate InRange(idx: seq<int>, n: int)
  {
    forall k :: 0 <= k < |idx| ==> 0 <= idx[k] < n
  }

  /** The lines a tap table reads: `wrapIndex(taps[t], lines)` for each tap. */
  function Wrapped(taps: seq<int>, lines: int): (idx: seq<int>)
    requires 1 <= lines
    ensures |idx| == |taps| && InRange(idx, lines)
  {
    seq(|taps|, t requires 0 <= t < |taps| => WrapIndex(taps[t], lines))
  }

  /** `sum += s * y[idx[t]]` over all taps, the sign alternating from `first`. */
  function TapSum(y: seq<real>, idx: seq<int>, first: bool): real
    requires InRange(idx, |y|)
  {
    if |idx| == 0 then 0.0
    else TapSum(y, idx[..|idx| - 1], first) + Signed(|idx| - 1, first, y[idx[|idx| - 1]])
  }

  /** The tap loop of patterns 0 to 2. */
  method TapLoop(y: seq<real>, taps: seq<int>, lines: int, first: bool) returns (sum: real)
    requires |y| == Matrices.MaxLines && 1 <= lines <= Matrices.MaxLines
    ensures sum == TapSum(y, Wrapped(taps, lines), first)
  {
    ghost var all := Wrapped(taps, lines);
    sum := 0.0;
    var t := 0;
    while t < |taps|
      invariant 0 <= t <= |taps|
      invariant sum == TapSum(y, all[..t], first)
    {
      var idx := WrapIndex(taps[t], lines);
      var s := if (t % 2 == 1) == first then -1.0 else 1.0;
      assert all[..t + 1][..t] == all[..t];
      sum := sum + s * y[idx];
      t := t + 1;
    }
    assert all[..|taps|] == all;
  }

  /** The wrapped tap tables of patterns 0 to 2 for one line count: L and R of pattern 0, the
      shared table of pattern 1, L and R of pattern 2. */
  datatype Layout = Layout(l0: seq<int>, r0: seq<int>, t1: seq<int>, l2: seq<int>, r2: seq<int>)

  /** Every table of `t` has as many taps as the source table and reads lines below `n`. */
  predicate Fits(t: Layout, n: int)
  {
    |t.l0| == |TapsL0| && |t.r0| == |TapsR0| && |t.t1| == |Taps1| &&
    |t.l2| == |TapsL2| && |t.r2| == |TapsR2| &&
    InRange(t.l0, n) && InRange(t.r0, n) && InRange(t.t1, n) && InRange(t.l2, n) && InRange(t.r2, n)
  }

  /** The tables `wrapIndex(taps[t], lines)` of patterns 0 to 2. */
  function Tables(n: int): (t: Layout)
    requires 1 <= n <= Matrices.MaxLines
    ensures Fits(t, n)
  {
    Layout(Wrapped(TapsL0, n), Wrapped(TapsR0, n), Wrapped(Taps1, n), Wrapped(TapsL2, n), Wrapped(TapsR2, n))
  }

  /** Every entry of a wrapped table is what the steps of `wrapIndex` give for its tap. */
  lemma WrappedSteps(taps: seq<int>, lines: int)
    requires 1 <= lines
    ensures forall t :: 0 <= t < |taps| ==> Wrapped(taps, lines)[t] == WrapSteps(taps[t], lines)
  {
    forall t | 0 <= t < |taps|
      ensures Wrapped(taps, lines)[t] == WrapSteps(taps[t], lines)
    {
      WrapIndexSteps(taps[t], lines);
    }
  }

  /** The tables hold `wrapIndex(taps[t], n)` for every tap of the source tables; with all 16
      lines active every tap reads its own line. */
  lemma TablesWrap(n: int)
    requires 1 <= n <= Matrices.MaxLines
    ensures n == Matrices.MaxLines ==> Tables(n) == Layout(TapsL0, TapsR0, Taps1, TapsL2, TapsR2)
    ensures forall t :: 0 <= t < |TapsL0| ==> Tables(n).l0[t] == WrapSteps(TapsL0[t], n)
    ensures forall t :: 0 <= t < |TapsR0| ==> Tables(n).r0[t] == WrapSteps(TapsR0[t], n)
    ensures forall t :: 0 <= t < |Taps1| ==> Tables(n).t1[t] == WrapSteps(Taps1[t], n)
    ensures forall t :: 0 <= t < |TapsL2| ==> Tables(n).l2[t] == WrapSteps(TapsL2[t], n)
    ensures forall t :: 0 <= t < |TapsR2| ==> Tables(n).r2[t] == WrapSteps(TapsR2[t], n)
  {
    WrappedSteps(TapsL0, n);
    WrappedSteps(TapsR0, n);
    WrappedSteps(Taps1, n);
    WrappedSteps(TapsL2, n);
    WrappedSteps(TapsR2, n);
  }

  /** `1/taps` when there are taps, else 1. */
  function Norm(taps: int): real
  {
    if taps > 0 then 1.0 / taps as real else 1.0
  }

  /** Pattern 0, "wide balanced": seven taps per side, R with the opposite sign sequence, each
      side scaled by `1/7`. */
  function Pattern0(y: seq<real>, t: Layout): Wet
    requires Fits(t, |y|)
  {
    Wet(TapSum(y, t.l0, true) * Norm(|t.l0|), TapSum(y, t.r0, false) * Norm(|t.r0|))
  }

  /** Pattern 1, "more centered": the same six taps on both sides with opposite signs, scaled
      by `1/6`. */
  function Pattern1(y: seq<real>, t: Layout): Wet
    requires Fits(t, |y|)
  {
    Wet(TapSum(y, t.t1, true) * Norm(|t.t1|), TapSum(y, t.t1, false) * Norm(|t.t1|))
  }

  /** Pattern 2, "airy": four taps per side, scaled by 0.25. */
  function Pattern2(y: seq<real>, t: Layout): Wet
    requires Fits(t, |y|)
  {
    Wet(TapSum(y, t.l2, true) * 0.25, TapSum(y, t.r2, false) * 0.25)
  }

  /** The running state of the loop of pattern 3. */
  datatype Acc = Acc(sumL: real, sumR: real, tapsL: int, tapsR: int)

  /** The loop of pattern 3 after the indices `i < n`: an even `i` adds `s * y[i]` to L with
      `s = 1`, an odd `i` adds `-s * y[i]` to R with `s = -1`, so both add `y[i]`; each side
      counts its taps. */
  function Pattern3Loop(y: seq<real>, n: int): Acc
    requires 0 <= n <= |y|
  {
    if n == 0 then Acc(0.0, 0.0, 0, 0)
    else
      var a := Pattern3Loop(y, n - 1);
      var i := n - 1;
      if i % 2 == 0 then a.(sumL := a.sumL + y[i], tapsL := a.tapsL + 1)
      else a.(sumR := a.sumR + y[i], tapsR := a.tapsR + 1)
  }

  /** `y[start] + y[start + 2] + ... `, `count` terms: the reference for the sums of pattern 3. */
  function StrideSum(y: seq<real>, start: int, count: int): real
    requires 0 <= start && 0 <= count && start + 2 * count <= |y| + 1
  {
    if count == 0 then 0.0 else StrideSum(y, start, count - 1) + y[start + 2 * (count - 1)]
  }

  /** The loop of pattern 3 adds the even-indexed lines into L and the odd-indexed lines into
      R, and counts `ceil(n/2)` and `floor(n/2)` taps. */
  lemma {:induction false} Pattern3Sums(y: seq<real>, n: int)
    requires 0 <= n <= |y|
    ensures Pattern3Loop(y, n).tapsL == (n + 1) / 2 && Pattern3Loop(y, n).tapsR == n / 2
    ensures Pattern3Loop(y, n).sumL == StrideSum(y, 0, (n + 1) / 2)
    ensures Pattern3Loop(y, n).sumR == StrideSum(y, 1, n / 2)
  {
    if n > 0 {
      Pattern3Sums(y, n - 1);
    }
  }

  /** The outputs of pattern 3 from the state of its loop: each sum normalised by its own
      tap count. */
  function Pattern3Out(a: Acc): Wet
  {
    Wet(a.sumL * Norm(a.tapsL), a.sumR * Norm(a.tapsR))
  }

  /** Pattern 3, "very wide", over the first `n` lines. */
  function Pattern3(y: seq<real>, n: int): Wet
    requires 1 <= n <= |y|
  {
    Pattern3Out(Pattern3Loop(y, n))
  }

  /** Pattern 3 puts the mean of the even-indexed active lines on L and the mean of the
      odd-indexed ones on R, each over its own tap count; with one line R is 0. */
  lemma Pattern3Means(y: seq<real>, n: int)
    requires 1 <= n <= |y|
    ensures Pattern3(y, n).l == Sums.Times(StrideSum(y, 0, (n + 1) / 2), Norm((n + 1) / 2))
    ensures Pattern3(y, n).r == Sums.Times(StrideSum(y, 1, n / 2), Norm(n / 2))
    ensures n == 1 ==> Pattern3(y, n).r == 0.0
  {
    Pattern3Sums(y, n);
  }

  lemma {:induction false} StrideSumConst(y: seq<real>, start: int, count: int, n: int, c: real)
    requires 0 <= start && 0 <= count && start + 2 * count <= n + 1 && n <= |y|
    requires forall k :: 0 <= k < n ==> y[k] == c
    ensures StrideSum(y, start, count) == Sums.Times(count as real, c)
  {
    if count > 0 {
      StrideSumConst(y, start, count - 1, n, c);
      Sums.Distrib(c, (count - 1) as real, 1.0);
    }
  }

  /** `k` copies of `c`, normalised by `k`, give `c`. */
  lemma NormCancel(k: int, c: real)
    requires k > 0
    ensures Sums.Times(Sums.Times(k as real, c), Norm(k)) == c
  {
    var kr := k as real;
    assert kr * (1.0 / kr) == 1.0;
    assert (kr * c) * (1.0 / kr) == c * (kr * (1.0 / kr));
  }

  /** Each side of pattern 3 is a mean: when every active line carries `c`, both outputs are
      `c`, except that R is 0 with a single line. */
  lemma Pattern3Constant(y: seq<real>, n: int, c: real)
    requires 1 <= n <= |y|
    requires forall k :: 0 <= k < n ==> y[k] == c
    ensures Pattern3(y, n).l == c
    ensures n >= 2 ==> Pattern3(y, n).r == c
    ensures n == 1 ==> Pattern3(y, n).r == 0.0
  {
    Pattern3Means(y, n);
    StrideSumConst(y, 0, (n + 1) / 2, n, c);
    NormCancel((n + 1) / 2, c);
    if n >= 2 {
      StrideSumConst(y, 1, n / 2, n, c);
      NormCancel(n / 2, c);
    }
  }

  /** The loop of pattern 3 as the source writes it, with the sign `s` of each index. */
  method Pattern3InPlace(y: seq<real>, lines: int) returns (w: Wet)
    requires 1 <= lines <= |y|
    ensures w == Pattern3(y, lines)
  {
    var sumL, sumR, tapsL, tapsR := Pattern3Loops(y, lines);
    w := Wet(sumL * Norm(tapsL), sumR * Norm(tapsR));
  }

  /** The loop of pattern 3 over the first `lines` lines. */
  method Pattern3Loops(y: seq<real>, lines: int) returns (sumL: real, sumR: real, tapsL: int, tapsR: int)
    requires 0 <= lines <= |y|
    ensures Acc(sumL, sumR, tapsL, tapsR) == Pattern3Loop(y, lines)
  {
    sumL, sumR := 0.0, 0.0;
    tapsL, tapsR := 0, 0;
    var i := 0;
    while i < lines
      invariant 0 <= i <= lines
      invariant Acc(sumL, sumR, tapsL, tapsR) == Pattern3Loop(y, i)
    {
      var s := if i % 2 == 1 then -1.0 else 1.0;
      if i % 2 == 0 {
        assert s == 1.0;
        sumL := sumL + s * y[i];
        tapsL := tapsL + 1;
      } else {
        assert -s == 1.0;
        sumR := sumR + (-s) * y[i];
        tapsR := tapsR + 1;
      }
      i := i + 1;
    }
  }

  /** The switch of `renderTapPattern` on a reduced pattern id, over given tap tables:
      pattern 0 for any id other than 1, 2 and 3. */
  function RenderWith(y: seq<real>, n: int, pid: int, t: Layout): Wet
    requires 1 <= n <= |y| && Fits(t, n)
  {
    if pid == 1 then Pattern1(y, t)
    else if pid == 2 then Pattern2(y, t)
    else if pid == 3 then Pattern3(y, n)
    else Pattern0(y, t)
  }

  /** `renderTapPattern`: lines clamped to [1, 16], the pattern id reduced modulo 4, then the
      pattern with its tables wrapped to the active lines. */
  function Render(y: seq<real>, lines: int, patternId: int): Wet
    requires |y| == Matrices.MaxLines
  {
    var n := Matrices.ClampLines(lines);
    RenderWith(y, n, PatternId(patternId), Tables(n))
  }

  /** Only the reduced id selects the pattern: ids with the same residue modulo 4 render the
      same pair. */
  lemma RenderById(y: seq<real>, lines: int, a: int, b: int)
    requires |y| == Matrices.MaxLines
    ensures PatternId(a) == PatternId(b) ==> Render(y, lines, a) == Render(y, lines, b)
  {
    if PatternId(a) == PatternId(b) {
      var n := Matrices.ClampLines(lines);
      assert Render(y, lines, a) == RenderWith(y, n, PatternId(b), Tables(n));
    }
  }

  /** Ids that differ by a multiple of 4 reduce to the same pattern id. */
  lemma SameResidue(a: int, b: int)
    ensures (a - b) % 4 == 0 ==> PatternId(a) == PatternId(b)
  {
    if (a - b) % 4 == 0 {
      var q := (a - b) / 4;
      assert a == b + 4 * q;
      ShiftResidue(b, q);
    }
  }

  lemma ShiftResidue(p: int, k: int)
    ensures PatternId(p + 4 * k) == PatternId(p)
  {
    var r := p / 4;
    ResidueOf(p + 4 * k, r + k, p % 4);
  }

  lemma ResidueOf(x: int, q: int, r: int)
    requires x == 4 * q + r && 0 <= r < 4
    ensures x % 4 == r
  {
  }

  /** Pattern ids that differ by a multiple of 4 render the same pattern; -1 renders
      pattern 3 and 5 renders pattern 1. */
  lemma RenderPeriodic(y: seq<real>, lines: int, p: int, k: int)
    requires |y| == Matrices.MaxLines
    ensures Render(y, lines, p + 4 * k) == Render(y, lines, p)
    ensures PatternId(-1) == 3 && PatternId(5) == 1
  {
    ShiftResidue(p, k);
    RenderById(y, lines, p + 4 * k, p);
  }

  // ---------------------------------------------------------------------------------------
  // Only the active lines count

  lemma {:induction false} TapSumLocal(y: seq<real>, z: seq<real>, idx: seq<int>, n: int, first: bool)
    requires 0 <= n <= |y| && n <= |z| && InRange(idx, n)
    requires forall k :: 0 <= k < n ==> y[k] == z[k]
    ensures TapSum(y, idx, first) == TapSum(z, idx, first)
  {
    if |idx| > 0 {
      TapSumLocal(y, z, idx[..|idx| - 1], n, first);
    }
  }

  lemma {:induction false} Pattern3Local(y: seq<real>, z: seq<real>, n: int)
    requires 0 <= n <= |y| && n <= |z|
    requires forall k :: 0 <= k < n ==> y[k] == z[k]
    ensures Pattern3Loop(y, n) == Pattern3Loop(z, n)
  {
    if n > 0 {
      Pattern3Local(y, z, n - 1);
    }
  }

  /** Vectors that agree on the first `n` lines give the same pattern 0, 1 and 2 over
      tables that read only those lines. */
  lemma TapPatternsLocal(y: seq<real>, z: seq<real>, n: int, t: Layout)
    requires 0 <= n <= |y| && n <= |z| && Fits(t, n)
    requires forall k :: 0 <= k < n ==> y[k] == z[k]
    ensures Pattern0(y, t) == Pattern0(z, t)
    ensures Pattern1(y, t) == Pattern1(z, t)
    ensures Pattern2(y, t) == Pattern2(z, t)
  {
    TapSumLocal(y, z, t.l0, n, true);
    TapSumLocal(y, z, t.r0, n, false);
    TapSumLocal(y, z, t.t1, n, true);
    TapSumLocal(y, z, t.t1, n, false);
    TapSumLocal(y, z, t.l2, n, true);
    TapSumLocal(y, z, t.r2, n, false);
  }

  /** Over tables that read only the first `n` lines, vectors that agree there render the
      same pair. */
  lemma RenderWithLocal(y: seq<real>, z: seq<real>, n: int, pid: int, t: Layout)
    requires 1 <= n <= |y| && n <= |z| && Fits(t, n)
    requires forall k :: 0 <= k < n ==> y[k] == z[k]
    ensures RenderWith(y, n, pid, t) == RenderWith(z, n, pid, t)
  {
    TapPatternsLocal(y, z, n, t);
    Pattern3Local(y, z, n);
  }

  /** Every tap goes through `wrapIndex(., lines)` or the loop `i < lines`, so two vectors
      that agree on the active lines render the same pair. */
  lemma RenderLocal(y: seq<real>, z: seq<real>, lines: int, p: int)
    requires |y| == Matrices.MaxLines && |z| == Matrices.MaxLines
    requires forall k :: 0 <= k < Matrices.ClampLines(lines) ==> y[k] == z[k]
    ensures Render(y, lines, p) == Render(z, lines, p)
  {
    var n := Matrices.ClampLines(lines);
    var t := Tables(n);
    var pid := PatternId(p);
    RenderWithLocal(y, z, n, pid, t);
    assert Render(y, lines, p) == RenderWith(y, n, pid, t);
    assert Render(z, lines, p) == RenderWith(z, n, pid, t);
  }

  // ---------------------------------------------------------------------------------------
  // Pattern 1 is antisymmetric

  lemma {:induction false} TapSumNeg(y: seq<real>, idx: seq<int>, first: bool)
    requires InRange(idx, |y|)
    ensures TapSum(y, idx, !first) == -TapSum(y, idx, first)
  {
    if |idx| > 0 {
      TapSumNeg(y, idx[..|idx| - 1], first);
    }
  }

  lemma NegMul(a: real, b: real)
    ensures (-a) * b == -(a * b)
  {
  }

  /** Pattern 1 gives `wetR = -wetL` exactly. */
  lemma Pattern1Antisymmetric(y: seq<real>, lines: int, p: int)
    requires |y| == Matrices.MaxLines && PatternId(p) == 1
    ensures Render(y, lines, p).r == -Render(y, lines, p).l
  {
    var n := Matrices.ClampLines(lines);
    var t := Tables(n);
    TapSumNeg(y, t.t1, true);
    NegMul(TapSum(y, t.t1, true), Norm(|t.t1|));
  }

  // ---------------------------------------------------------------------------------------
  // Bounds: a normalised sum of +-1 taps stays within the largest active magnitude

  /** `m` bounds the magnitude of every active line. */
  predicate Bounded(y: seq<real>, n: int, m: real)
    requires 0 <= n <= |y|
  {
    forall k :: 0 <= k < n ==> Abs(y[k]) <= m
  }

  /** `|s| <= k * m`. */
  predicate Within(s: real, k: real, m: real)
  {
    Abs(s) <= k * m
  }

  /** One more term of magnitude at most `m` raises the bound `k * m` to `(k + 1) * m`. */
  lemma AbsAdd(s: real, t: real, u: real, k: real, k1: real, m: real)
    requires u == s + t && k1 == k + 1.0 && Within(s, k, m) && Abs(t) <= m
    ensures Within(u, k1, m)
  {
  }

  lemma {:induction false} TapSumBound(y: seq<real>, idx: seq<int>, n: int, first: bool, m: real)
    requires 0 <= n <= |y| && InRange(idx, n)
    requires Bounded(y, n, m)
    ensures Within(TapSum(y, idx, first), |idx| as real, m)
  {
    if |idx| > 0 {
      TapSumBound(y, idx[..|idx| - 1], n, first, m);
      assert Abs(y[idx[|idx| - 1]]) <= m;
      AbsAdd(TapSum(y, idx[..|idx| - 1], first), Signed(|idx| - 1, first, y[idx[|idx| - 1]]),
             TapSum(y, idx, first), |idx[..|idx| - 1]| as real, |idx| as real, m);
    }
  }

  lemma {:induction false} StrideSumBound(y: seq<real>, start: int, count: int, n: int, m: real)
    requires 0 <= start && 0 <= count && start + 2 * count <= n + 1 && 0 <= n <= |y|
    requires Bounded(y, n, m)
    ensures Within(StrideSum(y, start, count), count as real, m)
  {
    if count > 0 {
      StrideSumBound(y, start, count - 1, n, m);
      assert Abs(y[start + 2 * (count - 1)]) <= m;
      AbsAdd(StrideSum(y, start, count - 1), y[start + 2 * (count - 1)], StrideSum(y, start, count),
             (count - 1) as real, count as real, m);
    }
  }

  /** A sum `s` of `k` terms bounded by `m`, normalised to `x = s * (1/k)`, is bounded by `m`. */
  lemma NormBound(s: real, k: int, m: real, x: real)
    requires k > 0 && Within(s, k as real, m) && x == Sums.Times(s, Norm(k))
    ensures Abs(x) <= m
  {
    var kr := k as real;
    var inv := 1.0 / kr;
    assert inv * kr == 1.0;
    assert x * kr == s * (inv * kr);
    ScaledBound(s, kr, m, x);
  }

  /** `|x * kr| <= kr * m` with `kr > 0` gives `|x| <= m`. */
  lemma ScaledBound(s: real, kr: real, m: real, x: real)
    requires kr > 0.0 && Abs(s) <= kr * m && x * kr == s
    ensures Abs(x) <= m
  {
    if x > m {
      assert x * kr > m * kr;
    } else if x < -m {
      assert x * kr < (-m) * kr;
    }
  }

  /** One side `x` of a tap-table pattern stays within the bound of the lines it reads. */
  lemma TapSideBound(y: seq<real>, idx: seq<int>, n: int, first: bool, m: real, x: real)
    requires 0 <= n <= |y| && InRange(idx, n) && |idx| > 0
    requires Bounded(y, n, m)
    requires x == Sums.Times(TapSum(y, idx, first), Norm(|idx|))
    ensures Abs(x) <= m
  {
    TapSumBound(y, idx, n, first, m);
    NormBound(TapSum(y, idx, first), |idx|, m, x);
  }

  lemma Pattern3Bound(y: seq<real>, n: int, m: real)
    requires 1 <= n <= |y| && Bounded(y, n, m)
    ensures Abs(Pattern3(y, n).l) <= m && Abs(Pattern3(y, n).r) <= m
  {
    var w := Pattern3(y, n);
    Pattern3Means(y, n);
    StrideSumBound(y, 0, (n + 1) / 2, n, m);
    NormBound(StrideSum(y, 0, (n + 1) / 2), (n + 1) / 2, m, w.l);
    if n >= 2 {
      StrideSumBound(y, 1, n / 2, n, m);
      NormBound(StrideSum(y, 1, n / 2), n / 2, m, w.r);
    } else {
      assert Abs(y[0]) <= m;
    }
  }

  /** Over tables that read only the first `n` lines, neither output exceeds the largest
      magnitude among those lines. */
  lemma RenderWithBounded(y: seq<real>, n: int, pid: int, t: Layout, m: real)
    requires 1 <= n <= |y| && Fits(t, n) && Bounded(y, n, m)
    ensures Abs(RenderWith(y, n, pid, t).l) <= m && Abs(RenderWith(y, n, pid, t).r) <= m
  {
    var w := RenderWith(y, n, pid, t);
    if pid == 1 {
      TapSideBound(y, t.t1, n, true, m, w.l);
      TapSideBound(y, t.t1, n, false, m, w.r);
    } else if pid == 2 {
      assert Norm(|t.l2|) == 0.25 && Norm(|t.r2|) == 0.25;
      TapSideBound(y, t.l2, n, true, m, w.l);
      TapSideBound(y, t.r2, n, false, m, w.r);
    } else if pid == 3 {
      Pattern3Bound(y, n, m);
    } else {
      TapSideBound(y, t.l0, n, true, m, w.l);
      TapSideBound(y, t.r0, n, false, m, w.r);
    }
  }

  /** Every pattern is a tap-count-normalised sum of active lines with signs +-1, so neither
      output exceeds the largest active magnitude. */
  lemma RenderBounded(y: seq<real>, lines: int, p: int, m: real)
    requires |y| == Matrices.MaxLines && Bounded(y, Matrices.ClampLines(lines), m)
    ensures Abs(Render(y, lines, p).l) <= m && Abs(Render(y, lines, p).r) <= m
  {
    var n := Matrices.ClampLines(lines);
    RenderWithBounded(y, n, PatternId(p), Tables(n), m);
  }

  // ---------------------------------------------------------------------------------------
  // Linearity

  /** Every line output multiplied by `c`. */
  function ScaleAll(y: seq<real>, c: real): (z: seq<real>)
    ensures |z| == |y| && forall k :: 0 <= k < |y| ==> z[k] == c * y[k]
  {
    seq(|y|, k requires 0 <= k < |y| => c * y[k])
  }

  lemma {:induction false} TapSumLinear(y: seq<real>, c: real, idx: seq<int>, first: bool)
    requires InRange(idx, |y|)
    ensures TapSum(ScaleAll(y, c), idx, first) == Sums.Times(c, TapSum(y, idx, first))
  {
    if |idx| > 0 {
      TapSumLinear(y, c, idx[..|idx| - 1], first);
      Sums.Distrib(c, TapSum(y, idx[..|idx| - 1], first), Signed(|idx| - 1, first, y[idx[|idx| - 1]]));
    }
  }

  lemma {:induction false} StrideSumLinear(y: seq<real>, c: real, start: int, count: int)
    requires 0 <= start && 0 <= count && start + 2 * count <= |y| + 1
    ensures StrideSum(ScaleAll(y, c), start, count) == Sums.Times(c, StrideSum(y, start, count))
  {
    if count > 0 {
      StrideSumLinear(y, c, start, count - 1);
      Sums.Distrib(c, StrideSum(y, start, count - 1), y[start + 2 * (count - 1)]);
    }
  }

  /** `(c * s) * k == c * (s * k)`. */
  lemma TimesAssoc(c: real, s: real, k: real)
    ensures Sums.Times(Sums.Times(c, s), k) == Sums.Times(c, Sums.Times(s, k))
  {
  }

  /** One side of a tap-table pattern, `x` for the lines `y` and `z` for the lines scaled by
      `c`, scales with the lines. */
  lemma TapSideLinear(y: seq<real>, c: real, idx: seq<int>, first: bool, k: real, x: real, z: real)
    requires InRange(idx, |y|)
    requires x == Sums.Times(TapSum(y, idx, first), k)
    requires z == Sums.Times(TapSum(ScaleAll(y, c), idx, first), k)
    ensures z == Sums.Times(c, x)
  {
    TapSumLinear(y, c, idx, first);
    TimesAssoc(c, TapSum(y, idx, first), k);
  }

  /** One sum of pattern 3, `x` for the lines `y` and `z` for the lines scaled by `c`, scales
      with the lines. */
  lemma StrideSideLinear(y: seq<real>, c: real, start: int, count: int, k: real, x: real, z: real)
    requires 0 <= start && 0 <= count && start + 2 * count <= |y| + 1
    requires x == Sums.Times(StrideSum(y, start, count), k)
    requires z == Sums.Times(StrideSum(ScaleAll(y, c), start, count), k)
    ensures z == Sums.Times(c, x)
  {
    StrideSumLinear(y, c, start, count);
    TimesAssoc(c, StrideSum(y, start, count), k);
  }

  lemma Pattern0Linear(y: seq<real>, c: real, t: Layout)
    requires Fits(t, |y|)
    ensures Pattern0(ScaleAll(y, c), t) == Pattern0(y, t).Scale(c)
  {
    var w := Pattern0(y, t);
    var v := Pattern0(ScaleAll(y, c), t);
    TapSideLinear(y, c, t.l0, true, Norm(|t.l0|), w.l, v.l);
    TapSideLinear(y, c, t.r0, false, Norm(|t.r0|), w.r, v.r);
  }

  lemma Pattern1Linear(y: seq<real>, c: real, t: Layout)
    requires Fits(t, |y|)
    ensures Pattern1(ScaleAll(y, c), t) == Pattern1(y, t).Scale(c)
  {
    var w := Pattern1(y, t);
    var v := Pattern1(ScaleAll(y, c), t);
    TapSideLinear(y, c, t.t1, true, Norm(|t.t1|), w.l, v.l);
    TapSideLinear(y, c, t.t1, false, Norm(|t.t1|), w.r, v.r);
  }

  lemma Pattern2Linear(y: seq<real>, c: real, t: Layout)
    requires Fits(t, |y|)
    ensures Pattern2(ScaleAll(y, c), t) == Pattern2(y, t).Scale(c)
  {
    var w := Pattern2(y, t);
    var v := Pattern2(ScaleAll(y, c), t);
    TapSideLinear(y, c, t.l2, true, 0.25, w.l, v.l);
    TapSideLinear(y, c, t.r2, false, 0.25, w.r, v.r);
  }

  lemma Pattern3Linear(y: seq<real>, c: real, n: int)
    requires 1 <= n <= |y|
    ensures Pattern3(ScaleAll(y, c), n) == Pattern3(y, n).Scale(c)
  {
    var w := Pattern3(y, n);
    var v := Pattern3(ScaleAll(y, c), n);
    Pattern3Means(y, n);
    Pattern3Means(ScaleAll(y, c), n);
    StrideSideLinear(y, c, 0, (n + 1) / 2, Norm((n + 1) / 2), w.l, v.l);
    StrideSideLinear(y, c, 1, n / 2, Norm(n / 2), w.r, v.r);
  }

  /** Over any tables, scaling every line by `c` scales both outputs by `c`. */
  lemma RenderWithLinear(y: seq<real>, c: real, n: int, pid: int, t: Layout)
    requires 1 <= n <= |y| && Fits(t, n)
    ensures RenderWith(ScaleAll(y, c), n, pid, t) == RenderWith(y, n, pid, t).Scale(c)
  {
    if pid == 1 {
      Pattern1Linear(y, c, t);
    } else if pid == 2 {
      Pattern2Linear(y, c, t);
    } else if pid == 3 {
      Pattern3Linear(y, c, n);
    } else {
      Pattern0Linear(y, c, t);
    }
  }

  /** Rendering is linear in the line outputs: scaling every line by `c` scales both outputs
      by `c`. */
  lemma RenderLinear(y: seq<real>, c: real, lines: int, p: int)
    requires |y| == Matrices.MaxLines
    ensures Render(ScaleAll(y, c), lines, p) == Render(y, lines, p).Scale(c)
  {
    var n := Matrices.ClampLines(lines);
    var t := Tables(n);
    var pid := PatternId(p);
    RenderWithLinear(y, c, n, pid, t);
    assert Render(y, lines, p) == RenderWith(y, n, pid, t);
    assert Render(ScaleAll(y, c), lines, p) == RenderWith(ScaleAll(y, c), n, pid, t);
  }

  /** Silent lines render silence. */
  lemma RenderSilence(lines: int, p: int)
    ensures Render(seq(Matrices.MaxLines, _ => 0.0), lines, p) == Wet(0.0, 0.0)
  {
    var zero: seq<real> := seq(Matrices.MaxLines, _ => 0.0);
    assert ScaleAll(zero, 0.0) == zero;
    RenderLinear(zero, 0.0, lines, p);
  }

  // ---------------------------------------------------------------------------------------
  // renderMorphingPattern

  /** The blend `(1 - m) * a + m * b` of one channel. */
  function Blend(a: real, b: real, m: real): (x: real)
    requires 0.0 <= m <= 1.0
    ensures Between(x, a, b)
    ensures m == 0.0 ==> x == a
    ensures m == 1.0 ==> x == b
    ensures a == b ==> x == a
  {
    var x := (1.0 - m) * a + m * b;
    ConvexBetween(b, a, m);
    assert x == m * b + (1.0 - m) * a;
    assert Between(x, a, b);
    Sums.Distrib(a, 1.0 - m, m);
    x
  }

  /** `renderMorphingPattern`: `morph01` clamped to [0, 1], then
      `(1 - morph01) * A + morph01 * B` per channel. */
  function Morph(y: seq<real>, lines: int, a: int, b: int, morph: real): (w: Wet)
    requires |y| == Matrices.MaxLines
    ensures morph <= 0.0 ==> w == Render(y, lines, a)
    ensures morph >= 1.0 ==> w == Render(y, lines, b)
    ensures (a - b) % 4 == 0 ==> w == Render(y, lines, a)
    ensures Between(w.l, Render(y, lines, a).l, Render(y, lines, b).l)
    ensures Between(w.r, Render(y, lines, a).r, Render(y, lines, b).r)
  {
    var m := Clamp01(morph);
    var wa := Render(y, lines, a);
    var wb := Render(y, lines, b);
    SameResidue(a, b);
    RenderById(y, lines, a, b);
    Wet(Blend(wa.l, wb.l, m), Blend(wa.r, wb.r, m))
  }
}

=== FILE: tap_patterns_legacy.dfy ===
/** The earlier revision of the output tap patterns (Source/ReverbCore/TapPatterns.cpp).
    Patterns 0 to 2, `wrapIndex` and the pattern selection are the current ones (the constants
    `1/7`, `1/6` and `0.25` are the tap counts of the current tables). Pattern 3 keeps a single
    counter of the even-indexed taps and normalises both sides by it. */
module TapPatternsLegacy {
  import Matrices
  import TP = TapPatterns

  /** Legacy pattern 3: L sums the even-indexed lines and R the odd-indexed ones, and both are
      multiplied by `1/taps` where `taps` counts the even indices only. */
  function Pattern3(y: seq<real>, n: int): TP.Wet
    requires 1 <= n <= |y|
  {
    var a := TP.Pattern3Loop(y, n);
    TP.Wet(a.sumL * TP.Norm(a.tapsL), a.sumR * TP.Norm(a.tapsL))
  }

  /** Legacy `renderTapPattern`: the same clamp, selector and switch as the current source,
      with the legacy pattern 3. */
  function Render(y: seq<real>, lines: int, patternId: int): TP.Wet
    requires |y| == Matrices.MaxLines
  {
    var n := Matrices.ClampLines(lines);
    var pid := TP.PatternId(patternId);
    if pid == 3 then Pattern3(y, n) else TP.RenderWith(y, n, pid, TP.Tables(n))
  }

  /** The two revisions render the same pair for patterns 0 to 2 and, for an even line count,
      for pattern 3 too: then both sides have `lines/2` taps. Their L outputs always agree. */
  lemma RenderAgrees(y: seq<real>, lines: int, p: int)
    requires |y| == Matrices.MaxLines
    ensures TP.PatternId(p) != 3 ==> Render(y, lines, p) == TP.Render(y, lines, p)
    ensures Matrices.ClampLines(lines) % 2 == 0 ==> Render(y, lines, p) == TP.Render(y, lines, p)
    ensures Render(y, lines, p).l == TP.Render(y, lines, p).l
  {
    var n := Matrices.ClampLines(lines);
    var pid := TP.PatternId(p);
    if pid == 3 {
      assert TP.Render(y, lines, p) == TP.Pattern3(y, n);
      Pattern3Agrees(y, n);
    } else {
      assert TP.Render(y, lines, p) == TP.RenderWith(y, n, pid, TP.Tables(n));
    }
  }

  /** The two pattern 3s share L, and R too when the line count is even. */
  lemma Pattern3Agrees(y: seq<real>, n: int)
    requires 1 <= n <= |y|
    ensures Pattern3(y, n).l == TP.Pattern3(y, n).l
    ensures n % 2 == 0 ==> Pattern3(y, n) == TP.Pattern3(y, n)
  {
    TP.Pattern3Sums(y, n);
  }

  /** Every line at 1. */
  const Ones: seq<real> := seq(Matrices.MaxLines, _ => 1.0)

  /** With three lines at 1 the legacy pattern 3 gives `wetR = 0.5`: R sums the one odd line
      but divides by the two even taps. The current pattern 3 divides by R's own tap count and
      gives the mean, 1. */
  lemma ThreeLinesHalvesRight()
    ensures Render(Ones, 3, 3).l == 1.0 && Render(Ones, 3, 3).r == 0.5
    ensures TP.Render(Ones, 3, 3) == TP.Wet(1.0, 1.0)
  {
    TP.Pattern3Sums(Ones, 3);
    assert Ones[0] == 1.0 && Ones[1] == 1.0 && Ones[2] == 1.0;
    assert TP.StrideSum(Ones, 1, 1) == 1.0;
    assert TP.StrideSum(Ones, 0, 1) == 1.0;
    assert TP.StrideSum(Ones, 0, 2) == 2.0;
    assert TP.Render(Ones, 3, 3) == TP.Pattern3(Ones, 3);
    TP.Pattern3Constant(Ones, 3, 1.0);
  }
}
